=== FILE: README.md ===
# Time Loop City — a Dafny model of the game core

Time Loop City is a Unity game in which the player relives the same day of a
city over and over. This project models the game's core logic as immutable
Dafny datatypes and pure functions, and proves properties about them:

- the loop controller (`TimeLoopManager`) with its reset protocol and delayed restart;
- the clue memory that survives a reset (`PersistentClueSystem`, `ClueDatabase`);
- the two mission managers (prerequisites, rewards, completion);
- the per-loop world state, which draws weather, hour, traffic and activity from the loop seed;
- the random event spawner;
- both NPC controllers (routes, patrols, dialogue selection), the NPC memory component and the NPC schedule brain;
- the dialogue state machine;
- both time-of-day systems, the weather system and the HUD clock text;
- the object pool and the traffic system;
- the end-game trigger and the interactable objects;
- the procedural geometry: road network, building architect, building mesh, props and districts;
- the audio cue.

Some conventions run through the whole model:

- A Unity `float` is a `real`. Rounding is not modelled.
- A reference that the code checks for null is an `Option`.
- A null reference the code dereferences is an explicit `Outcome` or `None` result.
- Unity's `Random` is an abstract generator `g`: `g(seed, k)` is the k-th fraction drawn after `InitState(seed)`.
- Game events an operation raises are appended to a trace, which lets contracts state their order. Log lines (`Debug.Log`) are not recorded.
- Mission notifications (`MissionData.Notice`) are recorded whether or not a `NotificationUI` instance exists. The code calls `NotificationUI.Instance?.ShowNotification`, so with no instance nothing is shown (Assets/TimeLoopCity/Scripts/Managers/MissionManager.cs:108, :122; Scripts/Managers/MissionManager.cs:99, :110). The clue system records each id passed to `ShowClueNotification` in `notified`, although that method only logs (Assets/TimeLoopCity/Scripts/Core/PersistentClueSystem.cs:87-91).
- The dialogue manager records each sentence it shows in `spoken` and the choices it offers in `offered` whether or not a `DialogueUI` instance exists. The code calls `DialogueUI.Instance?.ShowChoices` and types a sentence only when the instance is not null (Assets/TimeLoopCity/Scripts/Dialogue/DialogueManager.cs:62, :73-76), so with no instance nothing is shown.
- C# `int` arithmetic that can wrap is written out with `WrapInt32`.
- C#'s truncating `%` is written out with `CsRem`.

## Model

| member | source | states |
|---|---|---|
| TimeLoop.Create | Scripts/TimeLoop/TimeLoopManager.cs:17-24 | a fresh manager is at loop 0, time 0, not resetting, with no clues and nothing raised yet |
| TimeLoop.Boot | Scripts/TimeLoop/TimeLoopManager.cs:61-64 | `Start()` begins the first loop at once: time 0, reset flag clear, one loop-start event |
| TimeLoop.StartLoop | Scripts/TimeLoop/TimeLoopManager.cs:83-89 | starting a loop rewinds time to 0 and ends any reset, raises exactly one loop-start event, and keeps the count, the clues and auto-reset |
| TimeLoop.ResetLoop | Scripts/TimeLoop/TimeLoopManager.cs:94-113 | a reset during a reset is ignored. Otherwise the count rises by one, then the count-changed event (carrying the new count), the reset event, the teleport and the scheduled restart happen in that order. Time and clues are untouched |
| TimeLoop.ForceResetLoop | Scripts/TimeLoop/TimeLoopManager.cs:118-121 | a forced reset obeys the same guard and protocol as a timed one, however much time has elapsed |
| TimeLoop.FireScheduledStart | Scripts/TimeLoop/TimeLoopManager.cs:112 | the restart scheduled one second after a reset starts the new loop. Without a pending restart nothing happens |
| TimeLoop.Update | Scripts/TimeLoop/TimeLoopManager.cs:66-78 | a frame does nothing while resetting. Otherwise time advances by the frame time and the time-updated event is raised; when the loop is over and auto-reset is on, a full reset follows |
| TimeLoop.StopLoop | Scripts/TimeLoop/TimeLoopManager.cs:126-132 | stopping only switches automatic resets off; everything else is kept |
| TimeLoop.AddClue | Scripts/TimeLoop/TimeLoopManager.cs:151-159 | the clue set gains the id. A known id changes nothing. A new id saves the whole new set when a save manager exists, and nothing but the clue set and the trace changes |
| TimeLoop.LoadClues | Scripts/TimeLoop/TimeLoopManager.cs:172-175 | after loading, the manager holds exactly the loaded clues; the count, time, reset state, pending start, auto-reset, duration and raised events are untouched |
| TimeLoop.GetAllClues | Scripts/TimeLoop/TimeLoopManager.cs:180-183 | the copy contains an id exactly when the manager has that clue |
| TimeLoop.HasClueAfterAdd | Scripts/TimeLoop/TimeLoopManager.cs:164-167 | after adding a clue the manager reports it held, and reports any other id held exactly when it did before |
| TimeLoop.GetLoopSeed | Scripts/TimeLoop/TimeLoopManager.cs:189-192 | the seed of a loop is its loop count, so it is never negative |
| TimeLoop.LoopProgress | Scripts/TimeLoop/TimeLoopManager.cs:37 | progress lies in [0, 1] while the elapsed time is within the loop, and is at least 1 once the loop length is reached |
| TimeLoop.ResetThenStart | Scripts/TimeLoop/TimeLoopManager.cs:83-121 | a forced reset followed by the delayed start gives a loop at time 0 whose seed is one higher, with clues and auto-reset kept and exactly five events raised in protocol order |
| TimeLoop.ApplyKeepsCounts | Scripts/TimeLoop/TimeLoopManager.cs:66-159 | no public operation lowers the count or raises it by more than one, none loses a clue, and each keeps the announced counts stepping by one |
| TimeLoop.AddedEvents | Scripts/TimeLoop/TimeLoopManager.cs:66-159 | each operation only appends to what was raised before; an operation that raises the count announces exactly the new count, and any other announces none |
| TimeLoop.RunMonotone | Scripts/TimeLoop/TimeLoopManager.cs:94-113 | over any sequence of operations the loop count never decreases and rises at most once per operation, clues are never lost, and the announced counts are consecutive and end at the current count |
| TimeLoop.StoppedTicksNeverReset | Scripts/TimeLoop/TimeLoopManager.cs:66-78 | after auto-reset is switched off, no sequence of frames resets the loop or changes the count |
| TimeLoop.StopThenForce | Scripts/TimeLoop/TimeLoopManager.cs:118-132 | a stopped loop can still be force-reset: the count rises by one and auto-reset stays off |
| TimeLoop.TickResetsIffLoopOver | Scripts/TimeLoop/TimeLoopManager.cs:73-77 | with auto-reset on, a frame resets the loop if and only if it brings the elapsed time to the loop length |
| Clues.DiscoverClue | Assets/TimeLoopCity/Scripts/Core/PersistentClueSystem.cs:39-54 | afterwards the clue is held. A known id changes nothing. A new id is added, forwarded to the loop manager when one exists, and notified exactly once |
| Clues.HasClueAfterDiscover | Assets/TimeLoopCity/Scripts/Core/PersistentClueSystem.cs:59-62 | after discovering a clue the clue system reports it held, and reports any other id held exactly when it did before |
| Clues.Discover | Assets/TimeLoopCity/Scripts/Core/PersistentClueSystem.cs:39-54 | a discovery through the singleton adds the id to the clue system when one exists and otherwise does nothing. It forwards a new id to the loop manager and never changes the loop count |
| Clues.DiscoverKeepsSync | Assets/TimeLoopCity/Scripts/Core/PersistentClueSystem.cs:41-49 | when the clue system and the loop manager hold the same clues, they still do after any discovery |
| Clues.DiscoverIdempotent | Assets/TimeLoopCity/Scripts/Core/PersistentClueSystem.cs:41 | discovering the same clue twice has the same effect as discovering it once |
| Clues.GetAllClues | Assets/TimeLoopCity/Scripts/Core/PersistentClueSystem.cs:67-70 | the copy contains an id exactly when the clue has been discovered |
| Clues.LoadCluesFromSave | Assets/TimeLoopCity/Scripts/Core/PersistentClueSystem.cs:75-82 | with a loop manager, the discovered set becomes exactly the manager's clues; without one nothing changes |
| Clues.LoadEstablishesSync | Assets/TimeLoopCity/Scripts/Core/PersistentClueSystem.cs:30-34 | after the clue system starts next to a loop manager, the two hold the same clues |
| Clues.GetClue | Assets/TimeLoopCity/Scripts/Core/PersistentClueSystem.cs:114-117 | the lookup is null exactly when no entry has the id; otherwise it returns the first entry with that id |
| Clues.GetClueData | Assets/TimeLoopCity/Scripts/Core/PersistentClueSystem.cs:96-103 | without a database the result is null. A result is always a database entry with the asked id, and one exists whenever an entry has that id |
| MissionData.NonEmptyIds | Assets/TimeLoopCity/Scripts/Managers/MissionManager.cs:130-134 | the ids a reward pass discovers are exactly the non-empty ids of the list |
| Missions.AllHeld | Assets/TimeLoopCity/Scripts/Managers/MissionManager.cs:90-96 | the front-to-back scan succeeds exactly when every required clue is held |
| Missions.CanStartMission | Assets/TimeLoopCity/Scripts/Managers/MissionManager.cs:81-100 | a mission may start exactly when its loop gate passes (no loop manager, or the current loop has reached the required count) and its clue gate passes (no clue system, or every required clue is held) |
| Missions.StartMission | Assets/TimeLoopCity/Scripts/Managers/MissionManager.cs:102-109 | afterwards a non-null mission is active. A null or already active mission changes nothing. Any other mission, even a completed one, is appended once and announced. No duplicates are introduced |
| Missions.CheckOne | Assets/TimeLoopCity/Scripts/Managers/MissionManager.cs:69-78 | one visit of the check appends and announces the entry exactly when it is non-null, neither active nor completed, and may start; otherwise nothing changes |
| Missions.CheckFromFrame | Assets/TimeLoopCity/Scripts/Managers/MissionManager.cs:67-79 | the check only appends to the active list, keeps its old contents as a prefix, and introduces no duplicates |
| Missions.CheckFromGains | Assets/TimeLoopCity/Scripts/Managers/MissionManager.cs:67-79 | every mission the check adds is a startable authored entry that was neither active nor completed before |
| Missions.CheckFromStarts | Assets/TimeLoopCity/Scripts/Managers/MissionManager.cs:67-79 | every startable authored mission that is not completed is active after the check |
| Missions.CheckFromNotices | Assets/TimeLoopCity/Scripts/Managers/MissionManager.cs:67-79 | the check raises one new-mission notice per mission it adds, in the order it adds them, and no other notice |
| Missions.CheckMissionPrerequisites | Assets/TimeLoopCity/Scripts/Managers/MissionManager.cs:67-79 | the missions already active stay active, in place, and the missions added are exactly the startable authored missions that were neither active nor completed. Each added mission is announced once as new, in order. The authored and completed lists are unchanged, and no list gains a duplicate |
| Missions.CheckIdempotent | Assets/TimeLoopCity/Scripts/Managers/MissionManager.cs:67-79 | with the loop count and clues unchanged, a second check starts nothing more |
| Missions.GrantFrom | Assets/TimeLoopCity/Scripts/Managers/MissionManager.cs:126-135 | without a clue system nothing changes. Otherwise exactly the non-empty reward ids are added to the discovered clues, the loop count is kept, and clue system and loop manager stay in step |
| Missions.GrantRewards | Assets/TimeLoopCity/Scripts/Managers/MissionManager.cs:126-135 | after granting, a clue is held exactly when it was held before or is a non-empty reward id of the mission |
| Missions.CompleteMission | Assets/TimeLoopCity/Scripts/Managers/MissionManager.cs:111-124 | a mission that is not active changes nothing. An active one leaves the active list, joins the completed list once, is announced, and has its rewards granted. The authored list is unchanged |
| Missions.RewardsUnlockAtNextCheck | Assets/TimeLoopCity/Scripts/Managers/MissionManager.cs:111-135 | completing a mission does not start the missions its reward clues unlock; the next check starts them |
| Missions.OnEnable | Assets/TimeLoopCity/Scripts/Managers/MissionManager.cs:38-44 | the registry listens to loop starts after enabling exactly when it listened before or a loop manager exists |
| Missions.OnDisable | Assets/TimeLoopCity/Scripts/Managers/MissionManager.cs:46-52 | the registry stops listening when a loop manager exists and otherwise keeps its state |
| Missions.Start | Assets/TimeLoopCity/Scripts/Managers/MissionManager.cs:54-57 | starting the registry runs one prerequisite check |
| Missions.LoopStarted | Assets/TimeLoopCity/Scripts/Managers/MissionManager.cs:59-62 | a listening registry runs the prerequisite check at each loop start; a registry that is not listening is unaffected |
| StarterMissions.StartMission | Scripts/Managers/MissionManager.cs:94-100 | the mission is appended and announced without any check, so its number of occurrences in the active list rises by one |
| StarterMissions.DirectStartDuplicates | Scripts/Managers/MissionManager.cs:94-100 | starting an already active mission directly leaves it in the active list twice |
| StarterMissions.CheckOne | Scripts/Managers/MissionManager.cs:61-69 | one visit of the check appends and announces the mission exactly when it is neither active nor completed and may start; otherwise nothing changes |
| StarterMissions.CheckFromFrame | Scripts/Managers/MissionManager.cs:59-70 | the check only appends to the active list, keeps its old contents as a prefix, and introduces no duplicates |
| StarterMissions.CheckFromGains | Scripts/Managers/MissionManager.cs:59-70 | every mission the check adds is a startable authored mission that was neither active nor completed before |
| StarterMissions.CheckFromStarts | Scripts/Managers/MissionManager.cs:59-70 | every startable authored mission that is not completed is active after the check |
| StarterMissions.CheckFromNotices | Scripts/Managers/MissionManager.cs:59-70 | the check raises one new-mission notice per mission it adds, in the order it adds them, and no other notice |
| StarterMissions.CheckMissionPrerequisites | Scripts/Managers/MissionManager.cs:59-92 | the missions already active stay active, in place, and the missions added are exactly the startable authored missions that were neither active nor completed, with the same gates as the game's registry. Each added mission is announced once as new, in order. The authored and completed lists are unchanged, and the check itself adds no duplicate |
| StarterMissions.DiscoverAll | Scripts/Managers/MissionManager.cs:121-124 | one pass of the inner reward loop adds every reward id to the discovered clues, empty ids included, and keeps the loop count |
| StarterMissions.DiscoverAllHeld | Scripts/Managers/MissionManager.cs:121-124 | a pass over ids that are all held already changes nothing |
| StarterMissions.GrantRewards | Scripts/Managers/MissionManager.cs:117-126 | the nested reward loop has the same effect as a single pass over the rewards. With no rewards nothing changes |
| StarterMissions.NestedSinglePass | Scripts/Managers/MissionManager.cs:119-125 | repeating the inner pass any positive number of times leaves the same state as one pass |
| StarterMissions.CompleteMission | Scripts/Managers/MissionManager.cs:102-115 | a mission that is not active changes nothing. An active one leaves the active list, is appended to the completed list even if it is already there, is announced, and has its rewards granted |
| StarterMissions.Start | Scripts/Managers/MissionManager.cs:37-48 | starting the registry runs one check first, then listens to loop starts when a loop manager exists |
| StarterMissions.LoopStarted | Scripts/Managers/MissionManager.cs:50-54 | a listening registry runs the check at each loop start; a registry that is not listening is unaffected |
| WorldState.RandomizeWorldState | Scripts/World/WorldStateManager.cs:48-63 | without a loop manager the call fails (null reference). Otherwise the generator is seeded with the loop seed, and the first four draws give the weather, the hour, the traffic density and the NPC activity, in that order. Exactly four draws are used; the loop number is the current count; and hour, density and activity lie in [6, 18], [0.3, 1] and [0.5, 1] |
| WorldState.SameLoopSameWorld | Scripts/World/WorldStateManager.cs:50-60 | two managers at the same loop count always yield the same world state |
| WorldState.ResetDrawsForNewLoop | Scripts/World/WorldStateManager.cs:36 | the state drawn on the reset event belongs to the new loop, one higher than before the reset |
| WorldState.ApplyWorldState | Scripts/World/WorldStateManager.cs:68-88 | the stored weather goes to the weather system and the stored hour to the clock, each only when that system exists. Afterwards the weather system's current weather is the stored one, and the clock reads back the stored hour |
| WorldState.Start | Scripts/World/WorldStateManager.cs:31-43 | without a loop manager the start fails. Otherwise the manager subscribes, draws the state once and applies it |
| WorldState.LoopReset | Scripts/World/WorldStateManager.cs:36 | a subscribed manager replaces its state with the one drawn for the manager's loop; an unsubscribed one is unaffected |
| WorldState.LoopStart | Scripts/World/WorldStateManager.cs:37 | a subscribed manager applies its stored state, which fails when nothing has been drawn yet; an unsubscribed one changes nothing |
| WorldState.ResetThenStartAppliesNewLoop | Scripts/World/WorldStateManager.cs:36-37 | across a reset and the delayed start, the weather and hour applied are the ones drawn for the new loop count |
| Random.NextInt | Scripts/World/WorldStateManager.cs:56 | an integer range draw consumes exactly one value of the seeded stream, and for lo < hi the result lies in [lo, hi) |
| Random.NextReal | Scripts/World/WorldStateManager.cs:57-59 | a float range draw consumes exactly one value of the seeded stream, and the result lies between the bounds |
| Random.IntIn | Scripts/World/WorldStateManager.cs:56 | an integer range is half-open: [lo, hi) for lo < hi, lo when the bounds are equal, and (hi, lo] when they are reversed |
| Random.RealIn | Scripts/World/WorldStateManager.cs:57-59 | a float range includes both bounds: the least value gives lo, the greatest gives hi |
| Weather.Ordinal | Scripts/World/WorldStateManager.cs:142-149 | every weather kind has a value in [0, 5), the range the world state draws from |
| Weather.FromOrdinal | Scripts/World/WorldStateManager.cs:56 | the cast of a drawn index gives the kind with that value |
| Weather.OrdinalRoundTrip | Scripts/World/WorldStateManager.cs:142-149 | casting a kind's value back gives the same kind |
| Weather.TargetFog | Assets/Scripts/World/WeatherSystem.cs:49-80 | the target fog density lies in [0, 0.05] and is zero exactly for sunny weather |
| Weather.RainRate | Assets/Scripts/World/WeatherSystem.cs:53-60 | rain and storm set a rain emission rate; no other weather does |
| Weather.LerpFactor | Assets/Scripts/World/WeatherSystem.cs:82 | the transition factor lies in [0, 1] and is 1 for an instant change |
| Weather.ApplyWeather | Assets/Scripts/World/WeatherSystem.cs:41-87 | every effect is stopped first. Then the rain effect plays exactly for rain and storm, at their rate; the fog effect plays exactly for fog; snow never plays; and the sun dims to 70% for cloud. The fog density moves from its old value towards the target without overshooting, reaching it when instant, and fog is rendered for every weather except sun. The current weather is not changed |
| Weather.Start | Assets/Scripts/World/WeatherSystem.cs:20-24 | at start the configured weather is applied at once: the fog density is its target, and fog is rendered unless it is sunny |
| Weather.SetWeather | Assets/Scripts/World/WeatherSystem.cs:29-36 | afterwards the asked weather is current. Asking for the current weather changes nothing; any other weather is applied as a gradual transition |
| Weather.SetWeatherIdempotent | Assets/Scripts/World/WeatherSystem.cs:31 | setting the same weather twice is the same as setting it once |
| StarterTimeOfDay.Create | Scripts/World/TimeOfDaySystem.cs:16-17 | a fresh clock shows 8 AM at real-time speed |
| StarterTimeOfDay.Update | Scripts/World/TimeOfDaySystem.cs:22-32 | while a loop runs, the hour follows the loop's progress from 6 to 20 and stays within [6, 20]. While resetting, or without a loop manager, the hour stays where it is |
| StarterTimeOfDay.SetTimeOfDay | Scripts/World/TimeOfDaySystem.cs:66-70 | the hour set is clamped to [0, 24]: kept when inside, 0 below, 24 above |
| StarterTimeOfDay.SetThenGet | Scripts/World/TimeOfDaySystem.cs:66-72 | the hour read back is the clamped hour last set, and no frame moves it while the loop resets or when there is no loop manager |
| StarterTimeOfDay.LoopEndpoints | Scripts/World/TimeOfDaySystem.cs:25-28 | a loop's start shows 6 AM and its end shows 8 PM |
| StarterTimeOfDay.IsNight | Scripts/World/TimeOfDaySystem.cs:73 | night is exactly the hours outside [6, 20], the span a running loop covers |
| StarterTimeOfDay.SetNightIff | Scripts/World/TimeOfDaySystem.cs:66-73 | after setting an hour the clock reports night exactly when that hour is before 6 or after 20, clamping included |
| TimeOfDay.Create | Assets/TimeLoopCity/Scripts/World/TimeOfDaySystem.cs:19-28 | a fresh clock shows 8 AM at real-time speed and has broadcast nothing, with -1 as the last hour |
| TimeOfDay.BroadcastHourIfNeeded | Assets/TimeLoopCity/Scripts/World/TimeOfDaySystem.cs:101-108 | the whole hour (floored) is broadcast only when it differs from the last one broadcast, and is then remembered |
| TimeOfDay.BroadcastIdempotent | Assets/TimeLoopCity/Scripts/World/TimeOfDaySystem.cs:101-108 | a second broadcast check right after the first raises nothing |
| TimeOfDay.FirstBroadcastFires | Assets/TimeLoopCity/Scripts/World/TimeOfDaySystem.cs:28 | a fresh clock's first check always broadcasts, since no hour in [0, 24] floors to -1 |
| TimeOfDay.Update | Assets/TimeLoopCity/Scripts/World/TimeOfDaySystem.cs:49-64 | while a loop runs, the hour follows the loop's progress from 6 to 20. Otherwise it advances by speed times frame time and wraps into [0, 24). The new hour is then broadcast if its whole hour changed |
| TimeOfDay.SetTimeOfDay | Assets/TimeLoopCity/Scripts/World/TimeOfDaySystem.cs:91-96 | the hour set is clamped to [0, 24] and then broadcast if its whole hour changed |
| TimeOfDay.RunningLoopIsDay | Assets/TimeLoopCity/Scripts/World/TimeOfDaySystem.cs:49-55 | while a loop runs, the clock never reports night |
| TimeOfDay.IsNight | Assets/TimeLoopCity/Scripts/World/TimeOfDaySystem.cs:99 | night is exactly the hours outside [6, 20], the span a running loop covers |
| TimeOfDay.SetThenGet | Assets/TimeLoopCity/Scripts/World/TimeOfDaySystem.cs:91-99 | the hour read back after a set is the clamped hour, and night is reported exactly when the set hour is before 6 or after 20 |
| TimeOfDay.FreeRunningNight | Assets/TimeLoopCity/Scripts/World/TimeOfDaySystem.cs:49-64 | a free-running clock (no loop manager, or the loop resetting) reads its advanced hour and reports night exactly when that hour is before 6 or after 20, so running past 20:00 reaches night |
| Events.Ordinal | Assets/TimeLoopCity/Scripts/Events/RandomEventSpawner.cs:150-157 | every event kind has a value in [0, 5), the range an attempt draws its kind from |
| Events.FromOrdinal | Assets/TimeLoopCity/Scripts/Events/RandomEventSpawner.cs:66 | the cast of a drawn index gives the kind whose value it is; 0 is a fire and 4 a parade |
| Events.OrdinalRoundTrip | Assets/TimeLoopCity/Scripts/Events/RandomEventSpawner.cs:150-157 | casting a kind's value back gives the same kind |
| Events.Create | Assets/TimeLoopCity/Scripts/Events/RandomEventSpawner.cs:13-24 | a fresh spawner allows at most 3 events per loop, each with chance 0.7, and has no live events |
| Events.Live | Assets/TimeLoopCity/Scripts/Events/RandomEventSpawner.cs:132-138 | the live objects are exactly the non-null entries of the list, in order |
| Events.ClearEvents | Assets/TimeLoopCity/Scripts/Events/RandomEventSpawner.cs:130-140 | clearing destroys every live event object, in order, and empties the list; nothing else changes |
| Events.SpawnEvent | Assets/TimeLoopCity/Scripts/Events/RandomEventSpawner.cs:77-93 | a kind without a prefab spawns nothing; a kind with a prefab adds one object of that kind at the spawn point |
| Events.Attempts | Assets/TimeLoopCity/Scripts/Events/RandomEventSpawner.cs:58-69 | each attempt adds at most one object, only appends, and places every object at a configured spawn point with a kind that has a prefab |
| Events.EventSeed | Assets/TimeLoopCity/Scripts/Events/RandomEventSpawner.cs:53-54 | the pass is seeded with the loop seed plus 1000, or with 1000 when there is no loop manager |
| Events.AttemptCount | Assets/TimeLoopCity/Scripts/Events/RandomEventSpawner.cs:56 | the number of attempts lies between 1 and the configured maximum. At `int.MaxValue` the bound `maxEventsPerLoop + 1` wraps, the range is reversed and at most one attempt is made; at a maximum below 1 at most one is made too |
| Events.SpawnRandomEvents | Assets/TimeLoopCity/Scripts/Events/RandomEventSpawner.cs:41-72 | a pass first destroys the previous events. With no spawn points nothing is spawned. Otherwise at most the configured number of events appear (at most one when the maximum is `int.MaxValue`), each at a spawn point and of a kind that has a prefab |
| Events.SameLoopSameEvents | Assets/TimeLoopCity/Scripts/Events/RandomEventSpawner.cs:53-54 | events are determined by the loop count: two managers at the same count spawn the same events |
| Events.RespawnSameLoop | Assets/TimeLoopCity/Scripts/Events/RandomEventSpawner.cs:31-32 | because the spawner listens to both the reset and the start event, a loop is spawned twice with the same seed. The second pass destroys the first pass's objects and recreates the same events |
| Events.SpawnIgnoresHistory | Assets/TimeLoopCity/Scripts/Events/RandomEventSpawner.cs:41-72 | what a pass spawns does not depend on the objects already there |
| Events.NoChanceNoEvents | Assets/TimeLoopCity/Scripts/Events/RandomEventSpawner.cs:60-68 | with a negative chance, or without any prefab, a pass leaves no events |
| DialogueManager.Create | Assets/TimeLoopCity/Scripts/Dialogue/DialogueManager.cs:19-28 | a fresh manager has an empty queue, no current dialogue, and is not active |
| DialogueManager.SetPaused | Assets/TimeLoopCity/Scripts/Dialogue/DialogueManager.cs:38-41 | the pause flag is set only when a game manager exists; clues and missions are untouched |
| DialogueManager.DisplayNextSentence | Assets/TimeLoopCity/Scripts/Dialogue/DialogueManager.cs:56-78 | the call fails (null reference) exactly when the queue is empty and there is no current dialogue. With sentences left, the oldest is dequeued and shown. With none left, the dialogue's choices are offered if it has any; otherwise the dialogue ends |
| DialogueManager.StartDialogue | Assets/TimeLoopCity/Scripts/Dialogue/DialogueManager.cs:30-54 | a null dialogue is ignored. Otherwise the dialogue becomes current and active, the game pauses, the queue is replaced by its sentences, and the first one is shown at once |
| DialogueManager.EndDialogue | Assets/TimeLoopCity/Scripts/Dialogue/DialogueManager.cs:100-129 | ending makes the dialogue inactive, applies the current dialogue's effects, and unpauses the game when a game manager exists. The current dialogue is not cleared |
| DialogueManager.Effects | Assets/TimeLoopCity/Scripts/Dialogue/DialogueManager.cs:106-123 | a dialogue's effects happen in order: its non-empty clue is discovered, then its start mission is started, then its complete mission is completed. Each goes through the manager that exists; a dialogue with no clue and no complete mission leaves the clues alone |
| DialogueManager.GiveClue | Assets/TimeLoopCity/Scripts/Dialogue/DialogueManager.cs:109-112 | only a non-empty clue id is discovered |
| DialogueManager.OnChoiceSelected | Assets/TimeLoopCity/Scripts/Dialogue/DialogueManager.cs:80-98 | a choice with a next dialogue starts it; any other choice ends the conversation |
| DialogueManager.SentencesInOrder | Assets/TimeLoopCity/Scripts/Dialogue/DialogueManager.cs:56-78 | the queue is first in, first out: k presses while sentences remain show the next k sentences in their order and change nothing else |
| DialogueManager.WholeDialogue | Assets/TimeLoopCity/Scripts/Dialogue/DialogueManager.cs:30-78 | in a dialogue without choices, one press per remaining sentence shows them all in order, and the press after that ends the dialogue |
| DialogueManager.StartAndCompleteSameMission | Assets/TimeLoopCity/Scripts/Dialogue/DialogueManager.cs:114-122 | a dialogue that both starts and completes the same mission finishes it, whether or not it was completed before: the mission ends up completed and not active, and its reward clues are held |
| BestDialogue.CurrentLoop | Assets/TimeLoopCity/Scripts/AI/NPCController.cs:240 | the current loop is the manager's count, or 0 without a manager |
| BestDialogue.SortLoopSpecificDialogues | Assets/TimeLoopCity/Scripts/AI/NPCController.cs:257-266 | the sorted list is a permutation of the given one, ordered by the comparator: highest required loop first, null entries last |
| BestDialogue.FirstEligible | Assets/TimeLoopCity/Scripts/AI/NPCController.cs:242-252 | the scan stops at the first eligible entry (non-null, loop reached, clue requirement met) and skips only entries that are not eligible |
| BestDialogue.Select | Assets/TimeLoopCity/Scripts/AI/NPCController.cs:238-255 | the default dialogue is chosen exactly when no entry is eligible; otherwise the choice is the first eligible entry |
| BestDialogue.SelectPicksHighestEligible | Assets/TimeLoopCity/Scripts/AI/NPCController.cs:238-266 | on a list ordered highest loop first, the chosen dialogue is eligible and has the highest required loop of all eligible entries |
| BestDialogue.AnySortPicksHighestEligible | Assets/TimeLoopCity/Scripts/AI/NPCController.cs:257-266 | whatever order an unstable sort leaves among equal keys, the choice is an eligible dialogue with the highest required loop |
| Npc.RouteOf | Assets/TimeLoopCity/Scripts/AI/NPCController.cs:37 | the route in use is the current list, or empty before the first initialization |
| Npc.Create | Assets/TimeLoopCity/Scripts/AI/NPCController.cs:18-53 | a fresh controller has no route, index 0, is neither waiting nor subscribed, and holds its dialogues as a permutation ordered highest loop first |
| Npc.RoutineSeed | Assets/TimeLoopCity/Scripts/AI/NPCController.cs:123-124 | the routine is seeded with the loop seed (0 without a manager) plus the id's hash, wrapping at 32 bits |
| Npc.SelectWaypointList | Assets/TimeLoopCity/Scripts/AI/NPCController.cs:116-128 | the default route is used when randomization is off or there is no alternate route. Otherwise the alternate route is used exactly when the seeded draw exceeds one half |
| Npc.RouteDependsOnlyOnLoop | Assets/TimeLoopCity/Scripts/AI/NPCController.cs:123-127 | the route depends only on the loop count: equal counts give equal routes, and no manager counts as loop 0 |
| Npc.MoveToWaypoint | Assets/TimeLoopCity/Scripts/AI/NPCController.cs:130-142 | on an empty route nothing happens. Otherwise the index is clamped into the route; a null waypoint there changes nothing, and a real one becomes the current index and the agent's destination, with the agent moving again |
| Npc.MoveToNextWaypoint | Assets/TimeLoopCity/Scripts/AI/NPCController.cs:144-150 | on a non-empty route the index steps to its successor modulo the route length, and the NPC heads for that waypoint when it is not null. On an empty route nothing happens |
| Npc.PatrolCycles | Assets/TimeLoopCity/Scripts/AI/NPCController.cs:144-150 | the patrol is a cycle: after k steps the index is k places further on, modulo the route length, and the route is unchanged |
| Npc.InitializeRoutine | Assets/TimeLoopCity/Scripts/AI/NPCController.cs:103-114 | the selected route becomes current, at index 0, with waiting cleared. On a non-empty route the agent is warped to the first waypoint and sent there; a null first waypoint makes the warp fail |
| Npc.StartWaiting | Assets/TimeLoopCity/Scripts/AI/NPCController.cs:152-157 | waiting starts with the configured wait time and the agent stopped |
| Npc.Update | Assets/TimeLoopCity/Scripts/AI/NPCController.cs:70-91 | each frame first tries to subscribe. Without a route nothing else happens. A waiting NPC counts its timer down and moves to the next waypoint once the timer runs out. An NPC that has arrived starts waiting |
| Npc.SetSingleDestination | Assets/TimeLoopCity/Scripts/AI/NPCController.cs:163-174 | a null target is ignored. Otherwise the route becomes the single target, at index 0, and the agent heads there |
| Npc.TrySubscribe | Assets/TimeLoopCity/Scripts/AI/NPCController.cs:268-275 | the listeners are added only when not yet subscribed and a loop manager exists |
| Npc.TryUnsubscribe | Assets/TimeLoopCity/Scripts/AI/NPCController.cs:277-284 | the listeners are removed only when subscribed and a loop manager exists |
| Npc.SubscriptionIdempotent | Assets/TimeLoopCity/Scripts/AI/NPCController.cs:268-284 | the NPC never holds more than one pair of listeners, and a repeated subscribe or unsubscribe changes nothing |
| Npc.OnLoopEvent | Assets/TimeLoopCity/Scripts/AI/NPCController.cs:93-101 | both the loop-start and the loop-reset event re-initialize the routine for the current loop |
| Npc.GetDialogue | Assets/TimeLoopCity/Scripts/AI/NPCController.cs:201-209 | the memory line is used when a memory component remembers earlier loops; otherwise the NPC says "Hello there!" |
| Npc.GetBestDialogue | Assets/TimeLoopCity/Scripts/AI/NPCController.cs:238-255 | the chosen dialogue is the default or one of the NPC's dialogues, and anything but the default is eligible |
| Npc.BestDialogueIsHighest | Assets/TimeLoopCity/Scripts/AI/NPCController.cs:52 | after the sort in Awake, the NPC picks the eligible dialogue with the highest required loop among those it was given, and the default only when none is eligible |
| Npc.OnInteract | Assets/TimeLoopCity/Scripts/AI/NPCController.cs:211-236 | interacting stops the agent. The best dialogue is started when a dialogue manager exists and there is a dialogue; otherwise nothing else changes |
| StarterNpc.Create | Scripts/AI/NPCController.cs:43-59 | a fresh controller records whether a NavMesh was found, has no route, index 0, and is neither waiting nor subscribed; its dialogues are kept as given |
| StarterNpc.ChooseRoute | Scripts/AI/NPCController.cs:136-150 | with randomization off the default route is used. With it on, the alternate route is used exactly when the seeded draw exceeds one half and that route is not empty |
| StarterNpc.SameRouteAsOtherCopy | Scripts/AI/NPCController.cs:136-150 | for the same settings, loop and id hash, this controller walks the same waypoints as the controller under Assets |
| StarterNpc.MoveToWaypoint | Scripts/AI/NPCController.cs:200-208 | without a NavMesh, a route, or the agent on the NavMesh, nothing happens. Otherwise the index becomes current and the agent moves towards that waypoint |
| StarterNpc.InitializeRoutine | Scripts/AI/NPCController.cs:128-172 | without a NavMesh nothing happens. Otherwise the chosen route becomes current. On a non-empty route an agent on the NavMesh is warped to the first waypoint, and an agent off it is warped to the sampled NavMesh point; either way it is then sent to waypoint 0 (index 0, moving). An agent off the NavMesh with no sampled point is left as it was, index included |
| StarterNpc.Start | Scripts/AI/NPCController.cs:61-72 | at start the loop listeners are added when a manager exists, and then the routine is initialized: an agent on the NavMesh or warped onto it heads for the first waypoint of the chosen route at index 0; one that cannot be placed is left as it was |
| StarterNpc.OnLoopReset | Scripts/AI/NPCController.cs:177-195 | without a NavMesh a reset changes nothing. Otherwise the patrol is rewound (index 0, not waiting, timer 0) and the routine is chosen again for the new loop. An agent on the NavMesh or warped onto it then heads for the new route's first waypoint; one off the NavMesh with no sampled point is not moved at all; with an empty new route an agent on the NavMesh stays at the old route's start |
| StarterNpc.OnLoopStart | Scripts/AI/NPCController.cs:120-123 | a loop start re-initializes the routine: an agent on the NavMesh or warped onto it heads for the chosen route's first waypoint at index 0; one that cannot be placed is left as it was |
| StarterNpc.MoveToNextWaypoint | Scripts/AI/NPCController.cs:213-218 | on a route the index advances modulo the route length and stays within it, and the NPC heads there when it can move. Without a route nothing happens |
| StarterNpc.SetSingleDestination | Scripts/AI/NPCController.cs:223-233 | without a NavMesh, or with a null target, nothing happens. Otherwise the route becomes exactly the target, at index 0, and the NPC heads there when it is on the NavMesh |
| StarterNpc.Update | Scripts/AI/NPCController.cs:74-98 | without a NavMesh nothing happens. A waiting NPC counts down and moves to the next waypoint when the timer runs out. An NPC that has arrived on the NavMesh starts waiting without stopping the agent |
| StarterNpc.GetBestDialogueAsWritten | Scripts/AI/NPCController.cs:321-346 | the sort in this copy fails (null reference) exactly when the list holds a null entry and at least two entries. Otherwise it returns what the corrected selection returns |
| StarterNpc.NullEntryBreaksSort | Scripts/AI/NPCController.cs:329 | a list holding a null entry and a dialogue usable in every loop makes the code as written fail, while the corrected selection returns that dialogue |
| StarterNpc.GetBestDialogue | Scripts/AI/NPCController.cs:321-346 | the list is stored back as a permutation ordered highest loop first, and the first eligible entry, or the default, is returned |
| StarterNpc.BestDialogueIsHighest | Scripts/AI/NPCController.cs:321-346 | with the corrected comparator the NPC picks the eligible dialogue with the highest required loop, and the default only when none is eligible |
| StarterNpc.OnInteract | Scripts/AI/NPCController.cs:292-319 | the agent stops when it is on the NavMesh. The best dialogue, chosen by the corrected selection `StarterNpc.GetBestDialogue` (see Findings), is started when a dialogue manager exists and there is a dialogue; otherwise no dialogue state changes |
| NpcMemory.Create | Assets/TimeLoopCity/Scripts/AI/NPCMemoryComponent.cs:12-24 | a fresh component cannot remember, has threshold 3, and has revealed nothing |
| NpcMemory.RemembersPreviousLoops | Assets/TimeLoopCity/Scripts/AI/NPCMemoryComponent.cs:38-44 | an NPC remembers exactly when it can remember and the current loop (0 without a manager) has reached its threshold |
| NpcMemory.GetMemoryDialogue | Assets/TimeLoopCity/Scripts/AI/NPCMemoryComponent.cs:49-60 | a remembering NPC with memory lines says one of them. Otherwise an NPC with normal lines says one of those, and an NPC with neither says "..." |
| NpcMemory.RevealSecret | Assets/TimeLoopCity/Scripts/AI/NPCMemoryComponent.cs:76-91 | only a revealing NPC that has not yet revealed does anything: the secret object, if there is one, becomes active, the reveal is recorded, and the memory effect is shown once |
| NpcMemory.OnLoopCountChanged | Assets/TimeLoopCity/Scripts/AI/NPCMemoryComponent.cs:65-71 | a change of loop count attempts a reveal only when the NPC remembers and has not yet revealed; the count passed in is ignored |
| NpcMemory.RevealAtMostOnce | Assets/TimeLoopCity/Scripts/AI/NPCMemoryComponent.cs:65-91 | over any sequence of loop-count changes the memory effect is shown at most once. A component that does not reveal secrets, or has already revealed, never changes |
| NpcBrain.Create | Assets/TimeLoopCity/Scripts/AI/NPCBrain.cs:23-28 | a fresh brain has its schedule as authored, no entry in force (-1), and no time system |
| NpcBrain.Subscribe | Assets/TimeLoopCity/Scripts/AI/NPCBrain.cs:87-96 | a brain that already listens keeps its listener; otherwise it starts listening when a time system is found |
| NpcBrain.SubscribeAtMostOnce | Assets/TimeLoopCity/Scripts/AI/NPCBrain.cs:41-47 | however often each frame retries the subscription, the brain holds at most one listener |
| NpcBrain.Start | Assets/TimeLoopCity/Scripts/AI/NPCBrain.cs:35-39 | at start the schedule is sorted by hour, earliest first, as a permutation, and then the brain subscribes |
| NpcBrain.OnDestroy | Assets/TimeLoopCity/Scripts/AI/NPCBrain.cs:49-55 | destroying the brain removes its listener, leaving none |
| NpcBrain.ExecuteSchedule | Assets/TimeLoopCity/Scripts/AI/NPCBrain.cs:72-85 | the NPC is sent to the scene object the entry names when it exists, as its single destination, and is left alone otherwise |
| NpcBrain.TakeOversSpec | Assets/TimeLoopCity/Scripts/AI/NPCBrain.cs:57-70 | the entries that take over during a check are exactly the reached entries, except the entry already in force when it is the first one reached; each appears once, in schedule order |
| NpcBrain.ScanSchedule | Assets/TimeLoopCity/Scripts/AI/NPCBrain.cs:59-69 | the scan executes exactly the entries that take over. Afterwards the entry in force is the last reached one, or the previous one when none is reached |
| NpcBrain.CheckSchedule | Assets/TimeLoopCity/Scripts/AI/NPCBrain.cs:57-70 | an hour change executes, in schedule order, every reached entry except an already-in-force first one. The last reached entry ends in force, and when nothing is reached nothing changes |
| NpcBrain.SortedReachedIsPrefix | Assets/TimeLoopCity/Scripts/AI/NPCBrain.cs:37 | on the sorted schedule, the entries whose hour is reached form a prefix |
| NpcBrain.CheckSortedSchedule | Assets/TimeLoopCity/Scripts/AI/NPCBrain.cs:37-70 | after the sort at start, an hour change leaves in force exactly the last entry whose hour is at most the current hour; an entry has been reached exactly when it comes no later |
| ObjectPool.Fill | Scripts/Core/ObjectPool.cs:20-25 | the constructor's loop queues each new object in the order it was made, inactive, and leaves the objects already known untouched |
| ObjectPool.Create | Scripts/Core/ObjectPool.cs:15-26 | a new pool holds exactly initialSize inactive objects (none for a negative size), queued in the order they were made |
| ObjectPool.Get | Scripts/Core/ObjectPool.cs:28-42 | a non-empty pool hands out its oldest object and keeps the rest in order. An empty pool hands out a newly made object and stays empty. Either way the object handed out is active, and no other object changes |
| ObjectPool.Return | Scripts/Core/ObjectPool.cs:44-48 | a returned object is deactivated and queued at the back, even when it is already queued; no other object changes |
| ObjectPool.ReturnAll | Scripts/Core/ObjectPool.cs:44-48 | returning several objects queues them at the back in the order returned |
| ObjectPool.GetManyInOrder | Scripts/Core/ObjectPool.cs:28-42 | the pool is first in, first out: n successive gets hand out the first n queued objects in order, and the rest stay queued |
| ObjectPool.ReturnedComeBackInOrder | Scripts/Core/ObjectPool.cs:28-48 | returned objects come back out after those already queued, in the order they were returned |
| Traffic.Create | Assets/TimeLoopCity/Scripts/Traffic/TrafficSystem.cs:14-24 | a fresh system allows 10 cars, spawns every 3 seconds, has no spawn points, no cars out, and no pool yet |
| Traffic.InitializePool | Assets/TimeLoopCity/Scripts/Traffic/TrafficSystem.cs:41-56 | the pool is made with maxCars parked cars |
| Traffic.SpawnCar | Assets/TimeLoopCity/Scripts/Traffic/TrafficSystem.cs:70-83 | without a pool nothing happens. Otherwise the car taken from the pool is activated, placed on the drawn spawn point (recorded against the car, other cars' placements kept), sent towards that point's next waypoint, and counted |
| Traffic.SpawnPlacementFollowsDraw | Assets/TimeLoopCity/Scripts/Traffic/TrafficSystem.cs:74-77 | two draws that pick different spawn points give different traffic states, because the car is placed where the draw points |
| Traffic.Update | Assets/TimeLoopCity/Scripts/Traffic/TrafficSystem.cs:58-68 | without spawn points a frame does nothing. Otherwise the timer grows by the frame time; once it reaches the interval with room for another car, a spawn is attempted and the timer restarts. The count of cars out rises by one exactly when a pool exists and the spawn is due, and it never leaves [0, maxCars] |
| Traffic.ReturnCar | Assets/TimeLoopCity/Scripts/Traffic/TrafficSystem.cs:85-91 | a null car, or a return before the pool exists, is ignored. Otherwise the car goes back to the pool and the count drops by one, never below zero |
| Traffic.RegisterSpawnPoint | Assets/TimeLoopCity/Scripts/Traffic/TrafficSystem.cs:93-99 | afterwards a non-null waypoint is listed, appended once; a null or already listed waypoint changes nothing |
| Traffic.InitializedIsBalanced | Assets/TimeLoopCity/Scripts/Traffic/TrafficSystem.cs:41-56 | right after the pool is made, all maxCars cars are parked |
| Traffic.BalancedNeverInstantiates | Assets/TimeLoopCity/Scripts/Traffic/TrafficSystem.cs:63-76 | while parked plus out equals maxCars, a due spawn always finds a parked car, so the pool never makes a new one |
| Traffic.UpdateKeepsBalance | Assets/TimeLoopCity/Scripts/Traffic/TrafficSystem.cs:58-83 | frames keep parked plus out equal to maxCars |
| Traffic.ReturnKeepsBalance | Assets/TimeLoopCity/Scripts/Traffic/TrafficSystem.cs:85-91 | returning a car that is out keeps parked plus out equal to maxCars |
| Traffic.SpawnThenReturn | Assets/TimeLoopCity/Scripts/Traffic/TrafficSystem.cs:58-91 | a spawn followed by the return of that car restores the count and parks the car again, inactive, at the back of the pool |
| EndGame.Create | Assets/Scripts/Managers/EndGameManager.cs:16-18 | the truth clue id is "Clue_TheTruth" and the game has not ended |
| EndGame.TryTriggerEnding | Assets/Scripts/Managers/EndGameManager.cs:34-47 | an ended game, a missing clue system, or a missing truth clue leaves everything as it was. Otherwise the game ends and the loop manager, if one exists, is stopped so it no longer resets itself |
| EndGame.StartEndingSequence | Assets/Scripts/Managers/EndGameManager.cs:49-59 | the game is marked ended, the ending count rises by one, and the loop manager, if one exists, only loses its auto-reset |
| EndGame.TryAll | Assets/Scripts/Managers/EndGameManager.cs:34-47 | a run of attempts keeps the ended flag and the ending count in step |
| EndGame.EndingAtMostOnce | Assets/Scripts/Managers/EndGameManager.cs:34-59 | over any run of attempts the ending starts at most once. It starts exactly when some attempt finds the truth clue |
| EndGame.EndedStaysEnded | Assets/Scripts/Managers/EndGameManager.cs:36 | once the game has ended, later attempts change nothing |
| EndGame.EndingStopsAutoReset | Assets/Scripts/Managers/EndGameManager.cs:49-55 | after the ending, a frame of the loop manager never starts a new loop |
| Interactable.Interact | Scripts/Player/InteractableObject.cs:27-41 | a disabled object, or one that carries no clue, changes nothing. An enabled clue object discovers its clue, so the clue system holds it afterwards. When a mission manager exists, it also reports one find-clue objective for that clue |
| Interactable.SetInteractable | Scripts/Player/InteractableObject.cs:74-77 | the gate becomes exactly the given flag; every other setting is kept |
| Interactable.OnlyClueObjectsDiscover | Scripts/Player/InteractableObject.cs:29-38 | the clue system changes only through an enabled clue object |
| Interactable.PickupIdempotent | Scripts/Player/InteractableObject.cs:34-38 | picking the same clue up again leaves the clue system as it was after the first pickup |
| Interactable.DisabledIsInert | Scripts/Player/InteractableObject.cs:27-29 | once disabled, an object ignores every interaction |
| TimeDisplay.LoopLabel | Scripts/UI/UI_TimeDisplay.cs:35-36 | the loop label is "Loop: " followed by the decimal numeral of the loop count |
| TimeDisplay.ClockFace | Scripts/UI/UI_TimeDisplay.cs:52-54 | the hour shown is the whole hour of the reading, and the minute shown is from 0 to 59. The reading lies within that displayed minute |
| TimeDisplay.Hour12 | Scripts/UI/UI_TimeDisplay.cs:63 | every hour of the day from 0 to 24 shows as 1 to 12. Midnight and noon both show as 12 |
| TimeDisplay.UpdateTimeDisplay | Scripts/UI/UI_TimeDisplay.cs:28-68 | without a loop manager nothing changes. Otherwise each widget that exists shows its value: the loop label the count, the bar the loop progress, and the time text the clock reading in the chosen format when a clock exists. The bar's fill is the loop progress clamped to [0, 1], as the image's fill amount clamps it: the progress itself inside the loop, full once the time reaches the duration. A missing widget stays missing, and the format setting is kept |
| TimeDisplay.LoopLabelReadsBack | Scripts/UI/UI_TimeDisplay.cs:36 | the digits after "Loop: " read back as the loop count |
| TimeDisplay.Text24ReadsBack | Scripts/UI/UI_TimeDisplay.cs:56-59 | the 24-hour text has the form HH:MM, and its two fields read back as the hour and minute shown |
| TimeDisplay.Text12ReadsBack | Scripts/UI/UI_TimeDisplay.cs:60-65 | the 12-hour text is an hour from 1 to 12 that agrees with the shown hour modulo 12, a colon, a two-digit minute that reads back as the minute shown, a space, and a period that is PM exactly from noon on |
| Numerals.NatToString | Scripts/UI/UI_TimeDisplay.cs:36 | a numeral is all digits, with no leading zero except for 0 itself. It has one digit exactly below 10 and two exactly from 10 to 99 |
| Numerals.ParseNatToString | Scripts/UI/UI_TimeDisplay.cs:36 | reading a numeral back gives the number written |
| Numerals.NatToStringInjective | Scripts/UI/UI_TimeDisplay.cs:36 | different numbers have different numerals |
| Numerals.IntToString | Scripts/UI/UI_TimeDisplay.cs:36 | a non-negative number prints as its numeral. A negative one prints as a minus sign followed by the numeral of its magnitude |
| Numerals.Pad2 | Scripts/UI/UI_TimeDisplay.cs:58 | a padded numeral has at least two digits, and exactly two below 100 |
| Numerals.ParsePad2 | Scripts/UI/UI_TimeDisplay.cs:58 | a padded numeral reads back as the number written |
| Districts.GetDistrictAtPosition | Assets/TimeLoopCity/Scripts/World/DistrictManager.cs:18-30 | a position west of x = -100 is always in Fort Kochi, whatever its z |
| Districts.ClassifiedIffInRegion | Assets/TimeLoopCity/Scripts/World/DistrictManager.cs:18-30 | the ordered tests classify a position as a district exactly when it lies in that district's own area, defined independently of the order. Mattancherry's area is cut back to x >= -100, where Fort Kochi's test shadows it |
| Districts.RegionsPartition | Assets/TimeLoopCity/Scripts/World/DistrictManager.cs:18-30 | no position lies in two districts' areas |
| Districts.GetStyleForDistrict | Assets/TimeLoopCity/Scripts/World/DistrictManager.cs:32-43 | Fort Kochi is exactly the colonial district and Mattancherry exactly the slum one. Every other district is modern |
| Districts.HeightRange | Assets/TimeLoopCity/Scripts/World/DistrictManager.cs:45-56 | every district's height range is positive and non-empty |
| Districts.GetBuildingHeightForDistrict | Assets/TimeLoopCity/Scripts/World/DistrictManager.cs:45-56 | the height lies in the district's range. A draw of 0 gives the bottom of the range and a draw of 1 gives the top |
| BuildingMesh.GenerateBuildingMesh | Assets/TimeLoopCity/Scripts/World/BuildingMeshGenerator.cs:8-51 | the mesh is five quads: 20 vertices and 30 triangle indices, each quad laid out as the shared quad helper lays it out, with every index inside the vertex list. Every vertex is a corner of the box centred on the pivot, at ground or roof level |
| BuildingMesh.WallsAndTop | Assets/TimeLoopCity/Scripts/World/BuildingMeshGenerator.cs:35-41 | for a positive height, each of the first four quads has two corners at the roof, so it is a wall, and the fifth has all four there, so it is the top. No quad lies on the ground, so there is no bottom face |
| BuildingMesh.FloorsIgnored | Assets/TimeLoopCity/Scripts/World/BuildingMeshGenerator.cs:8-51 | the floor count never affects the mesh |
| Mesh.AddQuad | Assets/TimeLoopCity/Scripts/World/BuildingMeshGenerator.cs:53-74 | the four corners and their uvs are appended in order. Six indices are appended, each naming one of the new vertices. What was there before is untouched, and a well-formed buffer stays well formed |
| Mesh.AddQuadLayout | Assets/TimeLoopCity/Scripts/World/BuildingMeshGenerator.cs:53-74 | adding a quad to a buffer of q whole quads gives a buffer of q + 1 whole quads, and the new quad's two triangles are (i, i+1, i+2) and (i, i+2, i+3) over its first vertex i |
| Mesh.AddQuads | Assets/TimeLoopCity/Scripts/World/BuildingMeshGenerator.cs:36-40 | a run of quad additions appends exactly the given corners, in order |
| Mesh.AddQuadsLayout | Assets/TimeLoopCity/Scripts/World/BuildingMeshGenerator.cs:36-40 | a run of quad additions adds one whole quad per four corners |
| Mesh.QuadLayoutWellFormed | Assets/TimeLoopCity/Scripts/World/BuildingMeshGenerator.cs:56-73 | a buffer of whole quads is well formed: there is one uv per vertex, the triangles are whole, and every index names a vertex |
| Architect.GenerateBuilding | Assets/TimeLoopCity/Scripts/World/ProceduralBuildingArchitect.cs:10-37 | the mesh holds whole quads: none without floors, 4 + 36(floors - 1) + 1 for a modern building and 4 floors + 1 otherwise. Every index names a vertex. The vertices run through the floors bottom to top, every plain wall corner lies on the outline at its floor's bottom or top, and the roof belongs to the top floor, sits at the full height and is the last quad added |
| Architect.BuildFloors | Assets/TimeLoopCity/Scripts/World/ProceduralBuildingArchitect.cs:19-27 | after the floor loop the mesh holds whole quads, as many as all the floors need. Its vertices run through the floors bottom to top, every plain wall corner lies on the outline within its floor's band, roof corners belong to the top floor at the top floor's upper edge, and the last vertex is a roof corner |
| Architect.BuiltComplete | Assets/TimeLoopCity/Scripts/World/ProceduralBuildingArchitect.cs:10-37 | once every floor is built the mesh has the promised quad count, is well formed, and its top reaches the building's full height |
| Architect.Inset | Assets/TimeLoopCity/Scripts/World/ProceduralBuildingArchitect.cs:57 | walls are inset exactly on modern floors above the ground |
| Architect.WallVertices | Assets/TimeLoopCity/Scripts/World/ProceduralBuildingArchitect.cs:84-136 | an inset wall adds nine quads, the sill, four frame sides, the glass, two columns and the header, in that order; a flat wall adds its own four corners as one quad. Every vertex is labelled with its floor and face |
| Architect.PieceVertices | Assets/TimeLoopCity/Scripts/World/ProceduralBuildingArchitect.cs:102-130 | the window pieces give four corners each, all labelled with the wall's floor and face |
| Architect.AddWallFace | Assets/TimeLoopCity/Scripts/World/ProceduralBuildingArchitect.cs:84-136 | the wall's corners are appended after what was there |
| Architect.FloorVertices | Assets/TimeLoopCity/Scripts/World/ProceduralBuildingArchitect.cs:39-82 | a floor adds four walls, front, right, back and left, of one or nine quads each, then a roof quad only on the top floor. All its corners lie on the floor's band, and the roof's corners lie at the band's top |
| Architect.GenerateFloor | Assets/TimeLoopCity/Scripts/World/ProceduralBuildingArchitect.cs:39-82 | the floor's corners are appended after what was there |
| Architect.WallOnFloor | Assets/TimeLoopCity/Scripts/World/ProceduralBuildingArchitect.cs:59-66 | a wall whose corners lie on a floor's band adds only vertices of that floor, and its plain corners lie on the band |
| Architect.RoofOnFloor | Assets/TimeLoopCity/Scripts/World/ProceduralBuildingArchitect.cs:68-79 | the roof adds four corners at the band's top on the top floor, and nothing elsewhere |
| Architect.OnFloorAppend | Assets/TimeLoopCity/Scripts/World/ProceduralBuildingArchitect.cs:39-82 | two runs of a floor's vertices joined are still that floor's vertices |
| Architect.QuadsBelowClosedForm | Assets/TimeLoopCity/Scripts/World/ProceduralBuildingArchitect.cs:23-27 | the quads added by the floors below f are 4 + 36(f - 1) for a modern building and 4f otherwise, plus the roof once the top floor is done |
| Architect.AddFloor | Assets/TimeLoopCity/Scripts/World/ProceduralBuildingArchitect.cs:23-27 | stacking the next floor onto the floors below keeps every vertex on its floor's band and the floors in order |
| Architect.AddFloorPlaces | Assets/TimeLoopCity/Scripts/World/ProceduralBuildingArchitect.cs:23-27 | after stacking the next floor, every vertex belongs to a floor built so far and lies where its floor puts it |
| Architect.AddFloorOrder | Assets/TimeLoopCity/Scripts/World/ProceduralBuildingArchitect.cs:23-27 | after stacking the next floor, the vertices still run through the floors in order |
| Architect.BuildFloor | Assets/TimeLoopCity/Scripts/World/ProceduralBuildingArchitect.cs:23-27 | one pass of the floor loop keeps the layout of whole quads and the order of floors |
| Road.GenerateRoadMesh | Assets/TimeLoopCity/Scripts/World/RoadNetworkGenerator.cs:106-163 | the piece mesh is five whole quads, 20 vertices and 30 indices, every index naming a vertex. They run from the left sidewalk across to the right one |
| Road.RoadSurfaces | Assets/TimeLoopCity/Scripts/World/RoadNetworkGenerator.cs:115-155 | every quad runs the whole length of the piece. The road surface is flat at height 0 between the two road edges, and both sidewalk tops are flat at curb height |
| Road.ProfileIsConnected | Assets/TimeLoopCity/Scripts/World/RoadNetworkGenerator.cs:122-155 | the cross section has no gaps: each quad starts on the edge where the previous one ended |
| Road.ProfileIsSymmetric | Assets/TimeLoopCity/Scripts/World/RoadNetworkGenerator.cs:115-155 | the cross section is symmetric about the centre line: the fifth quad mirrors the first, the fourth the second, and the road surface itself |
| Road.CornersOnProfile | Assets/TimeLoopCity/Scripts/World/RoadNetworkGenerator.cs:115-155 | every corner lies at one end of the piece, at ground or curb height, on one of the four profile lines |
| Road.PlaceSegment | Assets/TimeLoopCity/Scripts/World/RoadNetworkGenerator.cs:39-72 | a piece is placed at the midpoint of its ends, two units higher for a bridge. Only a bridge gets pillars, and they are that bridge's three |
| Road.BridgePillars | Assets/TimeLoopCity/Scripts/World/RoadNetworkGenerator.cs:66-72 | a bridge stands on three ground-level pillars: under the midpoint, a quarter of the way along, and three quarters of the way along, in that order |
| Road.PillarsEvenlySpaced | Assets/TimeLoopCity/Scripts/World/RoadNetworkGenerator.cs:70-72 | the middle pillar is halfway between the other two |
| Road.PillarsIgnoreDirection | Assets/TimeLoopCity/Scripts/World/RoadNetworkGenerator.cs:70-72 | a bridge built the other way round stands on the same pillars, with the outer two swapped |
| Road.LoopCorners | Assets/TimeLoopCity/Scripts/World/RoadNetworkGenerator.cs:188-191 | the loop corners are the four corners of the square of half-side radius around the centre, at the centre's height |
| Road.CreateDistrictLoop | Assets/TimeLoopCity/Scripts/World/RoadNetworkGenerator.cs:185-197 | a district loop is four plain roads, east, south, west and north, each from one corner to the next, closing back at the first corner |
| Road.LoopSidesAreAxisAligned | Assets/TimeLoopCity/Scripts/World/RoadNetworkGenerator.cs:185-197 | each side of a loop runs along one axis across the whole square, covering twice the radius |
| Road.Links | Assets/TimeLoopCity/Scripts/World/RoadNetworkGenerator.cs:23-31 | Marine Drive is linked to Fort Kochi and Willingdon by bridges and to Mangalavanam by a plain road |
| Road.Loops | Assets/TimeLoopCity/Scripts/World/RoadNetworkGenerator.cs:34-36 | the three district loops give twelve plain roads |
| Road.GenerateNetwork | Assets/TimeLoopCity/Scripts/World/RoadNetworkGenerator.cs:17-37 | the network is fifteen pieces, of which only the first two, Marine Drive to Fort Kochi and Marine Drive to Willingdon, are bridges |
| Road.TwoBridgesFirst | Assets/TimeLoopCity/Scripts/World/RoadNetworkGenerator.cs:66-72 | a run that starts with two bridges and has no other bridge stands on exactly the pillars of those two |
| Road.NetworkPillars | Assets/TimeLoopCity/Scripts/World/RoadNetworkGenerator.cs:17-37 | the whole network stands on six pillars: those of the Fort Kochi bridge, then those of the Willingdon bridge |
| AudioCue.Create | Assets/TimeLoopCity/Scripts/Audio/AudioCue.cs:13-23 | a new cue has volume and pitch 1. Pitch randomization is on with variation 0.1, and volume randomization is on with variation 0.05 |
| AudioCue.GetClip | Assets/TimeLoopCity/Scripts/Audio/AudioCue.cs:25-29 | a null or empty clip array gives null. Otherwise the clip returned is one of the cue's clips, the one at the drawn position |
| AudioCue.GetPitch | Assets/TimeLoopCity/Scripts/Audio/AudioCue.cs:31-35 | without randomization the pitch is exact. With it, the pitch moves by at most the variation either way, and the extreme draws reach the two ends |
| AudioCue.GetVolume | Assets/TimeLoopCity/Scripts/Audio/AudioCue.cs:37-41 | without randomization the volume is exact. With it, the volume always lies in [0, 1], and within the variation of the base volume when that band fits in [0, 1] |
| AudioCue.NoVariationIsExact | Assets/TimeLoopCity/Scripts/Audio/AudioCue.cs:31-41 | with zero variation, randomizing changes neither the pitch nor a volume already in [0, 1] |
| AudioCue.EveryClipReachable | Assets/TimeLoopCity/Scripts/Audio/AudioCue.cs:28 | every clip of a non-empty array can come up: the draw k/n picks the k-th of n clips |
| Props.GenerateCylinder | Assets/TimeLoopCity/Scripts/World/ProceduralPropGenerator.cs:72-106 | a cylinder of n segments appends n + 1 bottom and top ring points, each with its uv, and 6n indices, all naming its own new points. What was there before is untouched, and a well-formed buffer stays well formed |
| Props.CylinderPoints | Assets/TimeLoopCity/Scripts/World/ProceduralPropGenerator.cs:78-91 | the vertex loop appends, per angle step from 0 to n, the bottom point and then the top point, with uvs (i/n, 0) and (i/n, 1) |
| Props.CylinderTriangles | Assets/TimeLoopCity/Scripts/World/ProceduralPropGenerator.cs:93-105 | the index loop appends, per segment i, the triangles (c, c+1, n'+1) and (c, n'+1, n'), where c is the bottom point of step i and n' that of step i + 1 |
| Props.CylinderIndicesBounds | Assets/TimeLoopCity/Scripts/World/ProceduralPropGenerator.cs:93-105 | every cylinder index lies within the cylinder's own 2(n + 1) points |
| Props.RingUvsInUnit | Assets/TimeLoopCity/Scripts/World/ProceduralPropGenerator.cs:84-89 | for a positive segment count every ring uv lies in the unit square |
| Props.CylinderUvs | Assets/TimeLoopCity/Scripts/World/ProceduralPropGenerator.cs:84-89 | a cylinder with segments has its uvs in the unit square. With zero segments its first uv divides 0 by 0 |
| Props.GenerateSphere | Assets/TimeLoopCity/Scripts/World/ProceduralPropGenerator.cs:108-147 | a sphere of L latitude and M longitude steps appends (L + 1)(M + 1) grid points with their uvs and 6LM indices, all naming its own new points. What was there before is untouched, and a well-formed buffer stays well formed |
| Props.SpherePoints | Assets/TimeLoopCity/Scripts/World/ProceduralPropGenerator.cs:113-129 | the vertex loops append the grid row by row, latitude 0 to L, each row longitude 0 to M, with uvs (lon/M, lat/L) |
| Props.SphereRow | Assets/TimeLoopCity/Scripts/World/ProceduralPropGenerator.cs:119-128 | one latitude row appends its M + 1 points and uvs in longitude order |
| Props.SphereTriangles | Assets/TimeLoopCity/Scripts/World/ProceduralPropGenerator.cs:131-146 | the index loops append, row by row and cell by cell, the two triangles of each grid cell |
| Props.SphereRowTriangles | Assets/TimeLoopCity/Scripts/World/ProceduralPropGenerator.cs:133-144 | one latitude row gives the two triangles of each of its cells, in longitude order |
| Props.RowIndicesBounds | Assets/TimeLoopCity/Scripts/World/ProceduralPropGenerator.cs:133-145 | the indices of a row of cells lie within that row's points and the next row's points |
| Props.SphereIndicesBounds | Assets/TimeLoopCity/Scripts/World/ProceduralPropGenerator.cs:131-146 | the indices of the first k rows of cells lie within the points of their first k + 1 rows |
| Props.SphereIndicesWithin | Assets/TimeLoopCity/Scripts/World/ProceduralPropGenerator.cs:131-146 | a sphere's indices come in whole triangles and name only its own points |
| Props.RowUvsInUnit | Assets/TimeLoopCity/Scripts/World/ProceduralPropGenerator.cs:127 | every uv of a latitude row lies in the unit square |
| Props.GlobeUvsInUnit | Assets/TimeLoopCity/Scripts/World/ProceduralPropGenerator.cs:127 | every uv of the first k rows lies in the unit square |
| Props.SphereUvs | Assets/TimeLoopCity/Scripts/World/ProceduralPropGenerator.cs:127 | a sphere with a step each way has all its uvs in the unit square |
| Props.GenerateTree | Assets/TimeLoopCity/Scripts/World/ProceduralPropGenerator.cs:8-36 | a tree is 99 points and 432 indices, every one naming a point. The first 18 points are the 8-segment trunk cylinder, 30 percent of the height tall, and the other 81 are the 8-by-8 foliage sphere centred half its radius above the trunk |
| Props.AddBox | Assets/TimeLoopCity/Scripts/World/ProceduralPropGenerator.cs:149-154 | adding a box appends nothing |
| Props.GenerateStreetLight | Assets/TimeLoopCity/Scripts/World/ProceduralPropGenerator.cs:38-70 | a street light is only its 6-segment pole, 14 points and 36 indices, because the arm and lamp boxes add nothing |
| Sorting.InsertBy | Assets/TimeLoopCity/Scripts/AI/NPCBrain.cs:37 | inserting into a sorted list gives a sorted list holding the same elements plus the new one |
| Sorting.SortBy | Assets/TimeLoopCity/Scripts/AI/NPCBrain.cs:37 | the result is sorted by the key and is a permutation of the input |

## Notes on the loop manager

- Stopping the loop is not terminal. `StopLoop` only clears the auto-reset flag (Scripts/TimeLoop/TimeLoopManager.cs:126-132). Time keeps advancing and `ForceResetLoop` still resets. `TimeLoop.StopThenForce` and `TimeLoop.StoppedTicksNeverReset` state both halves.
- The loop count is a C# `int`, which the model keeps as an unbounded integer (see below).

## Left out

- StarterNpc.OnInteract: composes the corrected selection `StarterNpc.GetBestDialogue` from the Findings table, not the selection as written that `OnInteract` calls (Scripts/AI/NPCController.cs:305). So with a null loop-specific entry among at least two, the model starts a dialogue where the code throws during the sort before any dialogue starts, as `StarterNpc.GetBestDialogueAsWritten` states.
- Rendering, physics and engine objects are not modelled: lighting (`UpdateLighting`), fog colour blending, particle systems, camera motion, colliders, materials, game-object names and parenting.
- NavMesh motion is not modelled. An agent is only its destination and stopped flag; whether it is on the NavMesh and whether it has arrived are parameters.
- `Invoke` timing is not modelled. A delayed call is a pending flag, or a separate function the caller applies later (`TimeLoop.FireScheduledStart`).
- Saving and loading are not modelled. A save is only recorded as a trace event, and `SaveLoadManager` is not part of this model.
- Float rounding and float division by zero are not modelled: every `float` is an exact `real`.
- Sines, cosines, square roots and normalisation are not modelled. Mesh vertices that need them are named by the step they come from, and road lengths are passed in.
- Unity's `Random` and `string.GetHashCode` are not modelled. They are an abstract generator and a hash parameter; unseeded draws are passed in as fractions.
- `Awake` singleton handling is not modelled; each singleton is an `Option` the caller passes in.
- Log lines (`Debug.Log`), notification UI and audio playback are not modelled.
- `WorldStateManager.RandomizeWorldObjects` (Scripts/World/WorldStateManager.cs:93-107) is not modelled: it is cumulative float jitter of scene objects.
- World-state presets are not modelled, because `statePresets` is declared but never read (Scripts/World/WorldStateManager.cs:15).
- The trivial getters `GetCurrentState` and `GetCurrentWeather` are not modelled separately. Their values appear directly in the contracts that use them.
- `MissionManager.OnObjectiveEvent` (both copies) is not modelled because it only logs. Interactions only record the reports they would send.
- The starter mission registry's null mission entries are not modelled; every authored mission is present.
- Object identity is not modelled. Missions and dialogues are compared by value, while the code compares asset references (`List.Contains`, `List.Remove` in both mission managers, and dialogue selection). Two distinct assets with equal fields count as one mission or dialogue here.
- Null waypoints in the starter NPC's routes are not modelled: its routes hold no null entries. The code reads `currentWaypoints[0].position` and `currentWaypoints[currentWaypointIndex].position` without a null check (Scripts/AI/NPCController.cs:158, :164 and :207), so a null Transform there would throw. The other NPC copy checks for null, and its routes are modelled with null entries.
- Dialogue graphs are finite trees. A choice's next dialogue is a value, so a chain of `nextDialogue` links that loops back to an earlier dialogue, which assets allow, is not modelled.
- A dialogue whose choice array is null is modelled as having no choices. The code treats both cases the same way.
- `InteractableObject.Interact` (Scripts/Player/InteractableObject.cs:27-49) has unbalanced braces and does not compile as written. `Interactable.Interact` models only the gate and the clue pickup with its find-clue report. The `VisitLocation` report and the `OnInteract` hook are not modelled, because their nesting cannot be read off the code.
- The starter mission manager's nested reward loop reuses the name `clueId` (Scripts/Managers/MissionManager.cs:117-126) and does not compile as written. It is modelled as its evident intent: every reward clue of every completed mission, discovered once per pass.
- `NPCController.OnEventDetected` and `ResumeMovement` (both copies) are not modelled; they only change the agent's speed and stopped flag on a timer.
- The `InteractableObject.OnInteract` base call and `transform.LookAt` inside the NPCs' `OnInteract` are not modelled; they only log and turn the model.
- The starter NPC's `GetDialogue` (Scripts/AI/NPCController.cs:280-287) is not modelled separately because it is the same as the other copy's, modelled as `Npc.GetDialogue`.
- `NPCMemoryComponent.Start`'s event subscription, `ShowMemoryEffect` and `TriggerMemoryAction` are not modelled; they only log. The subscribed handler is modelled as `NpcMemory.OnLoopCountChanged`.
- `TrafficCar` driving is not modelled; a car is only its pooled identity, active flag, the spawn point it was placed on (its position and rotation are copied from that point) and next waypoint.
- Road.PlaceSegment: the two traffic waypoints `CreateRoadSegment` adds for each segment, and their registration with the traffic system as a spawn point (Assets/TimeLoopCity/Scripts/World/RoadNetworkGenerator.cs:85-103), are not modelled. Spawn points are a parameter of the traffic model instead.
- The object created by `Object.Instantiate` is not modelled; it is a fresh identity the caller passes in.
- The end-game cutscene coroutine and the credits are not modelled; only the gating part of the ending is.
- The positions inside a window wall of the building architect are not modelled, because they need normalised vectors. Only which piece and corner each vertex is, and the quad structure, are kept.
- The loop count is not wrapped at 32 bits: it only grows by one per reset and would need more than two billion resets to wrap. Seeds built from it do wrap (`WrapInt32`).
- TimeLoop.Create: requires a positive loop duration, because `LoopProgress` divides by it; the serialized default is 300 seconds.
- TimeLoop.LoopProgress: requires `Valid`, as the other TimeLoop operations do: a positive duration, and a resetting flag that matches the pending start. Every reachable state satisfies it.
- StarterNpc.MoveToWaypoint: requires an index inside the route, because its only callers pass 0 or an index reduced modulo the route length.
- Traffic.SpawnCar: requires at least one spawn point, because its only caller, `Update`, returns early without one.
- Traffic.Update: requires spawn points without duplicates, which `RegisterSpawnPoint` guarantees; a scene that lists the same waypoint twice by hand is not modelled.
- ObjectPool.Get: requires the object created for an empty pool to be new, standing for `Object.Instantiate`.
- Events.Attempts: requires at least one spawn point, because `SpawnRandomEvents` returns before the attempts without one.

## Findings

| source | as written | input that shows it | evidently intended | confidence | as-written member | corrected member |
|---|---|---|---|---|---|---|
| Scripts/AI/NPCController.cs:329 | The sort comparator reads `minLoopCount` of both entries, so a null entry in the loop-specific dialogue list raises a null reference and the NPC has no dialogue | a loop-specific list of a null entry followed by a dialogue with `minLoopCount` 0 and no required clue | null entries sort last, as in Assets/TimeLoopCity/Scripts/AI/NPCController.cs:260-265, and the dialogue is returned | not executed | StarterNpc.GetBestDialogueAsWritten, StarterNpc.NullEntryBreaksSort | StarterNpc.GetBestDialogue, StarterNpc.BestDialogueIsHighest |

=== FILE: architect.dfy ===
/**
 The floor-by-floor building builder (`ProceduralBuildingArchitect`): each
 floor is a band of four walls; modern upper floors get an inset window in
 every wall, and the top floor gets a roof quad.
 */
module Architect {
  import opened Common
  import opened Mesh

  /** `BuildingStyle`. */
  datatype BuildingStyle = Modern | Colonial | Slum

  /** The side of a floor a quad belongs to. */
  datatype Face = Front | Right | Back | Left | Roof

  /** The nine pieces of a wall with an inset window. */
  datatype Piece = Sill | FrameLeft | FrameRight | FrameTop | FrameBottom | Glass | ColumnLeft | ColumnRight | Header

  /** The pieces of a window wall in the order they are added. */
  const WindowPieces: seq<Piece> := [Sill, FrameLeft, FrameRight, FrameTop, FrameBottom, Glass, ColumnLeft, ColumnRight, Header]

  /**
   A vertex, labelled with its floor and face. Flat walls and the roof keep
   their corner positions; the positions inside a window wall are left
   abstract and only the piece and corner are recorded.
   */
  datatype ArchVertex =
    | Corner(floor: int, face: Face, p: Vec3)
    | Detail(floor: int, face: Face, piece: Piece, corner: nat)

  type ArchMesh = MeshBuf<ArchVertex, Uv>

  /** The window inset: 0.1 on the walls of modern floors above the ground, none elsewhere. */
  function Inset(style: BuildingStyle, isGround: bool): (r: real)
    ensures r > 0.0 <==> style == Modern && !isGround
  {
    if style == Modern && !isGround then 0.1 else 0.0
  }

  /** How many quads one wall takes: nine with a window, one without. */
  function WallQuads(inset: real): nat {
    if inset > 0.0 then 9 else 1
  }

  /** Every vertex of `vs` belongs to floor `floor` and face `face`. */
  predicate Labelled(vs: seq<ArchVertex>, floor: int, face: Face) {
    forall j :: 0 <= j < |vs| ==> vs[j].floor == floor && vs[j].face == face
  }

  /** The corners of the window-wall quads for `pieces`, four per piece. */
  function PieceVertices(floor: int, face: Face, pieces: seq<Piece>): (vs: seq<ArchVertex>)
    ensures |vs| == 4 * |pieces|
    ensures Labelled(vs, floor, face)
    ensures forall j :: 0 <= j < |vs| ==> vs[j].Detail?
    decreases |pieces|
  {
    if |pieces| == 0 then []
    else
      var pc := pieces[0];
      [Detail(floor, face, pc, 0), Detail(floor, face, pc, 1), Detail(floor, face, pc, 2), Detail(floor, face, pc, 3)]
      + PieceVertices(floor, face, pieces[1..])
  }

  /**
   The corners `AddWallFace(bl, tl, tr, br, inset)` adds: with a positive inset,
   those of the sill, the four frame sides, the glass, the two columns beside
   the window and the header; otherwise the wall's own four corners.
   */
  function WallVertices(floor: int, face: Face, bl: Vec3, tl: Vec3, tr: Vec3, br: Vec3, inset: real): (vs: seq<ArchVertex>)
    ensures |vs| == 4 * WallQuads(inset)
    ensures Labelled(vs, floor, face)
    ensures inset > 0.0 ==> forall j :: 0 <= j < |vs| ==> vs[j].Detail?
    ensures inset <= 0.0 ==> vs == [Corner(floor, face, bl), Corner(floor, face, tl), Corner(floor, face, tr), Corner(floor, face, br)]
  {
    if inset > 0.0 then PieceVertices(floor, face, WindowPieces)
    else [Corner(floor, face, bl), Corner(floor, face, tl), Corner(floor, face, tr), Corner(floor, face, br)]
  }

  /** `AddWallFace`: the wall's quads appended in order. */
  function AddWallFace(m: ArchMesh, floor: int, face: Face, bl: Vec3, tl: Vec3, tr: Vec3, br: Vec3, inset: real): (r: ArchMesh)
    ensures r.vertices == m.vertices + WallVertices(floor, face, bl, tl, tr, br, inset)
  {
    var vs := WallVertices(floor, face, bl, tl, tr, br, inset);
    CornersOfQuads(WallQuads(inset));
    AddQuads(m, vs)
  }

  /** A vertex at the bottom or the top of the band from `y` to `y + h`, on the footprint's outline. */
  predicate InBand(p: Vec3, width: real, depth: real, y: real, h: real) {
    && (p.x == -width / 2.0 || p.x == width / 2.0)
    && (p.z == -depth / 2.0 || p.z == depth / 2.0)
    && (p.y == y || p.y == y + h)
  }

  /** The height at which floor `k` starts when each floor is `fh` high. */
  function FloorY(k: int, fh: real): real {
    k as real * fh
  }

  /**
   What holds of every vertex of floor `f`'s band from `y` to `y + h`: it is
   labelled with the floor, a plain corner lies on the band, and a roof vertex
   is a corner at the band's top on the top floor.
   */
  predicate OnFloor(vs: seq<ArchVertex>, f: int, width: real, depth: real, y: real, h: real, isRoof: bool) {
    forall j :: 0 <= j < |vs| ==>
      && vs[j].floor == f
      && (vs[j].Corner? ==> InBand(vs[j].p, width, depth, y, h))
      && (vs[j].face == Roof ==> isRoof && vs[j].Corner? && vs[j].p.y == y + h)
  }

  lemma OnFloorAppend(a: seq<ArchVertex>, b: seq<ArchVertex>, f: int, width: real, depth: real, y: real, h: real, isRoof: bool)
    requires OnFloor(a, f, width, depth, y, h, isRoof) && OnFloor(b, f, width, depth, y, h, isRoof)
    ensures OnFloor(a + b, f, width, depth, y, h, isRoof)
  {
    forall j | 0 <= j < |a + b|
      ensures (a + b)[j] == if j < |a| then a[j] else b[j - |a|]
    {
    }
  }

  /** One wall of floor `f`'s band: its vertices lie on the floor. */
  lemma WallOnFloor(f: int, face: Face, width: real, depth: real, y: real, h: real, inset: real, isRoof: bool,
                    bl: Vec3, tl: Vec3, tr: Vec3, br: Vec3)
    requires face != Roof
    requires InBand(bl, width, depth, y, h) && InBand(tl, width, depth, y, h)
    requires InBand(tr, width, depth, y, h) && InBand(br, width, depth, y, h)
    ensures OnFloor(WallVertices(f, face, bl, tl, tr, br, inset), f, width, depth, y, h, isRoof)
  {
  }

  /** The roof quad's corners, on the top floor only. */
  function RoofVertices(f: int, isRoof: bool, bl: Vec3, tl: Vec3, tr: Vec3, br: Vec3): (vs: seq<ArchVertex>)
    ensures |vs| == if isRoof then 4 else 0
  {
    if isRoof then [Corner(f, Roof, bl), Corner(f, Roof, tl), Corner(f, Roof, tr), Corner(f, Roof, br)] else []
  }

  /** The roof of floor `f`'s band: four corners at the band's top. */
  lemma RoofOnFloor(f: int, width: real, depth: real, y: real, h: real, isRoof: bool, bl: Vec3, tl: Vec3, tr: Vec3, br: Vec3)
    requires InBand(bl, width, depth, y, h) && InBand(tl, width, depth, y, h)
    requires InBand(tr, width, depth, y, h) && InBand(br, width, depth, y, h)
    requires bl.y == y + h && tl.y == y + h && tr.y == y + h && br.y == y + h
    ensures OnFloor(RoofVertices(f, isRoof, bl, tl, tr, br), f, width, depth, y, h, isRoof)
    ensures isRoof ==> RoofVertices(f, isRoof, bl, tl, tr, br)[3].face == Roof
  {
  }

  /**
   The corners `GenerateFloor(width, depth, height, yPos, style, isGround,
   isRoof)` adds for floor `f`: the front, right, back and left walls between
   `yPos` and `yPos + height`, then, on the top floor only, the roof over the
   band's top corners.
   */
  function FloorVertices(f: int, width: real, depth: real, height: real, yPos: real,
                         style: BuildingStyle, isGround: bool, isRoof: bool): (vs: seq<ArchVertex>)
    ensures |vs| == 4 * (4 * WallQuads(Inset(style, isGround)) + (if isRoof then 1 else 0))
    ensures OnFloor(vs, f, width, depth, yPos, height, isRoof)
    ensures isRoof ==> vs[|vs| - 1].face == Roof
  {
    var hw := width / 2.0;
    var hd := depth / 2.0;
    var bl := Vec3(-hw, yPos, -hd);
    var br := Vec3(hw, yPos, -hd);
    var tr := Vec3(hw, yPos, hd);
    var tl := Vec3(-hw, yPos, hd);
    var blT := Vec3(-hw, yPos + height, -hd);
    var brT := Vec3(hw, yPos + height, -hd);
    var trT := Vec3(hw, yPos + height, hd);
    var tlT := Vec3(-hw, yPos + height, hd);
    var inset := Inset(style, isGround);
    var front := WallVertices(f, Front, bl, blT, brT, br, inset);
    var right := WallVertices(f, Right, br, brT, trT, tr, inset);
    var back := WallVertices(f, Back, tr, trT, tlT, tl, inset);
    var left := WallVertices(f, Left, tl, tlT, blT, bl, inset);
    var roof := RoofVertices(f, isRoof, blT, tlT, trT, brT);
    WallOnFloor(f, Front, width, depth, yPos, height, inset, isRoof, bl, blT, brT, br);
    WallOnFloor(f, Right, width, depth, yPos, height, inset, isRoof, br, brT, trT, tr);
    WallOnFloor(f, Back, width, depth, yPos, height, inset, isRoof, tr, trT, tlT, tl);
    WallOnFloor(f, Left, width, depth, yPos, height, inset, isRoof, tl, tlT, blT, bl);
    RoofOnFloor(f, width, depth, yPos, height, isRoof, blT, tlT, trT, brT);
    OnFloorAppend(front, right, f, width, depth, yPos, height, isRoof);
    OnFloorAppend(front + right, back, f, width, depth, yPos, height, isRoof);
    OnFloorAppend(front + right + back, left, f, width, depth, yPos, height, isRoof);
    OnFloorAppend(front + right + back + left, roof, f, width, depth, yPos, height, isRoof);
    front + right + back + left + roof
  }

  /** `GenerateFloor`: floor `f`'s quads appended in order. */
  function GenerateFloor(m: ArchMesh, f: int, width: real, depth: real, height: real, yPos: real,
                         style: BuildingStyle, isGround: bool, isRoof: bool): (r: ArchMesh)
    ensures r.vertices == m.vertices + FloorVertices(f, width, depth, height, yPos, style, isGround, isRoof)
  {
    var vs := FloorVertices(f, width, depth, height, yPos, style, isGround, isRoof);
    CornersOfQuads(4 * WallQuads(Inset(style, isGround)) + (if isRoof then 1 else 0));
    AddQuads(m, vs)
  }

  /** How many quads floor `f` of `floors` takes: four walls, and the roof on the top floor. */
  function FloorQuads(style: BuildingStyle, f: int, floors: int): nat {
    4 * WallQuads(Inset(style, f == 0)) + (if f == floors - 1 then 1 else 0)
  }

  /** The quads of the floors below `f`. */
  function QuadsBelow(style: BuildingStyle, f: int, floors: int): nat
    requires 0 <= f <= floors
    decreases f
  {
    if f == 0 then 0 else QuadsBelow(style, f - 1, floors) + FloorQuads(style, f - 1, floors)
  }

  /**
   The total quad count in closed form: nothing without floors; otherwise a
   modern building has 4 plain ground-floor walls, 36 quads on each upper floor
   and a roof, and any other building 4 walls per floor and a roof.
   */
  function TotalQuads(style: BuildingStyle, floors: int): nat {
    if floors <= 0 then 0
    else if style == Modern then 4 + 36 * (floors - 1) + 1
    else 4 * floors + 1
  }

  /** The running count matches the closed form, the roof being added on the top floor. */
  lemma {:induction false} QuadsBelowClosedForm(style: BuildingStyle, f: int, floors: int)
    requires 0 <= f <= floors
    ensures QuadsBelow(style, f, floors) ==
      (if f == 0 then 0 else (if style == Modern then 4 + 36 * (f - 1) else 4 * f))
      + (if f == floors && f > 0 then 1 else 0)
    decreases f
  {
    if f > 0 {
      QuadsBelowClosedForm(style, f - 1, floors);
    }
  }

  /** What holds of the vertices of the floors below the one being built. */
  predicate FloorsBelow(vs: seq<ArchVertex>, f: int, floors: int, width: real, depth: real, fh: real) {
    && (forall j :: 0 <= j < |vs| ==> 0 <= vs[j].floor < f)
    && (forall i, j :: 0 <= i <= j < |vs| ==> vs[i].floor <= vs[j].floor)
    && (forall j :: 0 <= j < |vs| && vs[j].Corner? ==> InBand(vs[j].p, width, depth, FloorY(vs[j].floor, fh), fh))
    && (forall j :: 0 <= j < |vs| && vs[j].face == Roof ==>
          vs[j].floor == floors - 1 && vs[j].Corner? && vs[j].p.y == FloorY(floors, fh))
  }

  /** Adding floor `f` on top of the floors below it keeps them in order. */
  lemma AddFloor(vs: seq<ArchVertex>, ws: seq<ArchVertex>, f: int, floors: int, width: real, depth: real, fh: real)
    requires 0 <= f < floors
    requires FloorsBelow(vs, f, floors, width, depth, fh)
    requires OnFloor(ws, f, width, depth, FloorY(f, fh), fh, f == floors - 1)
    ensures FloorsBelow(vs + ws, f + 1, floors, width, depth, fh)
  {
    AddFloorPlaces(vs, ws, f, floors, width, depth, fh);
    AddFloorOrder(vs, ws, f);
  }

  lemma AddFloorPlaces(vs: seq<ArchVertex>, ws: seq<ArchVertex>, f: int, floors: int, width: real, depth: real, fh: real)
    requires 0 <= f < floors
    requires FloorsBelow(vs, f, floors, width, depth, fh)
    requires OnFloor(ws, f, width, depth, FloorY(f, fh), fh, f == floors - 1)
    ensures var all := vs + ws;
      forall j :: 0 <= j < |all| ==>
        && 0 <= all[j].floor < f + 1
        && (all[j].Corner? ==> InBand(all[j].p, width, depth, FloorY(all[j].floor, fh), fh))
        && (all[j].face == Roof ==> all[j].floor == floors - 1 && all[j].Corner? && all[j].p.y == FloorY(floors, fh))
  {
    if f == floors - 1 {
      assert FloorY(f, fh) + fh == FloorY(floors, fh);
    }
    var all := vs + ws;
    forall j | 0 <= j < |all|
      ensures 0 <= all[j].floor < f + 1
      ensures all[j].Corner? ==> InBand(all[j].p, width, depth, FloorY(all[j].floor, fh), fh)
      ensures all[j].face == Roof ==> all[j].floor == floors - 1 && all[j].Corner? && all[j].p.y == FloorY(floors, fh)
    {
      if j >= |vs| {
        var w := ws[j - |vs|];
        assert all[j] == w;
        assert w.floor == f;
        assert w.Corner? ==> InBand(w.p, width, depth, FloorY(f, fh), fh);
      } else {
        assert all[j] == vs[j];
      }
    }
  }

  lemma AddFloorOrder(vs: seq<ArchVertex>, ws: seq<ArchVertex>, f: int)
    requires forall j :: 0 <= j < |vs| ==> vs[j].floor < f
    requires forall i, j :: 0 <= i <= j < |vs| ==> vs[i].floor <= vs[j].floor
    requires forall j :: 0 <= j < |ws| ==> ws[j].floor == f
    ensures var all := vs + ws; forall i, j :: 0 <= i <= j < |all| ==> all[i].floor <= all[j].floor
  {
    var all := vs + ws;
    forall i, j | 0 <= i <= j < |all|
      ensures all[i].floor <= all[j].floor
    {
      if i >= |vs| {
        assert all[i] == ws[i - |vs|] && all[j] == ws[j - |vs|];
      } else if j >= |vs| {
        assert all[i] == vs[i] && all[j] == ws[j - |vs|];
      } else {
        assert all[i] == vs[i] && all[j] == vs[j];
      }
    }
  }

  /** The state of `GenerateBuilding` once the floors below `f` are built. */
  predicate Built(m: ArchMesh, style: BuildingStyle, f: int, floors: int, width: real, depth: real, fh: real)
    requires 0 <= f <= floors
  {
    && QuadLayout(m, QuadsBelow(style, f, floors))
    && FloorsBelow(m.vertices, f, floors, width, depth, fh)
    && (f == floors && f > 0 ==> m.vertices[|m.vertices| - 1].face == Roof)
  }

  /** One pass of the floor loop of `GenerateBuilding`. */
  lemma BuildFloor(m: ArchMesh, style: BuildingStyle, f: int, floors: int, width: real, depth: real, fh: real)
    requires 0 <= f < floors
    requires Built(m, style, f, floors, width, depth, fh)
    ensures Built(GenerateFloor(m, f, width, depth, fh, FloorY(f, fh), style, f == 0, f == floors - 1), style, f + 1, floors, width, depth, fh)
  {
    var ws := FloorVertices(f, width, depth, fh, FloorY(f, fh), style, f == 0, f == floors - 1);
    var n := FloorQuads(style, f, floors);
    assert |ws| == 4 * n;
    CornersOfQuads(n);
    var m' := GenerateFloor(m, f, width, depth, fh, FloorY(f, fh), style, f == 0, f == floors - 1);
    assert m' == AddQuads(m, ws);
    AddQuadsLayout(m, QuadsBelow(style, f, floors), ws);
    assert QuadLayout(m', QuadsBelow(style, f + 1, floors));
    AddFloor(m.vertices, ws, f, floors, width, depth, fh);
    assert FloorsBelow(m'.vertices, f + 1, floors, width, depth, fh);
    if f + 1 == floors {
      assert m'.vertices[|m'.vertices| - 1] == ws[|ws| - 1];
    }
  }

  /**
   What the finished floor loop gives: once every floor is built, the mesh holds
   `TotalQuads` whole quads, its vertices run through the floors in order, every
   plain corner lies on its floor's band, and the roof is the top floor's, at
   the full height.
   */
  lemma BuiltComplete(m: ArchMesh, style: BuildingStyle, floors: int, width: real, depth: real, height: real)
    requires floors > 0
    requires Built(m, style, floors, floors, width, depth, height / floors as real)
    ensures QuadLayout(m, TotalQuads(style, floors)) && WellFormed(m)
    ensures |m.vertices| == 4 * TotalQuads(style, floors) && |m.triangles| == 6 * TotalQuads(style, floors)
    ensures forall j :: 0 <= j < |m.vertices| ==> 0 <= m.vertices[j].floor < floors
    ensures forall i, j :: 0 <= i <= j < |m.vertices| ==> m.vertices[i].floor <= m.vertices[j].floor
    ensures forall j :: 0 <= j < |m.vertices| && m.vertices[j].Corner? ==>
      var fh := height / floors as real;
      InBand(m.vertices[j].p, width, depth, FloorY(m.vertices[j].floor, fh), fh)
    ensures forall j :: 0 <= j < |m.vertices| && m.vertices[j].face == Roof ==>
      m.vertices[j].floor == floors - 1 && m.vertices[j].Corner? && m.vertices[j].p.y == height
    ensures m.vertices[|m.vertices| - 1].face == Roof
  {
    var fh := height / floors as real;
    QuadsBelowClosedForm(style, floors, floors);
    QuadLayoutWellFormed(m, TotalQuads(style, floors));
    assert FloorY(floors, fh) == height;
  }

  /**
   `GenerateBuilding(width, depth, height, floors, style)`: floor `f` is the band
   starting at `f * height / floors`, one band per floor, bottom to top. The
   result holds `TotalQuads` whole quads; its vertices run through the floors in
   order; every plain corner lies on its floor's band; and the roof belongs to
   the top floor and lies at the full height.
   */
  method GenerateBuilding(width: real, depth: real, height: real, floors: int, style: BuildingStyle) returns (m: ArchMesh)
    ensures QuadLayout(m, TotalQuads(style, floors)) && WellFormed(m)
    ensures |m.vertices| == 4 * TotalQuads(style, floors) && |m.triangles| == 6 * TotalQuads(style, floors)
    ensures forall j :: 0 <= j < |m.vertices| ==> 0 <= m.vertices[j].floor < floors
    ensures forall i, j :: 0 <= i <= j < |m.vertices| ==> m.vertices[i].floor <= m.vertices[j].floor
    ensures floors > 0 ==> forall j :: 0 <= j < |m.vertices| && m.vertices[j].Corner? ==>
      var fh := height / floors as real;
      InBand(m.vertices[j].p, width, depth, FloorY(m.vertices[j].floor, fh), fh)
    ensures forall j :: 0 <= j < |m.vertices| && m.vertices[j].face == Roof ==>
      m.vertices[j].floor == floors - 1 && m.vertices[j].Corner? && m.vertices[j].p.y == height
    ensures floors > 0 ==> m.vertices[|m.vertices| - 1].face == Roof
  {
    if floors <= 0 {
      m := Empty();
      return;
    }
    m := BuildFloors(width, depth, height / floors as real, floors, style);
    BuiltComplete(m, style, floors, width, depth, height);
  }

  /** The floor loop of `GenerateBuilding`: floors 0 to `floors - 1`, each a band of height `fh`. */
  method BuildFloors(width: real, depth: real, fh: real, floors: int, style: BuildingStyle) returns (m: ArchMesh)
    requires floors > 0
    ensures Built(m, style, floors, floors, width, depth, fh)
  {
    m := Empty();
    var f := 0;
    while f < floors
      invariant 0 <= f <= floors
      invariant Built(m, style, f, floors, width, depth, fh)
    {
      BuildFloor(m, style, f, floors, width, depth, fh);
      m := GenerateFloor(m, f, width, depth, fh, FloorY(f, fh), style, f == 0, f == floors - 1);
      f := f + 1;
    }
  }
}

=== FILE: audio_cue.dfy ===
/**
 A sound-effect description (`AudioCue`): a list of clips to pick from, a base
 volume and pitch, and optional random variation of each. The draws of
 `Random.Range` are passed in as fractions.
 */
module AudioCue {
  import opened Common
  import opened Random

  /** The cue's fields; a null clip array is `None`. */
  datatype Cue<C> = Cue(
    clips: Option<seq<C>>,
    volume: real,
    pitch: real,
    randomizePitch: bool,
    pitchVariation: real,
    randomizeVolume: bool,
    volumeVariation: real)

  /** A new asset's serialized defaults. */
  function Create<C>(clips: Option<seq<C>>): (c: Cue<C>)
    ensures c.clips == clips
    ensures c.volume == 1.0 && c.pitch == 1.0
    ensures c.randomizePitch && c.pitchVariation == 0.1
    ensures c.randomizeVolume && c.volumeVariation == 0.05
  {
    Cue(clips, 1.0, 1.0, true, 0.1, true, 0.05)
  }

  /** `GetClip()`: null for a null or empty array, otherwise the clip at the drawn position. */
  function GetClip<C>(c: Cue<C>, u: Fraction): (r: Option<C>)
    ensures r.None? <==> c.clips.None? || |c.clips.value| == 0
    ensures r.Some? ==> r.value in c.clips.value
    ensures r.Some? ==> r.value == c.clips.value[IntIn(u, 0, |c.clips.value|)]
  {
    if c.clips.None? || |c.clips.value| == 0 then None
    else Some(c.clips.value[IntIn(u, 0, |c.clips.value|)])
  }

  /** The magnitude of a variation, whichever sign it was set with. */
  function Abs(x: real): (r: real)
    ensures r >= 0.0 && (r == x || r == -x)
  {
    if x >= 0.0 then x else -x
  }

  /**
   `GetPitch()`: exactly the pitch when not randomized, otherwise the pitch
   moved by at most the variation either way.
   */
  function GetPitch<C>(c: Cue<C>, u: Fraction): (r: real)
    ensures !c.randomizePitch ==> r == c.pitch
    ensures c.randomizePitch ==> c.pitch - Abs(c.pitchVariation) <= r <= c.pitch + Abs(c.pitchVariation)
    ensures c.randomizePitch && u == 0.0 ==> r == c.pitch - c.pitchVariation
    ensures c.randomizePitch && u == 1.0 ==> r == c.pitch + c.pitchVariation
  {
    if !c.randomizePitch then c.pitch
    else c.pitch + RealIn(u, -c.pitchVariation, c.pitchVariation)
  }

  /**
   `GetVolume()`: exactly the volume when not randomized, otherwise the varied
   volume clamped to [0, 1].
   */
  function GetVolume<C>(c: Cue<C>, u: Fraction): (r: real)
    ensures !c.randomizeVolume ==> r == c.volume
    ensures c.randomizeVolume ==> 0.0 <= r <= 1.0
    ensures c.randomizeVolume && 0.0 <= c.volume - Abs(c.volumeVariation) && c.volume + Abs(c.volumeVariation) <= 1.0 ==>
      c.volume - Abs(c.volumeVariation) <= r <= c.volume + Abs(c.volumeVariation)
  {
    if !c.randomizeVolume then c.volume
    else Clamp01(c.volume + RealIn(u, -c.volumeVariation, c.volumeVariation))
  }

  /** With no variation, randomizing changes nothing for a volume already in [0, 1] and any pitch. */
  lemma NoVariationIsExact<C>(c: Cue<C>, u: Fraction)
    requires c.pitchVariation == 0.0 && c.volumeVariation == 0.0
    requires 0.0 <= c.volume <= 1.0
    ensures GetPitch(c, u) == c.pitch
    ensures GetVolume(c, u) == c.volume
  {
  }

  /** Every clip can come up: the draw k/n picks the k-th of n clips. */
  lemma EveryClipReachable<C>(c: Cue<C>, k: nat)
    requires c.clips.Some? && k < |c.clips.value|
    ensures var n := |c.clips.value|;
      GetClip(c, k as real / n as real) == Some(c.clips.value[k])
  {
    var n := |c.clips.value|;
    var x := k as real / n as real;
    assert 0.0 <= x <= 1.0;
    var u: Fraction := x;
    assert u * (n - 0) as real == k as real;
    assert FloorToInt(k as real) == k;
    assert IntIn(u, 0, n) == k;
  }
}

=== FILE: best_dialogue.dfy ===
/**
 The rule both NPC controllers use to pick what an NPC says: the loop-specific
 dialogues are ordered by `minLoopCount`, highest first, and the first one that
 the current loop has reached and whose clue requirement is met wins; without
 one, the NPC's default dialogue is used.
 */
module BestDialogue {
  import opened Common
  import opened DialogueData
  import Sorting
  import TimeLoop
  import Clues

  /** `TimeLoopManager.Instance?.CurrentLoopCount ?? 0`. */
  function CurrentLoop(loop: Option<TimeLoop.Manager>): (r: int)
    ensures loop.None? ==> r == 0
    ensures loop.Some? ==> r == loop.value.count
  {
    if loop.Some? then loop.value.count else 0
  }

  /**
   A dialogue may be chosen: it is not null, the loop has reached its
   `minLoopCount`, and it needs no clue or the clue system holds the clue.
   */
  predicate Eligible(d: Option<Dialogue>, currentLoop: int, store: Option<Clues.ClueSystem>) {
    && d.Some?
    && currentLoop >= d.value.minLoopCount
    && (IsNullOrEmpty(d.value.requiredClueId) || (store.Some? && Clues.HasClue(store.value, d.value.requiredClueId)))
  }

  /** The sort key of the game's comparator, negated so that ascending keys mean highest loop first; null sorts last. */
  function DescendingKey(d: Option<Dialogue>): real {
    if d.Some? then -(d.value.minLoopCount as real) else -(MinInt32 as real)
  }

  /** The list is ordered by `minLoopCount`, highest first. */
  ghost predicate LoopDescending(ds: seq<Option<Dialogue>>) {
    forall i, j :: 0 <= i < j < |ds| && ds[i].Some? && ds[j].Some? ==>
      ds[i].value.minLoopCount >= ds[j].value.minLoopCount
  }

  /** A list sorted by the descending key is ordered highest loop first. */
  lemma SortedIsDescending(ds: seq<Option<Dialogue>>)
    requires Sorting.SortedBy(ds, DescendingKey)
    ensures LoopDescending(ds)
  {
    forall i, j | 0 <= i < j < |ds| && ds[i].Some? && ds[j].Some?
      ensures ds[i].value.minLoopCount >= ds[j].value.minLoopCount
    {
      assert DescendingKey(ds[i]) <= DescendingKey(ds[j]);
    }
  }

  /** `SortLoopSpecificDialogues()`: one sorting by the descending key. */
  function SortLoopSpecificDialogues(ds: seq<Option<Dialogue>>): (r: seq<Option<Dialogue>>)
    ensures multiset(r) == multiset(ds)
    ensures Sorting.IsSortingOf(r, ds, DescendingKey)
    ensures LoopDescending(r)
  {
    var r := Sorting.SortBy(ds, DescendingKey);
    SortedIsDescending(r);
    r
  }

  /** The position of the first eligible dialogue at or after `i`, or `|ds|`. */
  function FirstEligible(ds: seq<Option<Dialogue>>, currentLoop: int, store: Option<Clues.ClueSystem>, i: nat): (k: nat)
    requires i <= |ds|
    ensures i <= k <= |ds|
    ensures forall j :: i <= j < k ==> !Eligible(ds[j], currentLoop, store)
    ensures k < |ds| ==> Eligible(ds[k], currentLoop, store)
    decreases |ds| - i
  {
    if i == |ds| then i
    else if Eligible(ds[i], currentLoop, store) then i
    else FirstEligible(ds, currentLoop, store, i + 1)
  }

  /**
   `GetBestDialogue()` over the list as it stands: the first eligible entry, or
   the default dialogue when there is none.
   */
  function Select(ds: seq<Option<Dialogue>>, default: Option<Dialogue>, currentLoop: int, store: Option<Clues.ClueSystem>): (r: Option<Dialogue>)
    ensures (forall j :: 0 <= j < |ds| ==> !Eligible(ds[j], currentLoop, store)) ==> r == default
    ensures (exists j :: 0 <= j < |ds| && Eligible(ds[j], currentLoop, store)) ==>
      exists k :: 0 <= k < |ds| && Eligible(ds[k], currentLoop, store) && r == ds[k]
        && forall j :: 0 <= j < k ==> !Eligible(ds[j], currentLoop, store)
  {
    var k := FirstEligible(ds, currentLoop, store, 0);
    if k < |ds| then ds[k] else default
  }

  /**
   On a list ordered highest loop first, the chosen dialogue has the highest
   `minLoopCount` among all eligible ones; the default is chosen only when none
   is eligible.
   */
  lemma {:induction false} SelectPicksHighestEligible(ds: seq<Option<Dialogue>>, default: Option<Dialogue>, currentLoop: int, store: Option<Clues.ClueSystem>)
    requires LoopDescending(ds)
    requires exists j :: 0 <= j < |ds| && Eligible(ds[j], currentLoop, store)
    ensures var r := Select(ds, default, currentLoop, store);
      && r in ds && Eligible(r, currentLoop, store)
      && forall j :: 0 <= j < |ds| && Eligible(ds[j], currentLoop, store) ==> ds[j].value.minLoopCount <= r.value.minLoopCount
  {
    var k := FirstEligible(ds, currentLoop, store, 0);
    assert k < |ds|;
  }

  /**
   The same holds for whatever order an unstable sort leaves: every ordering of
   the dialogues by the game's comparator yields a highest eligible one.
   */
  lemma AnySortPicksHighestEligible(ds: seq<Option<Dialogue>>, sorted: seq<Option<Dialogue>>, default: Option<Dialogue>, currentLoop: int, store: Option<Clues.ClueSystem>)
    requires Sorting.IsSortingOf(sorted, ds, DescendingKey)
    requires exists j :: 0 <= j < |ds| && Eligible(ds[j], currentLoop, store)
    ensures var r := Select(sorted, default, currentLoop, store);
      && r in ds && Eligible(r, currentLoop, store)
      && forall j :: 0 <= j < |ds| && Eligible(ds[j], currentLoop, store) ==> ds[j].value.minLoopCount <= r.value.minLoopCount
  {
    SortedIsDescending(sorted);
    var j :| 0 <= j < |ds| && Eligible(ds[j], currentLoop, store);
    assert ds[j] in multiset(sorted);
    var j' :| 0 <= j' < |sorted| && sorted[j'] == ds[j];
    SelectPicksHighestEligible(sorted, default, currentLoop, store);
    var r := Select(sorted, default, currentLoop, store);
    assert r in multiset(ds);
    forall i | 0 <= i < |ds| && Eligible(ds[i], currentLoop, store)
      ensures ds[i].value.minLoopCount <= r.value.minLoopCount
    {
      assert ds[i] in multiset(sorted);
    }
  }
}

=== FILE: building_mesh.dfy ===
/**
 The simple building box (`BuildingMeshGenerator`): four walls and a top over a
 footprint centred on the pivot, with no bottom face.
 */
module BuildingMesh {
  import opened Common
  import opened Mesh

  /** A corner of the box: on the footprint's outline and at ground or roof level. */
  predicate OnBox(p: Vec3, width: real, depth: real, height: real) {
    && (p.x == -width / 2.0 || p.x == width / 2.0)
    && (p.z == -depth / 2.0 || p.z == depth / 2.0)
    && (p.y == 0.0 || p.y == height)
  }

  /**
   `GenerateBuildingMesh(width, depth, height, floors)`: front, right, back and
   left walls, then the top, each added as one quad. The floor count is not
   used.
   */
  function GenerateBuildingMesh(width: real, depth: real, height: real, floors: int): (m: MeshBuf<Vec3, Uv>)
    ensures QuadLayout(m, 5) && WellFormed(m)
    ensures |m.vertices| == 20 && |m.triangles| == 30
    ensures forall j :: 0 <= j < |m.vertices| ==> OnBox(m.vertices[j], width, depth, height)
  {
    var hw := width / 2.0;
    var hd := depth / 2.0;
    var v0 := Vec3(-hw, 0.0, -hd);
    var v1 := Vec3(hw, 0.0, -hd);
    var v2 := Vec3(hw, 0.0, hd);
    var v3 := Vec3(-hw, 0.0, hd);
    var v4 := Vec3(-hw, height, -hd);
    var v5 := Vec3(hw, height, -hd);
    var v6 := Vec3(hw, height, hd);
    var v7 := Vec3(-hw, height, hd);
    var m0 := Empty();
    var m1 := AddQuad(m0, v0, v4, v5, v1);
    var m2 := AddQuad(m1, v1, v5, v6, v2);
    var m3 := AddQuad(m2, v2, v6, v7, v3);
    var m4 := AddQuad(m3, v3, v7, v4, v0);
    var m5 := AddQuad(m4, v4, v7, v6, v5);
    AddQuadLayout(m0, 0, v0, v4, v5, v1);
    AddQuadLayout(m1, 1, v1, v5, v6, v2);
    AddQuadLayout(m2, 2, v2, v6, v7, v3);
    AddQuadLayout(m3, 3, v3, v7, v4, v0);
    AddQuadLayout(m4, 4, v4, v7, v6, v5);
    QuadLayoutWellFormed(m5, 5);
    m5
  }

  /** How many corners of quad `k` are at roof level. */
  function TopCorners(m: MeshBuf<Vec3, Uv>, k: nat, height: real): (n: nat)
    requires 4 * k + 4 <= |m.vertices|
    ensures n <= 4
  {
    (if m.vertices[4 * k].y == height then 1 else 0)
    + (if m.vertices[4 * k + 1].y == height then 1 else 0)
    + (if m.vertices[4 * k + 2].y == height then 1 else 0)
    + (if m.vertices[4 * k + 3].y == height then 1 else 0)
  }

  /**
   For a box of positive height the first four quads are walls, each with two
   corners on the ground and two at the roof, and the fifth is the top, with
   all four at the roof; no quad lies on the ground, so there is no bottom.
   */
  lemma WallsAndTop(width: real, depth: real, height: real, floors: int)
    requires height > 0.0
    ensures var m := GenerateBuildingMesh(width, depth, height, floors);
      && (forall k: nat :: k < 4 ==> TopCorners(m, k, height) == 2)
      && TopCorners(m, 4, height) == 4
  {
  }

  /** The floor count has no effect on the mesh. */
  lemma FloorsIgnored(width: real, depth: real, height: real, f1: int, f2: int)
    ensures GenerateBuildingMesh(width, depth, height, f1) == GenerateBuildingMesh(width, depth, height, f2)
  {
  }
}

=== FILE: clues.dfy ===
/**
 Cross-loop clue memory (`PersistentClueSystem` and `ClueDatabase`). The clue
 system holds its own set of discovered ids; the loop manager holds a second
 copy, and the two are kept in step only by `DiscoverClue` forwarding to
 `TimeLoopManager.AddClue` and by `LoadCluesFromSave` copying the manager's set.
 */
module Clues {
  import opened Common
  import TimeLoop

  /** `ClueData` (the icon sprite is left out). */
  datatype ClueData = ClueData(clueId: string, clueName: string, description: string, isStoryClue: bool)

  /** `ClueDatabase`: the clue definitions in authoring order. */
  datatype ClueDatabase = ClueDatabase(clues: seq<ClueData>)

  /**
   The clue system: the discovered ids, the optional database, and the ids for
   which a "new clue" notification was shown, in order.
   */
  datatype ClueSystem = ClueSystem(discovered: set<string>, database: Option<ClueDatabase>, notified: seq<string>)

  /** The two singletons a caller may find: `TimeLoopManager.Instance` and `PersistentClueSystem.Instance`. */
  datatype Memory = Memory(loop: Option<TimeLoop.Manager>, store: Option<ClueSystem>)

  predicate Valid(mem: Memory) {
    mem.loop.Some? ==> TimeLoop.Valid(mem.loop.value)
  }

  /** Both stores exist and hold the same clues. */
  predicate InSync(mem: Memory) {
    mem.loop.Some? && mem.store.Some? && mem.loop.value.clues == mem.store.value.discovered
  }

  /** `HasClue(id)`. */
  predicate HasClue(cs: ClueSystem, id: string) {
    id in cs.discovered
  }

  /**
   `HasClue` after `DiscoverClue`: the discovered id is held, and every other
   id is held exactly when it was held before.
   */
  lemma HasClueAfterDiscover(cs: ClueSystem, loop: Option<TimeLoop.Manager>, id: string, other: string)
    requires loop.Some? ==> TimeLoop.Valid(loop.value)
    ensures HasClue(DiscoverClue(cs, loop, id).0, id)
    ensures other != id ==> (HasClue(DiscoverClue(cs, loop, id).0, other) <==> HasClue(cs, other))
  {
  }

  /**
   `DiscoverClue(id)` on the clue system, with the loop manager it may forward to.
   A known id changes nothing; a new id is added, forwarded to the manager when
   there is one, and notified exactly once.
   */
  function DiscoverClue(cs: ClueSystem, loop: Option<TimeLoop.Manager>, id: string): (r: (ClueSystem, Option<TimeLoop.Manager>))
    requires loop.Some? ==> TimeLoop.Valid(loop.value)
    ensures r.1.Some? <==> loop.Some?
    ensures r.1.Some? ==> TimeLoop.Valid(r.1.value)
    ensures HasClue(r.0, id)
    ensures HasClue(cs, id) ==> r == (cs, loop)
    ensures !HasClue(cs, id) ==>
      && r.0 == cs.(discovered := cs.discovered + {id}, notified := cs.notified + [id])
      && (loop.Some? ==> r.1 == Some(TimeLoop.AddClue(loop.value, id)))
  {
    if id in cs.discovered then (cs, loop)
    else
      var loop' := if loop.Some? then Some(TimeLoop.AddClue(loop.value, id)) else None;
      (cs.(discovered := cs.discovered + {id}, notified := cs.notified + [id]), loop')
  }

  /** `PersistentClueSystem.Instance?.DiscoverClue(id)`: nothing happens without a clue system. */
  function Discover(mem: Memory, id: string): (r: Memory)
    requires Valid(mem)
    ensures Valid(r)
    ensures r.store.Some? <==> mem.store.Some?
    ensures r.loop.Some? <==> mem.loop.Some?
    ensures mem.store.None? ==> r == mem
    ensures mem.store.Some? ==> r.store.value.discovered == mem.store.value.discovered + {id}
    ensures mem.store.Some? && mem.loop.Some? && !HasClue(mem.store.value, id) ==>
      r.loop.value.clues == mem.loop.value.clues + {id}
    ensures mem.store.Some? && HasClue(mem.store.value, id) ==> r == mem
    ensures mem.loop.Some? ==> r.loop.value.count == mem.loop.value.count
  {
    if mem.store.None? then mem
    else
      var (cs, loop) := DiscoverClue(mem.store.value, mem.loop, id);
      Memory(loop, Some(cs))
  }

  /** Discovering a clue keeps the two stores in step. */
  lemma DiscoverKeepsSync(mem: Memory, id: string)
    requires Valid(mem) && InSync(mem)
    ensures InSync(Discover(mem, id))
  {
  }

  /** Discovering the same clue twice is the same as discovering it once. */
  lemma DiscoverIdempotent(mem: Memory, id: string)
    requires Valid(mem)
    ensures Discover(Discover(mem, id), id) == Discover(mem, id)
  {
  }

  /** `GetAllClues()`: a fresh set holding exactly the discovered ids. */
  function GetAllClues(cs: ClueSystem): (r: set<string>)
    ensures forall id :: id in r <==> HasClue(cs, id)
  {
    cs.discovered
  }

  /**
   `LoadCluesFromSave()`: with a loop manager, the discovered set becomes a copy
   of the manager's clues; without one it is left as it is.
   */
  function LoadCluesFromSave(cs: ClueSystem, loop: Option<TimeLoop.Manager>): (r: ClueSystem)
    ensures loop.None? ==> r == cs
    ensures loop.Some? ==> forall id :: HasClue(r, id) <==> TimeLoop.HasClue(loop.value, id)
    ensures r.database == cs.database && r.notified == cs.notified
  {
    if loop.Some? then cs.(discovered := TimeLoop.GetAllClues(loop.value)) else cs
  }

  /** `Start()` of the clue system: loading from the manager puts both stores in step. */
  lemma LoadEstablishesSync(cs: ClueSystem, m: TimeLoop.Manager)
    requires TimeLoop.Valid(m)
    ensures InSync(Memory(Some(m), Some(LoadCluesFromSave(cs, Some(m)))))
  {
  }

  /**
   `ClueDatabase.GetClue(id)`, i.e. `List.Find`: the first entry whose id
   matches, or null when there is none.
   */
  function GetClue(db: ClueDatabase, id: string): (r: Option<ClueData>)
    ensures r.None? <==> forall k :: 0 <= k < |db.clues| ==> db.clues[k].clueId != id
    ensures r.Some? ==> exists k :: 0 <= k < |db.clues| && db.clues[k] == r.value && FirstMatch(db.clues, id, k)
  {
    var k := FindFrom(db.clues, id, 0);
    if k < |db.clues| then Some(db.clues[k]) else None
  }

  /** Entry `k` has id `id` and no earlier entry has. */
  predicate FirstMatch(clues: seq<ClueData>, id: string, k: nat)
    requires k < |clues|
  {
    clues[k].clueId == id && forall j :: 0 <= j < k ==> clues[j].clueId != id
  }

  /** The position of the first entry at or after `i` with id `id`, or `|clues|`. */
  function FindFrom(clues: seq<ClueData>, id: string, i: nat): (k: nat)
    requires i <= |clues|
    requires forall j :: 0 <= j < i ==> clues[j].clueId != id
    ensures i <= k <= |clues|
    ensures forall j :: 0 <= j < k ==> clues[j].clueId != id
    ensures k < |clues| ==> clues[k].clueId == id
    decreases |clues| - i
  {
    if i == |clues| then i
    else if clues[i].clueId == id then i
    else FindFrom(clues, id, i + 1)
  }

  /** `GetClueData(id)`: null without a database, otherwise the database lookup. */
  function GetClueData(cs: ClueSystem, id: string): (r: Option<ClueData>)
    ensures cs.database.None? ==> r.None?
    ensures r.Some? ==> r.value.clueId == id && r.value in cs.database.value.clues
    ensures cs.database.Some? && (exists k :: 0 <= k < |cs.database.value.clues| && cs.database.value.clues[k].clueId == id) ==> r.Some?
  {
    if cs.database.Some? then GetClue(cs.database.value, id) else None
  }
}

=== FILE: common.dfy ===
/**
 Small helpers shared by every component of the model: the optional value used
 wherever the game checks a reference for null, the clamping and interpolation
 rules of Unity's `Mathf`, and C#'s 32-bit integer wrap-around.
 */
module Common {

  /** A reference that may be null (`None`). */
  datatype Option<+T> = None | Some(value: T)

  /** The result of a call that may raise a NullReferenceException. */
  datatype Outcome<+T> = Ok(value: T) | NullReference

  /** `Vector3`. */
  datatype Vec3 = Vec3(x: real, y: real, z: real)

  /** `Mathf.Clamp(x, lo, hi)` for `lo <= hi`. */
  function Clamp(x: real, lo: real, hi: real): (r: real)
    requires lo <= hi
    ensures lo <= r <= hi
    ensures lo <= x <= hi ==> r == x
    ensures x < lo ==> r == lo
    ensures hi < x ==> r == hi
  {
    if x < lo then lo else if hi < x then hi else x
  }

  /** `Mathf.Clamp01(x)`. */
  function Clamp01(x: real): (r: real)
    ensures 0.0 <= r <= 1.0
    ensures 0.0 <= x <= 1.0 ==> r == x
  {
    Clamp(x, 0.0, 1.0)
  }

  /** `Mathf.Lerp(a, b, t)`: the interpolation parameter is clamped to [0, 1]. */
  function Lerp(a: real, b: real, t: real): (r: real)
    ensures a <= b ==> a <= r <= b
    ensures b <= a ==> b <= r <= a
    ensures t <= 0.0 ==> r == a
    ensures t >= 1.0 ==> r == b
  {
    var c := Clamp01(t);
    ScaledGap(a, b, c);
    a + (b - a) * c
  }

  lemma ScaledGap(a: real, b: real, c: real)
    requires 0.0 <= c <= 1.0
    ensures a <= b ==> 0.0 <= (b - a) * c <= b - a
    ensures b <= a ==> b - a <= (b - a) * c <= 0.0
  {
    var d := b - a;
    assert d * (1.0 - c) == d - d * c;
    if a <= b {
      MulNonNegative(d, c);
      MulNonNegative(d, 1.0 - c);
    } else {
      MulNonNegative(-d, c);
      MulNonNegative(-d, 1.0 - c);
      assert (-d) * c == -(d * c);
      assert (-d) * (1.0 - c) == -(d * (1.0 - c));
    }
  }

  lemma MulNonNegative(x: real, y: real)
    requires x >= 0.0 && y >= 0.0
    ensures x * y >= 0.0
  {
  }

  /** `Mathf.FloorToInt(x)`. */
  function FloorToInt(x: real): (r: int)
    ensures r as real <= x < r as real + 1.0
  {
    x.Floor
  }

  /** `Mathf.Repeat(t, 24)`: `t` wrapped into one day, [0, 24). */
  function RepeatDay(t: real): (r: real)
    ensures 0.0 <= r < 24.0
    ensures 0.0 <= t < 24.0 ==> r == t
    ensures ((t - r) / 24.0).Floor as real * 24.0 == t - r
  {
    var k := FloorToInt(t / 24.0);
    t - k as real * 24.0
  }

  /** Bounds of C#'s `int`. */
  const MinInt32: int := -0x8000_0000
  const MaxInt32: int := 0x7FFF_FFFF

  predicate IsInt32(x: int) {
    MinInt32 <= x <= MaxInt32
  }

  /** A value of C#'s `int`. */
  type Int32 = x: int | IsInt32(x)

  /** The value an unchecked C# `int` computation produces for the exact result `x`. */
  function WrapInt32(x: int): (r: int)
    ensures IsInt32(r)
    ensures (x - r) % 0x1_0000_0000 == 0
    ensures IsInt32(x) ==> r == x
  {
    var m := (x - MinInt32) % 0x1_0000_0000;
    m + MinInt32
  }

  /** `Mathf.Clamp` on integers. */
  function ClampInt(x: int, lo: int, hi: int): (r: int)
    requires lo <= hi
    ensures lo <= r <= hi
    ensures lo <= x <= hi ==> r == x
    ensures x < lo ==> r == lo
    ensures hi < x ==> r == hi
  {
    if x < lo then lo else if x > hi then hi else x
  }

  /** C#'s `%` on `int`: the remainder takes the sign of the dividend. */
  function CsRem(a: int, n: int): (r: int)
    requires n > 0
    ensures a >= 0 ==> r == a % n && 0 <= r < n
    ensures a < 0 ==> -n < r <= 0
  {
    if a >= 0 then a % n else -((-a) % n)
  }

  lemma MulAtLeast(d: int, n: int)
    requires d >= 1 && n > 0
    ensures d * n >= n
  {
    assert d * n == (d - 1) * n + n;
    assert (d - 1) * n >= 0;
  }

  /** Euclidean division has one remainder: `k * n + r` with `0 <= r < n` leaves `r`. */
  lemma ModUnique(y: int, k: int, r: int, n: int)
    requires n > 0 && 0 <= r < n && y == k * n + r
    ensures y % n == r
  {
    var q := y / n;
    var m := y % n;
    assert y == q * n + m;
    var d := q - k;
    assert d * n == q * n - k * n;
    assert d * n == r - m;
    if d > 0 {
      MulAtLeast(d, n);
    } else if d < 0 {
      MulAtLeast(-d, n);
    }
  }

  /** Adding after reducing modulo `n` is the same as reducing afterwards. */
  lemma ModShift(a: int, b: int, n: int)
    requires n > 0
    ensures ((a % n) + b) % n == (a + b) % n
  {
    var s := (a % n) + b;
    assert a == (a / n) * n + a % n;
    assert s == (s / n) * n + s % n;
    assert (a / n + s / n) * n == (a / n) * n + (s / n) * n;
    ModUnique(a + b, a / n + s / n, s % n, n);
  }

  /** `string.IsNullOrEmpty` (null strings are modelled as the empty string). */
  predicate IsNullOrEmpty(s: string) {
    |s| == 0
  }

  /** The larger of two integers. */
  function MaxInt(a: int, b: int): (r: int)
    ensures r >= a && r >= b && (r == a || r == b)
  {
    if a >= b then a else b
  }

  /** No element occurs twice. */
  predicate NoDuplicates<T(==)>(xs: seq<T>) {
    forall i, j :: 0 <= i < j < |xs| ==> xs[i] != xs[j]
  }

  /** C#'s `List.Remove`: drops the first occurrence of `x`, if any. */
  function RemoveFirst<T(==)>(xs: seq<T>, x: T): (r: seq<T>)
    ensures x !in xs ==> r == xs
    ensures x in xs ==> |r| == |xs| - 1
    ensures multiset(r) == multiset(xs) - multiset{x}
    ensures forall y :: y in r ==> y in xs
  {
    if |xs| == 0 then []
    else if xs[0] == x then
      assert xs == [xs[0]] + xs[1..];
      xs[1..]
    else
      assert xs == [xs[0]] + xs[1..];
      [xs[0]] + RemoveFirst(xs[1..], x)
  }

  /** Removing an element from a duplicate-free list removes every occurrence of it. */
  lemma {:induction false} RemoveFirstNoDuplicates<T>(xs: seq<T>, x: T)
    requires NoDuplicates(xs)
    ensures NoDuplicates(RemoveFirst(xs, x))
    ensures x !in RemoveFirst(xs, x)
    ensures forall y :: y in xs && y != x ==> y in RemoveFirst(xs, x)
  {
    if |xs| == 0 {
    } else if xs[0] == x {
      assert xs == [xs[0]] + xs[1..];
      assert forall k :: 0 <= k < |xs[1..]| ==> xs[1..][k] == xs[k + 1];
    } else {
      assert xs == [xs[0]] + xs[1..];
      assert NoDuplicates(xs[1..]) by {
        forall i, j | 0 <= i < j < |xs[1..]| ensures xs[1..][i] != xs[1..][j] {
          assert xs[1..][i] == xs[i + 1] && xs[1..][j] == xs[j + 1];
        }
      }
      RemoveFirstNoDuplicates(xs[1..], x);
      var rest := RemoveFirst(xs[1..], x);
      assert xs[0] !in xs[1..] by {
        forall k | 0 <= k < |xs[1..]| ensures xs[1..][k] != xs[0] {
          assert xs[1..][k] == xs[k + 1];
        }
      }
      assert xs[0] !in rest;
      var r := [xs[0]] + rest;
      forall i, j | 0 <= i < j < |r| ensures r[i] != r[j] {
        if i == 0 {
          assert r[j] == rest[j - 1];
          assert r[j] in rest;
        } else {
          assert r[i] == rest[i - 1] && r[j] == rest[j - 1];
        }
      }
    }
  }
}

=== FILE: dialogue_data.dfy ===
/**
 The authored dialogue data (`DialogueData`, `DialogueChoice`). A choice may lead
 to a further dialogue; the model only admits finite chains of dialogues.
 */
module DialogueData {
  import opened Common
  import opened MissionData

  /** `DialogueData`. */
  datatype Dialogue = Dialogue(
    dialogueId: string,
    npcName: string,
    sentences: seq<string>,
    minLoopCount: int,
    requiredClueId: string,
    giveClueId: string,
    triggerEventId: string,
    startMission: Option<Mission>,
    completeMission: Option<Mission>,
    choices: seq<Choice>)

  /** `DialogueChoice`. */
  datatype Choice = Choice(choiceText: string, nextDialogue: Option<Dialogue>, triggerEventId: string)
}

=== FILE: dialogue_manager.dfy ===
/**
 The conversation state machine (`DialogueManager`): starting a dialogue queues
 its sentences and shows the first; each continue shows the next; once the
 queue is empty the dialogue's choices are offered, or the dialogue ends. Ending
 a dialogue gives its clue, then starts and then completes its linked missions.
 */
module DialogueManager {
  import opened Common
  import opened DialogueData
  import opened MissionData
  import Clues
  import Missions

  /**
   The manager: the sentence queue, the current dialogue, the active flag, the
   sentences handed to the UI so far and the choices last offered.
   */
  datatype Manager = Manager(
    queue: seq<string>,
    current: Option<Dialogue>,
    active: bool,
    spoken: seq<string>,
    offered: seq<Choice>)

  /**
   What a dialogue may touch: the clue singletons, the mission manager if there
   is one, and the pause flag of the game manager if there is one.
   */
  datatype World = World(mem: Clues.Memory, missions: Option<Missions.Registry>, paused: Option<bool>)

  predicate Valid(w: World) {
    Clues.Valid(w.mem)
  }

  /** `Awake()`: an empty queue and no dialogue. */
  function Create(): (dm: Manager)
    ensures dm.queue == [] && dm.current.None? && !dm.active && dm.spoken == [] && dm.offered == []
  {
    Manager([], None, false, [], [])
  }

  /** `GameManager.Instance?.SetPaused(p)`. */
  function SetPaused(w: World, p: bool): (r: World)
    ensures r.mem == w.mem && r.missions == w.missions
    ensures r.paused.Some? <==> w.paused.Some?
    ensures r.paused.Some? ==> r.paused.value == p
  {
    if w.paused.Some? then w.(paused := Some(p)) else w
  }

  /**
   `DisplayNextSentence()`: with sentences left, the oldest is dequeued and
   handed to the UI. With none left, the current dialogue's choices are offered
   when it has some, and otherwise the dialogue ends. On an empty queue the
   current dialogue is dereferenced, so without one that is a null reference.
   */
  function DisplayNextSentence(dm: Manager, w: World): (r: Outcome<(Manager, World)>)
    requires Valid(w)
    ensures r.NullReference? <==> |dm.queue| == 0 && dm.current.None?
    ensures r.Ok? ==> Valid(r.value.1)
    ensures |dm.queue| > 0 ==> r == Ok((dm.(queue := dm.queue[1..], spoken := dm.spoken + [dm.queue[0]]), w))
    ensures |dm.queue| == 0 && dm.current.Some? && |dm.current.value.choices| > 0 ==>
      r == Ok((dm.(offered := dm.current.value.choices), w))
    ensures |dm.queue| == 0 && dm.current.Some? && |dm.current.value.choices| == 0 ==>
      r == Ok(EndDialogue(dm, w))
  {
    if |dm.queue| == 0 && dm.current.None? then NullReference
    else Ok(Advance(dm, w))
  }

  /** The step `DisplayNextSentence()` takes once the current dialogue is known to exist. */
  function Advance(dm: Manager, w: World): (r: (Manager, World))
    requires Valid(w)
    requires |dm.queue| > 0 || dm.current.Some?
    ensures Valid(r.1)
    ensures |dm.queue| > 0 ==> r.0.queue == dm.queue[1..] && r.0.spoken == dm.spoken + [dm.queue[0]] && r.0.active == dm.active
  {
    if |dm.queue| > 0 then
      (dm.(queue := dm.queue[1..], spoken := dm.spoken + [dm.queue[0]]), w)
    else if |dm.current.value.choices| > 0 then
      (dm.(offered := dm.current.value.choices), w)
    else EndDialogue(dm, w)
  }

  /**
   `StartDialogue(d)`: null is ignored. Otherwise the dialogue becomes current
   and active, the game pauses, the queue is replaced by the dialogue's
   sentences in order, and the first step is shown at once.
   */
  function StartDialogue(dm: Manager, w: World, d: Option<Dialogue>): (r: (Manager, World))
    requires Valid(w)
    ensures Valid(r.1)
    ensures d.None? ==> r == (dm, w)
    ensures d.Some? ==>
      r == Advance(dm.(current := d, active := true, queue := d.value.sentences), SetPaused(w, true))
    ensures d.Some? && |d.value.sentences| > 0 ==>
      && r.0.active && r.0.current == d
      && r.0.queue == d.value.sentences[1..]
      && r.0.spoken == dm.spoken + [d.value.sentences[0]]
  {
    if d.None? then (dm, w)
    else Advance(dm.(current := d, active := true, queue := d.value.sentences), SetPaused(w, true))
  }

  /**
   `EndDialogue()`: the dialogue stops being active; for a current dialogue its
   non-empty clue is discovered, then its start mission is started and then its
   complete mission completed, each through the managers that exist; finally the
   game is unpaused. The current dialogue is not cleared.
   */
  function EndDialogue(dm: Manager, w: World): (r: (Manager, World))
    requires Valid(w)
    ensures Valid(r.1)
    ensures r.0 == dm.(active := false)
    ensures r.1.paused.Some? <==> w.paused.Some?
    ensures r.1.paused.Some? ==> !r.1.paused.value
    ensures r.1.missions.Some? <==> w.missions.Some?
    ensures r.1.mem.store.Some? <==> w.mem.store.Some?
    ensures dm.current.None? ==> r.1 == SetPaused(w, false)
    ensures dm.current.Some? ==> r.1 == SetPaused(Effects(dm.current.value, w), false)
  {
    var w' := if dm.current.Some? then Effects(dm.current.value, w) else w;
    (dm.(active := false), SetPaused(w', false))
  }

  /**
   The post-dialogue effects, in the order the game applies them: the clue, the
   start mission, the complete mission.
   */
  function Effects(d: Dialogue, w: World): (r: World)
    requires Valid(w)
    ensures Valid(r)
    ensures r.paused == w.paused
    ensures r.missions.Some? <==> w.missions.Some?
    ensures r.mem.store.Some? <==> w.mem.store.Some?
    ensures IsNullOrEmpty(d.giveClueId) && d.completeMission.None? ==> r.mem == w.mem
    ensures !IsNullOrEmpty(d.giveClueId) && w.mem.store.Some? ==> d.giveClueId in r.mem.store.value.discovered
    ensures w.missions.None? ==> r.mem == GiveClue(d, w.mem)
    ensures w.missions.Some? ==>
      var started := Missions.StartMission(w.missions.value, d.startMission);
      (r.missions.value, r.mem) == Missions.CompleteMission(started, GiveClue(d, w.mem), d.completeMission)
  {
    var mem := GiveClue(d, w.mem);
    if w.missions.None? then w.(mem := mem)
    else
      var started := Missions.StartMission(w.missions.value, d.startMission);
      var (reg, mem') := Missions.CompleteMission(started, mem, d.completeMission);
      w.(mem := mem', missions := Some(reg))
  }

  /** The clue a dialogue gives, if it names one. */
  function GiveClue(d: Dialogue, mem: Clues.Memory): (r: Clues.Memory)
    requires Clues.Valid(mem)
    ensures Clues.Valid(r)
    ensures IsNullOrEmpty(d.giveClueId) ==> r == mem
    ensures !IsNullOrEmpty(d.giveClueId) ==> r == Clues.Discover(mem, d.giveClueId)
  {
    if IsNullOrEmpty(d.giveClueId) then mem else Clues.Discover(mem, d.giveClueId)
  }

  /**
   `OnChoiceSelected(choice)`: a choice with a next dialogue starts it, any
   other ends the current one. The trigger id is only logged.
   */
  function OnChoiceSelected(dm: Manager, w: World, choice: Choice): (r: (Manager, World))
    requires Valid(w)
    ensures Valid(r.1)
    ensures choice.nextDialogue.Some? ==> r == StartDialogue(dm, w, choice.nextDialogue)
    ensures choice.nextDialogue.None? ==> r == EndDialogue(dm, w) && !r.0.active
  {
    if choice.nextDialogue.Some? then StartDialogue(dm, w, choice.nextDialogue) else EndDialogue(dm, w)
  }

  /** `k` presses of continue. */
  function Continue(dm: Manager, w: World, k: nat): (r: Outcome<(Manager, World)>)
    requires Valid(w)
    ensures r.Ok? ==> Valid(r.value.1)
    decreases k
  {
    if k == 0 then Ok((dm, w))
    else match DisplayNextSentence(dm, w)
      case NullReference => NullReference
      case Ok((dm', w')) => Continue(dm', w', k - 1)
  }

  /**
   The queue is first in, first out: while sentences remain, `k` presses hand
   the next `k` sentences to the UI in their order, touch nothing else and keep
   the dialogue active.
   */
  lemma {:induction false} SentencesInOrder(dm: Manager, w: World, k: nat)
    requires Valid(w)
    requires k <= |dm.queue|
    ensures Continue(dm, w, k) == Ok((dm.(queue := dm.queue[k..], spoken := dm.spoken + dm.queue[..k]), w))
    decreases k
  {
    if k > 0 {
      var dm' := dm.(queue := dm.queue[1..], spoken := dm.spoken + [dm.queue[0]]);
      assert DisplayNextSentence(dm, w) == Ok((dm', w));
      assert Continue(dm, w, k) == Continue(dm', w, k - 1);
      SentencesInOrder(dm', w, k - 1);
      assert dm'.queue[k - 1..] == dm.queue[k..];
      assert dm'.spoken + dm'.queue[..k - 1] == dm.spoken + dm.queue[..k] by {
        assert dm.queue[..k] == [dm.queue[0]] + dm.queue[1..][..k - 1];
      }
    } else {
      assert dm.queue[k..] == dm.queue && dm.spoken + dm.queue[..k] == dm.spoken;
    }
  }

  /**
   A whole conversation without choices: after starting it, one press per
   remaining sentence delivers them all, and the press after that ends it with
   its effects applied.
   */
  lemma WholeDialogue(dm: Manager, w: World, d: Dialogue)
    requires Valid(w)
    requires |d.sentences| > 0 && |d.choices| == 0
    ensures var (dm1, w1) := StartDialogue(dm, w, Some(d));
      var rest := Continue(dm1, w1, |d.sentences| - 1);
      && rest.Ok?
      && rest.value.0.spoken == dm.spoken + d.sentences
      && rest.value.0.queue == []
      && DisplayNextSentence(rest.value.0, rest.value.1) == Ok(EndDialogue(rest.value.0, rest.value.1))
      && !EndDialogue(rest.value.0, rest.value.1).0.active
  {
    var (dm1, w1) := StartDialogue(dm, w, Some(d));
    SentencesInOrder(dm1, w1, |d.sentences| - 1);
    assert dm1.spoken + dm1.queue[..|d.sentences| - 1] == dm.spoken + d.sentences;
  }

  /**
   A dialogue that both starts and completes the same mission finishes it in one
   go, whether or not it was completed before: the mission ends up completed and
   not active, and its reward clues are held.
   */
  lemma StartAndCompleteSameMission(d: Dialogue, w: World, m: Mission)
    requires Valid(w) && w.missions.Some? && w.mem.store.Some?
    requires d.startMission == Some(m) && d.completeMission == Some(m)
    requires Missions.Valid(w.missions.value)
    ensures var r := Effects(d, w);
      && m in r.missions.value.completed
      && m !in r.missions.value.active
      && (forall id :: id in m.rewardClueIds && |id| > 0 ==> id in r.mem.store.value.discovered)
  {
    var started := Missions.StartMission(w.missions.value, d.startMission);
    assert m in started.active;
  }
}

=== FILE: districts.dfy ===
/**
 The city's districts (`DistrictManager`): a position is classified by a fixed
 sequence of bounding-box tests, and each district fixes a building style and
 a range of building heights.
 */
module Districts {
  import opened Common
  import opened Random
  import Architect

  /** `DistrictType`. */
  datatype District = FortKochi | MarineDrive | WillingdonIsland | Mattancherry | Edappally | Generic

  /**
   `GetDistrictAtPosition(position)`: the tests are tried in order, Fort Kochi,
   Willingdon Island, Edappally, Mattancherry, Marine Drive, and the first that
   holds decides; a position no test accepts is generic.
   */
  function GetDistrictAtPosition(p: Vec3): (d: District)
    ensures p.x < -100.0 ==> d == FortKochi
  {
    if p.x < -100.0 then FortKochi
    else if p.x > 100.0 && p.z < 0.0 then WillingdonIsland
    else if p.x > 50.0 && p.z > 50.0 then Edappally
    else if p.x < -80.0 && p.z < -50.0 then Mattancherry
    else if p.x > -50.0 && p.x < 50.0 && p.z > -20.0 && p.z < 60.0 then MarineDrive
    else Generic
  }

  /**
   The area of each district on its own, independent of the order of the
   tests: the boxes overlap only where Fort Kochi's test shadows Mattancherry's,
   and the generic district is what no box covers.
   */
  predicate Region(d: District, p: Vec3) {
    match d
    case FortKochi => p.x < -100.0
    case WillingdonIsland => p.x > 100.0 && p.z < 0.0
    case Edappally => p.x > 50.0 && p.z > 50.0
    case Mattancherry => -100.0 <= p.x < -80.0 && p.z < -50.0
    case MarineDrive => -50.0 < p.x < 50.0 && -20.0 < p.z < 60.0
    case Generic =>
      && !(p.x < -100.0)
      && !(p.x > 100.0 && p.z < 0.0)
      && !(p.x > 50.0 && p.z > 50.0)
      && !(p.x < -80.0 && p.z < -50.0)
      && !(-50.0 < p.x < 50.0 && -20.0 < p.z < 60.0)
  }

  /** A position is classified as a district exactly when it lies in that district's area. */
  lemma ClassifiedIffInRegion(p: Vec3, d: District)
    ensures GetDistrictAtPosition(p) == d <==> Region(d, p)
  {
  }

  /** Every position lies in exactly one district's area. */
  lemma RegionsPartition(p: Vec3, d1: District, d2: District)
    requires Region(d1, p) && Region(d2, p)
    ensures d1 == d2
  {
    ClassifiedIffInRegion(p, d1);
    ClassifiedIffInRegion(p, d2);
  }

  /** `GetStyleForDistrict(district)`: colonial Fort Kochi, slum Mattancherry, modern elsewhere. */
  function GetStyleForDistrict(d: District): (s: Architect.BuildingStyle)
    ensures s == Architect.Colonial <==> d == FortKochi
    ensures s == Architect.Slum <==> d == Mattancherry
    ensures s == Architect.Modern <==> d != FortKochi && d != Mattancherry
  {
    match d
    case FortKochi => Architect.Colonial
    case MarineDrive => Architect.Modern
    case WillingdonIsland => Architect.Modern
    case Mattancherry => Architect.Slum
    case Edappally => Architect.Modern
    case Generic => Architect.Modern
  }

  /** The range building heights are drawn from in each district. */
  function HeightRange(d: District): (r: (real, real))
    ensures 0.0 < r.0 < r.1
  {
    match d
    case MarineDrive => (20.0, 60.0)
    case Edappally => (15.0, 40.0)
    case FortKochi => (6.0, 12.0)
    case Mattancherry => (5.0, 10.0)
    case WillingdonIsland => (8.0, 20.0)
    case Generic => (10.0, 25.0)
  }

  /**
   `GetBuildingHeightForDistrict(district)`, with the unseeded draw `u`: a height
   within the district's range, the bottom of the range for `u = 0` and the top
   for `u = 1`.
   */
  function GetBuildingHeightForDistrict(d: District, u: Fraction): (h: real)
    ensures HeightRange(d).0 <= h <= HeightRange(d).1
    ensures u == 0.0 ==> h == HeightRange(d).0
    ensures u == 1.0 ==> h == HeightRange(d).1
  {
    RealIn(u, HeightRange(d).0, HeightRange(d).1)
  }
}

=== FILE: end_game.dfy ===
/**
 The win condition (`EndGameManager`): once the truth clue is held, an attempt
 to end the game starts the ending, which stops the loop's automatic resets;
 the ending starts at most once.
 */
module EndGame {
  import opened Common
  import TimeLoop
  import Clues

  /** The clue id that breaks the loop unless the scene overrides it. */
  const DefaultTruthClueId: string := "Clue_TheTruth"

  /**
   The manager: the truth clue id, whether the game has ended, and how many
   times the ending sequence has started.
   */
  datatype EndGame = EndGame(truthClueId: string, gameEnded: bool, endingsStarted: nat)

  /** The ending has started exactly once if the game has ended, and never otherwise. */
  predicate Valid(eg: EndGame) {
    eg.endingsStarted == (if eg.gameEnded then 1 else 0)
  }

  /** The serialized initial state. */
  function Create(): (eg: EndGame)
    ensures Valid(eg) && !eg.gameEnded
    ensures eg.truthClueId == DefaultTruthClueId
  {
    EndGame(DefaultTruthClueId, false, 0)
  }

  /** The ending may start: the clue system exists and holds the truth clue. */
  predicate TruthKnown(eg: EndGame, store: Option<Clues.ClueSystem>) {
    store.Some? && Clues.HasClue(store.value, eg.truthClueId)
  }

  /**
   `TryTriggerEnding()` with the clue system and loop manager the scene holds.
   An ended game ignores the call; without the truth clue nothing changes;
   otherwise the game ends and the loop manager, if any, is stopped.
   */
  function TryTriggerEnding(eg: EndGame, store: Option<Clues.ClueSystem>, loop: Option<TimeLoop.Manager>): (r: (EndGame, Option<TimeLoop.Manager>))
    requires Valid(eg)
    requires loop.Some? ==> TimeLoop.Valid(loop.value)
    ensures Valid(r.0) && r.0.truthClueId == eg.truthClueId
    ensures r.1.Some? <==> loop.Some?
    ensures r.1.Some? ==> TimeLoop.Valid(r.1.value)
    ensures eg.gameEnded || !TruthKnown(eg, store) ==> r == (eg, loop)
    ensures !eg.gameEnded && TruthKnown(eg, store) ==>
      && r.0.gameEnded
      && (loop.Some? ==> r.1 == Some(TimeLoop.StopLoop(loop.value)) && !r.1.value.autoReset)
  {
    if eg.gameEnded then (eg, loop)
    else if TruthKnown(eg, store) then StartEndingSequence(eg, loop)
    else (eg, loop)
  }

  /** `StartEndingSequence()`, its gating part: the game ends and the loop is stopped. */
  function StartEndingSequence(eg: EndGame, loop: Option<TimeLoop.Manager>): (r: (EndGame, Option<TimeLoop.Manager>))
    requires loop.Some? ==> TimeLoop.Valid(loop.value)
    ensures r.0.gameEnded && r.0.endingsStarted == eg.endingsStarted + 1
    ensures r.1.Some? <==> loop.Some?
    ensures r.1.Some? ==> TimeLoop.Valid(r.1.value) && r.1.value == loop.value.(autoReset := false)
  {
    var loop' := if loop.Some? then Some(TimeLoop.StopLoop(loop.value)) else None;
    (eg.(gameEnded := true, endingsStarted := eg.endingsStarted + 1), loop')
  }

  /** A run of attempts, each with the clue system as it is at that moment. */
  function TryAll(eg: EndGame, stores: seq<Option<Clues.ClueSystem>>, loop: Option<TimeLoop.Manager>): (r: (EndGame, Option<TimeLoop.Manager>))
    requires Valid(eg)
    requires loop.Some? ==> TimeLoop.Valid(loop.value)
    ensures Valid(r.0)
    ensures r.1.Some? ==> TimeLoop.Valid(r.1.value)
    decreases |stores|
  {
    if |stores| == 0 then (eg, loop)
    else
      var (eg', loop') := TryTriggerEnding(eg, stores[0], loop);
      TryAll(eg', stores[1..], loop')
  }

  /**
   However many attempts are made, the ending starts at most once, and it
   starts exactly when some attempt finds the truth clue.
   */
  lemma {:induction false} EndingAtMostOnce(eg: EndGame, stores: seq<Option<Clues.ClueSystem>>, loop: Option<TimeLoop.Manager>)
    requires Valid(eg) && !eg.gameEnded
    requires loop.Some? ==> TimeLoop.Valid(loop.value)
    ensures TryAll(eg, stores, loop).0.endingsStarted <= 1
    ensures TryAll(eg, stores, loop).0.gameEnded <==> exists k :: 0 <= k < |stores| && TruthKnown(eg, stores[k])
    decreases |stores|
  {
    if |stores| > 0 {
      var (eg', loop') := TryTriggerEnding(eg, stores[0], loop);
      if TruthKnown(eg, stores[0]) {
        EndedStaysEnded(eg', stores[1..], loop');
      } else {
        EndingAtMostOnce(eg', stores[1..], loop');
        assert forall k :: 0 < k < |stores| ==> stores[k] == stores[1..][k - 1];
        if exists k :: 0 < k < |stores| && TruthKnown(eg, stores[k]) {
          var k :| 0 < k < |stores| && TruthKnown(eg, stores[k]);
          assert TruthKnown(eg', stores[1..][k - 1]);
        }
      }
    }
  }

  /** Once the game has ended, further attempts change nothing. */
  lemma {:induction false} EndedStaysEnded(eg: EndGame, stores: seq<Option<Clues.ClueSystem>>, loop: Option<TimeLoop.Manager>)
    requires Valid(eg) && eg.gameEnded
    requires loop.Some? ==> TimeLoop.Valid(loop.value)
    ensures TryAll(eg, stores, loop) == (eg, loop)
    decreases |stores|
  {
    if |stores| > 0 {
      EndedStaysEnded(eg, stores[1..], loop);
    }
  }

  /**
   After the ending the loop no longer resets by itself: every later frame only
   advances the clock.
   */
  lemma EndingStopsAutoReset(eg: EndGame, store: Option<Clues.ClueSystem>, m: TimeLoop.Manager, dt: real)
    requires Valid(eg) && !eg.gameEnded && TruthKnown(eg, store)
    requires TimeLoop.Valid(m) && !m.resetting
    ensures var m' := TryTriggerEnding(eg, store, Some(m)).1.value;
      TimeLoop.Update(m', dt).count == m.count
  {
  }
}

=== FILE: events.dfy ===
/**
 The per-loop random events (`RandomEventSpawner`): on every loop reset and
 loop start the previous events are destroyed and, seeded with the loop seed
 plus 1000, up to `maxEventsPerLoop` attempts each spawn an event of a random
 kind at a random spawn point with probability `eventChance`.
 */
module Events {
  import opened Common
  import opened Random
  import TimeLoop

  /** `EventType`, in declaration order. */
  datatype EventType = Fire | Accident | Robbery | Blackout | Parade

  /** `Enum.GetValues(typeof(EventType)).Length`. */
  const EventTypeCount: int := 5

  /** The value of each kind: its position in the declaration. */
  function Ordinal(t: EventType): (r: int)
    ensures 0 <= r < EventTypeCount
  {
    match t
    case Fire => 0
    case Accident => 1
    case Robbery => 2
    case Blackout => 3
    case Parade => 4
  }

  /** The cast `(EventType)i` for an index of a declared member. */
  function FromOrdinal(i: int): (t: EventType)
    requires 0 <= i < EventTypeCount
    ensures Ordinal(t) == i
    ensures i == 0 <==> t == Fire
    ensures i == 4 <==> t == Parade
  {
    if i == 0 then Fire else if i == 1 then Accident else if i == 2 then Robbery
    else if i == 3 then Blackout else Parade
  }

  /** Casting a kind's value back gives the same kind. */
  lemma OrdinalRoundTrip(t: EventType)
    ensures FromOrdinal(Ordinal(t)) == t
  {
  }

  /** `EventSpawnPoint`. */
  datatype SpawnPoint = SpawnPoint(position: Vec3, locationName: string)

  /** An instantiated event object: its kind and where it stands. */
  datatype ActiveEvent = ActiveEvent(kind: EventType, position: Vec3)

  /**
   The spawner: its spawn points, settings, the kinds that have a prefab, the
   live event objects (`None` for one destroyed elsewhere) and the objects it
   destroyed so far.
   */
  datatype Spawner = Spawner(
    points: seq<SpawnPoint>,
    maxEventsPerLoop: Int32,
    eventChance: real,
    prefabs: set<EventType>,
    active: seq<Option<ActiveEvent>>,
    destroyed: seq<ActiveEvent>)

  /** The serialized defaults: at most 3 events, each with chance 0.7. */
  function Create(points: seq<SpawnPoint>, prefabs: set<EventType>): (sp: Spawner)
    ensures sp.maxEventsPerLoop == 3 && sp.eventChance == 0.7
    ensures sp.active == [] && sp.destroyed == []
  {
    Spawner(points, 3, 0.7, prefabs, [], [])
  }

  /** The live (non-null) objects of a list, in order. */
  function Live(objs: seq<Option<ActiveEvent>>): (r: seq<ActiveEvent>)
    ensures |r| <= |objs|
    ensures forall e :: e in r <==> Some(e) in objs
    decreases |objs|
  {
    if |objs| == 0 then []
    else
      assert forall o :: o in objs <==> o == objs[0] || o in objs[1..];
      (if objs[0].Some? then [objs[0].value] else []) + Live(objs[1..])
  }

  /** `ClearEvents()`: every live object is destroyed and the list emptied. */
  function ClearEvents(sp: Spawner): (r: Spawner)
    ensures r.active == []
    ensures r.destroyed == sp.destroyed + Live(sp.active)
    ensures r == sp.(active := [], destroyed := r.destroyed)
  {
    sp.(active := [], destroyed := sp.destroyed + Live(sp.active))
  }

  /** `GetEventPrefab(type)`: whether the kind has a prefab. */
  predicate HasPrefab(sp: Spawner, t: EventType) {
    t in sp.prefabs
  }

  /** `SpawnEvent(type, point)`: a kind without a prefab spawns nothing. */
  function SpawnEvent(sp: Spawner, t: EventType, p: SpawnPoint): (r: Spawner)
    ensures !HasPrefab(sp, t) ==> r == sp
    ensures HasPrefab(sp, t) ==> r == sp.(active := sp.active + [Some(ActiveEvent(t, p.position))])
  {
    if HasPrefab(sp, t) then sp.(active := sp.active + [Some(ActiveEvent(t, p.position))]) else sp
  }

  /** Every live object stands at one of the spawn points and has a prefab. */
  predicate WellPlaced(sp: Spawner) {
    forall k :: 0 <= k < |sp.active| && sp.active[k].Some? ==>
      sp.active[k].value.kind in sp.prefabs &&
      exists j :: 0 <= j < |sp.points| && sp.points[j].position == sp.active[k].value.position
  }

  /**
   The attempt loop from attempt `i` of `count`, drawing from `s`: a draw above
   the chance skips the attempt, otherwise a spawn point and a kind are drawn
   and the event spawned. Each attempt adds at most one object.
   */
  function Attempts(sp: Spawner, g: Generator, s: Stream, i: int, count: int): (r: (Spawner, Stream))
    requires |sp.points| > 0
    requires WellPlaced(sp)
    ensures WellPlaced(r.0)
    ensures r.0 == sp.(active := r.0.active)
    ensures |sp.active| <= |r.0.active| <= |sp.active| + MaxInt(count - i, 0)
    ensures r.0.active[..|sp.active|] == sp.active
    ensures r.1.seed == s.seed
    decreases count - i
  {
    if i >= count then (sp, s)
    else
      var (u, s1) := Next(g, s);
      if u > sp.eventChance then Attempts(sp, g, s1, i + 1, count)
      else
        var (j, s2) := NextInt(g, s1, 0, |sp.points|);
        var (t, s3) := NextInt(g, s2, 0, EventTypeCount);
        var sp' := SpawnEvent(sp, FromOrdinal(t), sp.points[j]);
        assert WellPlaced(sp') by {
          forall k | 0 <= k < |sp'.active| && sp'.active[k].Some?
            ensures sp'.active[k].value.kind in sp'.prefabs &&
              exists j' :: 0 <= j' < |sp'.points| && sp'.points[j'].position == sp'.active[k].value.position
          {
            if k < |sp.active| {
              assert sp'.active[k] == sp.active[k];
            } else {
              assert sp'.points[j].position == sp'.active[k].value.position;
            }
          }
        }
        var r := Attempts(sp', g, s3, i + 1, count);
        assert r.0.active[..|sp.active|] == r.0.active[..|sp'.active|][..|sp.active|];
        r
  }

  /** The seed of a pass: the loop seed, or 0 without a manager, plus 1000 with 32-bit wrap-around. */
  function EventSeed(loop: Option<TimeLoop.Manager>): (r: int)
    ensures loop.None? ==> r == 1000
    ensures loop.Some? && loop.value.count <= MaxInt32 - 1000 ==> r == loop.value.count + 1000
  {
    CombineSeed(if loop.Some? then TimeLoop.GetLoopSeed(loop.value) else 0, 1000)
  }

  /**
   The number of attempts, `Random.Range(1, maxEventsPerLoop + 1)`, drawn
   first. The `+ 1` is C# `int` arithmetic: at `int.MaxValue` it wraps to
   `int.MinValue`, the range is reversed and at most one attempt is made.
   */
  function AttemptCount(sp: Spawner, g: Generator, seed: int): (r: int)
    ensures 1 <= sp.maxEventsPerLoop < MaxInt32 ==> 1 <= r <= sp.maxEventsPerLoop
    ensures sp.maxEventsPerLoop == MaxInt32 ==> MinInt32 < r <= 1
    ensures sp.maxEventsPerLoop <= 0 ==> r <= 1
  {
    IntIn(g(seed, 0), 1, WrapInt32(sp.maxEventsPerLoop + 1))
  }

  /**
   `SpawnRandomEvents()`: the previous objects are destroyed first; with no
   spawn points nothing is spawned; otherwise the attempt loop runs, spawning
   at most `maxEventsPerLoop` objects (at most one when that is below 1, or at
   `int.MaxValue`, where the attempt bound wraps), each
   at a spawn point and of a kind with a prefab.
   */
  function SpawnRandomEvents(sp: Spawner, loop: Option<TimeLoop.Manager>, g: Generator): (r: Spawner)
    ensures r.destroyed == sp.destroyed + Live(sp.active)
    ensures |sp.points| == 0 ==> r.active == []
    ensures sp.maxEventsPerLoop >= 1 ==> |r.active| <= sp.maxEventsPerLoop
    ensures |r.active| <= MaxInt(sp.maxEventsPerLoop, 1)
    ensures sp.maxEventsPerLoop == MaxInt32 ==> |r.active| <= 1
    ensures forall k :: 0 <= k < |r.active| ==> r.active[k].Some?
    ensures WellPlaced(r)
    ensures r.points == sp.points && r.prefabs == sp.prefabs
  {
    var cleared := ClearEvents(sp);
    if |sp.points| == 0 then cleared
    else
      var seed := EventSeed(loop);
      var count := AttemptCount(sp, g, seed);
      var r := Attempts(cleared, g, Stream(seed, 1), 0, count).0;
      AttemptsLive(cleared, g, Stream(seed, 1), 0, count);
      r
  }

  /** The attempt loop only ever appends live objects. */
  lemma {:induction false} AttemptsLive(sp: Spawner, g: Generator, s: Stream, i: int, count: int)
    requires |sp.points| > 0 && WellPlaced(sp)
    requires forall k :: 0 <= k < |sp.active| ==> sp.active[k].Some?
    ensures forall k :: 0 <= k < |Attempts(sp, g, s, i, count).0.active| ==> Attempts(sp, g, s, i, count).0.active[k].Some?
    decreases count - i
  {
    if i < count {
      var (u, s1) := Next(g, s);
      if u > sp.eventChance {
        AttemptsLive(sp, g, s1, i + 1, count);
      } else {
        var (j, s2) := NextInt(g, s1, 0, |sp.points|);
        var (t, s3) := NextInt(g, s2, 0, EventTypeCount);
        var sp' := SpawnEvent(sp, FromOrdinal(t), sp.points[j]);
        AttemptsLive(sp', g, s3, i + 1, count);
      }
    }
  }

  /** Events are determined by the loop count: two managers on the same loop spawn the same events. */
  lemma SameLoopSameEvents(sp: Spawner, m1: TimeLoop.Manager, m2: TimeLoop.Manager, g: Generator)
    requires m1.count == m2.count
    ensures SpawnRandomEvents(sp, Some(m1), g) == SpawnRandomEvents(sp, Some(m2), g)
  {
  }

  /**
   The spawner listens to both reset and start, so one loop spawns twice with
   the same seed: the second pass destroys the first pass's objects and spawns
   the same events again.
   */
  lemma RespawnSameLoop(sp: Spawner, m: TimeLoop.Manager, g: Generator)
    ensures var once := SpawnRandomEvents(sp, Some(m), g);
      var twice := SpawnRandomEvents(once, Some(m), g);
      && twice.active == once.active
      && twice.destroyed == once.destroyed + Live(once.active)
  {
    var once := SpawnRandomEvents(sp, Some(m), g);
    assert once.(active := sp.active, destroyed := sp.destroyed) == sp;
    SpawnIgnoresHistory(sp, once, Some(m), g);
  }

  /** What a pass spawns does not depend on the objects already there. */
  lemma SpawnIgnoresHistory(a: Spawner, b: Spawner, loop: Option<TimeLoop.Manager>, g: Generator)
    requires a.(active := [], destroyed := []) == b.(active := [], destroyed := [])
    ensures SpawnRandomEvents(a, loop, g).active == SpawnRandomEvents(b, loop, g).active
  {
    var ca := ClearEvents(a);
    var cb := ClearEvents(b);
    if |a.points| > 0 {
      var seed := EventSeed(loop);
      AttemptsIgnoreHistory(ca, cb, g, Stream(seed, 1), 0, AttemptCount(a, g, seed));
    }
  }

  lemma {:induction false} AttemptsIgnoreHistory(a: Spawner, b: Spawner, g: Generator, s: Stream, i: int, count: int)
    requires |a.points| > 0 && WellPlaced(a) && WellPlaced(b)
    requires a.(destroyed := b.destroyed) == b
    ensures Attempts(a, g, s, i, count).0.active == Attempts(b, g, s, i, count).0.active
    decreases count - i
  {
    if i < count {
      var (u, s1) := Next(g, s);
      if u > a.eventChance {
        AttemptsIgnoreHistory(a, b, g, s1, i + 1, count);
      } else {
        var (j, s2) := NextInt(g, s1, 0, |a.points|);
        var (t, s3) := NextInt(g, s2, 0, EventTypeCount);
        AttemptsIgnoreHistory(SpawnEvent(a, FromOrdinal(t), a.points[j]), SpawnEvent(b, FromOrdinal(t), b.points[j]), g, s3, i + 1, count);
      }
    }
  }

  /** An attempt loop spawns nothing when no draw can pass the chance or no kind has a prefab. */
  lemma {:induction false} AttemptsNothing(sp: Spawner, g: Generator, s: Stream, i: int, count: int)
    requires |sp.points| > 0 && WellPlaced(sp)
    requires sp.eventChance < 0.0 || sp.prefabs == {}
    ensures Attempts(sp, g, s, i, count).0 == sp
    decreases count - i
  {
    if i < count {
      var (u, s1) := Next(g, s);
      if u > sp.eventChance {
        AttemptsNothing(sp, g, s1, i + 1, count);
      } else {
        var (j, s2) := NextInt(g, s1, 0, |sp.points|);
        var (t, s3) := NextInt(g, s2, 0, EventTypeCount);
        assert SpawnEvent(sp, FromOrdinal(t), sp.points[j]) == sp;
        AttemptsNothing(sp, g, s3, i + 1, count);
      }
    }
  }

  /** A negative chance or a spawner without prefabs leaves no events after a pass. */
  lemma NoChanceNoEvents(sp: Spawner, loop: Option<TimeLoop.Manager>, g: Generator)
    requires sp.eventChance < 0.0 || sp.prefabs == {}
    ensures SpawnRandomEvents(sp, loop, g).active == []
  {
    if |sp.points| > 0 {
      var seed := EventSeed(loop);
      AttemptsNothing(ClearEvents(sp), g, Stream(seed, 1), 0, AttemptCount(sp, g, seed));
    }
  }
}

=== FILE: interactable.dfy ===
/**
 An object the player can use (`InteractableObject` under `Scripts/Player`):
 interaction is gated by a flag, and a clue object hands its clue to the clue
 system and reports a find-clue objective.
 */
module Interactable {
  import opened Common
  import MissionData
  import Clues

  /** The object's serialized settings. */
  datatype Interactable = Interactable(canInteract: bool, isClue: bool, clueId: string)

  /** An objective event sent to the mission manager: the target id and its kind. */
  datatype Report = Report(targetId: string, kind: MissionData.ObjectiveType)

  /** The object carries a clue to pick up. */
  predicate GivesClue(obj: Interactable) {
    obj.isClue && !IsNullOrEmpty(obj.clueId)
  }

  /**
   `Interact(player)`, its gate and clue-pickup path, with the clue singletons
   and whether a mission manager exists; the reports it makes are appended to
   `reports`. A disabled object does nothing. A clue object discovers its clue
   and, when a mission manager exists, reports a `FindClue` objective for it.
   */
  function Interact(obj: Interactable, mem: Clues.Memory, missionsPresent: bool, reports: seq<Report>): (r: (Clues.Memory, seq<Report>))
    requires Clues.Valid(mem)
    ensures Clues.Valid(r.0)
    ensures !obj.canInteract || !GivesClue(obj) ==> r == (mem, reports)
    ensures obj.canInteract && GivesClue(obj) ==>
      && r.0 == Clues.Discover(mem, obj.clueId)
      && r.1 == reports + (if missionsPresent then [Report(obj.clueId, MissionData.FindClue)] else [])
    ensures obj.canInteract && GivesClue(obj) && mem.store.Some? ==> Clues.HasClue(r.0.store.value, obj.clueId)
  {
    if !obj.canInteract then (mem, reports)
    else if GivesClue(obj) then
      var rep := if missionsPresent then [Report(obj.clueId, MissionData.FindClue)] else [];
      (Clues.Discover(mem, obj.clueId), reports + rep)
    else (mem, reports)
  }

  /** `SetInteractable(b)`: the gate becomes exactly `b`. */
  function SetInteractable(obj: Interactable, b: bool): (r: Interactable)
    ensures r.canInteract == b && r.isClue == obj.isClue && r.clueId == obj.clueId
  {
    obj.(canInteract := b)
  }

  /** Only a clue object ever changes the clue system, and never a disabled one. */
  lemma OnlyClueObjectsDiscover(obj: Interactable, mem: Clues.Memory, missionsPresent: bool, reports: seq<Report>)
    requires Clues.Valid(mem)
    ensures Interact(obj, mem, missionsPresent, reports).0 != mem ==> obj.canInteract && GivesClue(obj)
  {
  }

  /** Picking the same clue up twice leaves the clue system as picking it up once. */
  lemma PickupIdempotent(obj: Interactable, mem: Clues.Memory, missionsPresent: bool, reports: seq<Report>)
    requires Clues.Valid(mem)
    ensures var (mem1, reps1) := Interact(obj, mem, missionsPresent, reports);
      Interact(obj, mem1, missionsPresent, reps1).0 == mem1
  {
    if obj.canInteract && GivesClue(obj) {
      Clues.DiscoverIdempotent(mem, obj.clueId);
    }
  }

  /** A disabled object is inert until it is enabled again. */
  lemma DisabledIsInert(obj: Interactable, mem: Clues.Memory, missionsPresent: bool, reports: seq<Report>)
    requires Clues.Valid(mem)
    ensures Interact(SetInteractable(obj, false), mem, missionsPresent, reports) == (mem, reports)
  {
  }
}

=== FILE: mesh.dfy ===
/**
 The vertex, uv and triangle-index lists the procedural mesh builders append
 to. The builders differ in what a vertex is, so the buffer is generic in the
 vertex and uv types; only the index list is interpreted.
 */
module Mesh {
  import opened Common

  /** A texture coordinate. */
  datatype Uv = Uv(u: real, v: real)

  /** The three lists a builder fills. */
  datatype MeshBuf<V, U> = MeshBuf(vertices: seq<V>, uvs: seq<U>, triangles: seq<int>)

  /** The empty buffers a builder starts from. */
  function Empty<V, U>(): (m: MeshBuf<V, U>)
    ensures m.vertices == [] && m.uvs == [] && m.triangles == []
  {
    MeshBuf([], [], [])
  }

  /** One uv per vertex, whole triangles, and every index names a vertex. */
  predicate WellFormed<V, U>(m: MeshBuf<V, U>) {
    && |m.uvs| == |m.vertices|
    && |m.triangles| % 3 == 0
    && IndicesBelow(m.triangles, |m.vertices|)
  }

  /** Every index lies in `[0, n)`. */
  predicate IndicesBelow(t: seq<int>, n: int) {
    forall j :: 0 <= j < |t| ==> 0 <= t[j] < n
  }

  /** The six indices of the quad whose first vertex is `i`: triangles (i, i+1, i+2) and (i, i+2, i+3). */
  function QuadIndices(i: int): (t: seq<int>)
    ensures |t| == 6 && forall c :: 0 <= c < 6 ==> i <= t[c] < i + 4
  {
    [i, i + 1, i + 2, i, i + 2, i + 3]
  }

  /** The six indices of the `k`-th quad of an index list. */
  function QuadTriangles(t: seq<int>, k: nat): seq<int>
    requires 6 * k + 6 <= |t|
  {
    t[6 * k..6 * k + 6]
  }

  /**
   The buffers hold exactly `q` quads, each four vertices with their four uvs
   and the six indices of its two triangles, in the order they were added.
   */
  predicate QuadLayout<V, U>(m: MeshBuf<V, U>, q: nat) {
    && |m.vertices| == 4 * q && |m.uvs| == 4 * q && |m.triangles| == 6 * q
    && forall k: nat :: k < q ==> QuadTriangles(m.triangles, k) == QuadIndices(4 * k)
  }

  /** The uvs `AddQuad` gives the corners bottom-left, top-left, top-right, bottom-right. */
  const QuadUvs: seq<Uv> := [Uv(0.0, 0.0), Uv(0.0, 1.0), Uv(1.0, 1.0), Uv(1.0, 0.0)]

  /**
   `AddQuad(vertices, triangles, uvs, bl, tl, tr, br)`: the four corners and
   their uvs are appended, and two triangles over the new vertices, (bl, tl, tr)
   and (bl, tr, br). What was there before is untouched.
   */
  function AddQuad<V>(m: MeshBuf<V, Uv>, bl: V, tl: V, tr: V, br: V): (r: MeshBuf<V, Uv>)
    ensures r.vertices == m.vertices + [bl, tl, tr, br]
    ensures r.uvs == m.uvs + QuadUvs
    ensures |r.triangles| == |m.triangles| + 6 && r.triangles[..|m.triangles|] == m.triangles
    ensures forall j :: |m.triangles| <= j < |r.triangles| ==> |m.vertices| <= r.triangles[j] < |r.vertices|
    ensures WellFormed(m) ==> WellFormed(r)
  {
    var i := |m.vertices|;
    MeshBuf(m.vertices + [bl, tl, tr, br], m.uvs + QuadUvs, m.triangles + [i, i + 1, i + 2, i, i + 2, i + 3])
  }

  /** Adding a quad to a buffer of `q` quads gives a buffer of `q + 1` quads. */
  lemma AddQuadLayout<V>(m: MeshBuf<V, Uv>, q: nat, bl: V, tl: V, tr: V, br: V)
    requires QuadLayout(m, q)
    ensures QuadLayout(AddQuad(m, bl, tl, tr, br), q + 1)
  {
    var r := AddQuad(m, bl, tl, tr, br);
    forall k: nat | k < q + 1
      ensures QuadTriangles(r.triangles, k) == QuadIndices(4 * k)
    {
      if k < q {
        assert QuadTriangles(r.triangles, k) == QuadTriangles(m.triangles, k);
      } else {
        assert QuadTriangles(r.triangles, k) == r.triangles[6 * q..];
      }
    }
  }

  /**
   A run of `AddQuad` calls, one per four consecutive corners of `vs`, in
   order.
   */
  function AddQuads<V>(m: MeshBuf<V, Uv>, vs: seq<V>): (r: MeshBuf<V, Uv>)
    requires |vs| % 4 == 0
    ensures r.vertices == m.vertices + vs
    decreases |vs|
  {
    if |vs| == 0 then m
    else
      var r := AddQuads(AddQuad(m, vs[0], vs[1], vs[2], vs[3]), vs[4..]);
      assert m.vertices + [vs[0], vs[1], vs[2], vs[3]] + vs[4..] == m.vertices + vs;
      r
  }

  /** `4 * n` corners make `n` whole quads. */
  lemma CornersOfQuads(n: nat)
    ensures (4 * n) % 4 == 0 && (4 * n) / 4 == n
  {
  }

  /** Adding the quads of `vs` to a buffer of `q` quads gives one of `q + |vs| / 4` quads. */
  lemma {:induction false} AddQuadsLayout<V>(m: MeshBuf<V, Uv>, q: nat, vs: seq<V>)
    requires QuadLayout(m, q) && |vs| % 4 == 0
    ensures QuadLayout(AddQuads(m, vs), q + |vs| / 4)
    decreases |vs|
  {
    if |vs| > 0 {
      AddQuadLayout(m, q, vs[0], vs[1], vs[2], vs[3]);
      AddQuadsLayout(AddQuad(m, vs[0], vs[1], vs[2], vs[3]), q + 1, vs[4..]);
    }
  }

  /** A buffer of whole quads is well formed: every index names one of its vertices. */
  lemma QuadLayoutWellFormed<V, U>(m: MeshBuf<V, U>, q: nat)
    requires QuadLayout(m, q)
    ensures WellFormed(m)
  {
    forall j | 0 <= j < |m.triangles|
      ensures 0 <= m.triangles[j] < |m.vertices|
    {
      var k, c := j / 6, j % 6;
      assert j == 6 * k + c && 0 <= c < 6;
      assert k < q;
      assert QuadTriangles(m.triangles, k) == QuadIndices(4 * k);
      assert QuadTriangles(m.triangles, k)[c] == m.triangles[j];
      assert 4 * k <= QuadIndices(4 * k)[c] < 4 * k + 4;
      assert 4 * k + 4 <= 4 * q;
    }
  }

  /** The `k`-th quad's vertices of a buffer of whole quads. */
  function QuadVertices<V, U>(m: MeshBuf<V, U>, q: nat, k: nat): (c: seq<V>)
    requires QuadLayout(m, q) && k < q
    ensures |c| == 4
  {
    m.vertices[4 * k..4 * k + 4]
  }
}

=== FILE: mission_data.dfy ===
/**
 The authored data of missions (`MissionData`, `MissionObjective`) and the
 objective kinds, shared by both mission registries.
 */
module MissionData {

  /** `MissionObjectiveType`. */
  datatype ObjectiveType = FindClue | TalkToNPC | VisitLocation

  /** `MissionObjective`. */
  datatype Objective = Objective(description: string, kind: ObjectiveType, targetId: string, countRequired: int)

  /** `MissionData`: identity, requirements and rewards of one mission. */
  datatype Mission = Mission(
    missionId: string,
    missionName: string,
    description: string,
    requiredLoopCount: int,
    requiredClueIds: seq<string>,
    rewardClueIds: seq<string>,
    objectives: seq<Objective>)

  /** A notification raised through `NotificationUI`. */
  datatype Notice = NewMission(name: string) | MissionComplete(name: string)

  /** The notifications announcing each of `ms` as a new mission, in order. */
  function Announced(ms: seq<Mission>): seq<Notice> {
    seq(|ms|, k requires 0 <= k < |ms| => NewMission(ms[k].missionName))
  }

  /** Announcing two lists one after the other announces their concatenation. */
  lemma AnnouncedAppend(a: seq<Mission>, b: seq<Mission>)
    ensures Announced(a + b) == Announced(a) + Announced(b)
  {
    assert forall k :: 0 <= k < |a + b| ==> Announced(a + b)[k] == (Announced(a) + Announced(b))[k];
  }

  /**
   Announcements compose: if `n1` announces what `a1` appends to `a0`, and `n2`
   what `a2` appends to `a1`, then `n2` announces everything `a2` appends to `a0`.
   */
  lemma AnnouncedStep(a0: seq<Mission>, a1: seq<Mission>, a2: seq<Mission>,
                      n0: seq<Notice>, n1: seq<Notice>, n2: seq<Notice>)
    requires |a0| <= |a1| <= |a2| && a2[..|a1|] == a1
    requires n1 == n0 + Announced(a1[|a0|..])
    requires n2 == n1 + Announced(a2[|a1|..])
    ensures n2 == n0 + Announced(a2[|a0|..])
  {
    assert a2[|a0|..] == a1[|a0|..] + a2[|a1|..] by {
      assert a2 == a1 + a2[|a1|..];
    }
    AnnouncedAppend(a1[|a0|..], a2[|a1|..]);
  }

  /** The reward ids a pass over the list discovers when empty ids are skipped. */
  function NonEmptyIds(ids: seq<string>): (r: set<string>)
    ensures forall id :: id in r <==> id in ids && |id| > 0
  {
    set id | id in ids && |id| > 0
  }
}

=== FILE: missions.dfy ===
/**
 The mission registry of the game (`MissionManager` under
 `Assets/TimeLoopCity`): missions move from the authored list into the active
 list when their loop and clue gates pass, and from the active list into the
 completed list, granting their reward clues.
 */
module Missions {
  import opened Common
  import opened MissionData
  import TimeLoop
  import Clues

  /**
   The registry: the authored list (entries may be null), the active and
   completed lists, and the notifications shown so far.
   */
  datatype Registry = Registry(
    all: seq<Option<Mission>>,
    active: seq<Mission>,
    completed: seq<Mission>,
    notices: seq<Notice>)

  /** Neither list holds a mission twice. */
  predicate Valid(reg: Registry) {
    NoDuplicates(reg.active) && NoDuplicates(reg.completed)
  }

  /** The loop gate: no manager, or the current loop is at least the required one. */
  predicate LoopGate(mem: Clues.Memory, m: Mission) {
    mem.loop.None? || mem.loop.value.count >= m.requiredLoopCount
  }

  /** The clue gate: no clue system, or every required clue is held. */
  predicate ClueGate(mem: Clues.Memory, m: Mission) {
    mem.store.None? || forall id :: id in m.requiredClueIds ==> Clues.HasClue(mem.store.value, id)
  }

  /** Every id of `ids` is held by `cs`, checked front to back as the `foreach` does. */
  function AllHeld(cs: Clues.ClueSystem, ids: seq<string>): (r: bool)
    ensures r <==> forall id :: id in ids ==> Clues.HasClue(cs, id)
    decreases |ids|
  {
    if |ids| == 0 then true
    else if !Clues.HasClue(cs, ids[0]) then false
    else
      assert forall id :: id in ids ==> id == ids[0] || id in ids[1..];
      AllHeld(cs, ids[1..])
  }

  /** `CanStartMission(mission)`: both gates, each applied only when its collaborator exists. */
  function CanStartMission(mem: Clues.Memory, m: Mission): (r: bool)
    ensures r <==> LoopGate(mem, m) && ClueGate(mem, m)
  {
    if mem.loop.Some? && mem.loop.value.count < m.requiredLoopCount then false
    else if mem.store.Some? then AllHeld(mem.store.value, m.requiredClueIds)
    else true
  }

  /**
   `StartMission(mission)`: null and already-active missions are ignored; any
   other mission, even a completed one, is appended and announced.
   */
  function StartMission(reg: Registry, m: Option<Mission>): (r: Registry)
    ensures m.None? ==> r == reg
    ensures m.Some? ==> m.value in r.active
    ensures m.Some? && m.value in reg.active ==> r == reg
    ensures m.Some? && m.value !in reg.active ==>
      r == reg.(active := reg.active + [m.value], notices := reg.notices + [NewMission(m.value.missionName)])
    ensures NoDuplicates(reg.active) ==> NoDuplicates(r.active)
  {
    if m.None? || m.value in reg.active then reg
    else reg.(active := reg.active + [m.value], notices := reg.notices + [NewMission(m.value.missionName)])
  }

  /**
   One pass of the `foreach` of `CheckMissionPrerequisites`: null, active and
   completed entries are skipped, the rest start when they may.
   */
  function CheckOne(reg: Registry, mem: Clues.Memory, entry: Option<Mission>): (r: Registry)
    ensures r.all == reg.all && r.completed == reg.completed
    ensures Starts(reg, mem, entry) ==>
      r == reg.(active := reg.active + [entry.value], notices := reg.notices + [NewMission(entry.value.missionName)])
    ensures !Starts(reg, mem, entry) ==> r == reg
  {
    if entry.None? then reg
    else if entry.value in reg.active || entry.value in reg.completed then reg
    else if CanStartMission(mem, entry.value) then StartMission(reg, entry)
    else reg
  }

  /** Entry `entry` is started by the check: it is a startable mission neither active nor completed. */
  predicate Starts(reg: Registry, mem: Clues.Memory, entry: Option<Mission>) {
    entry.Some? && entry.value !in reg.active && entry.value !in reg.completed && CanStartMission(mem, entry.value)
  }

  /** The `foreach` of `CheckMissionPrerequisites` over the entries still to visit. */
  function CheckFrom(reg: Registry, mem: Clues.Memory, pending: seq<Option<Mission>>): Registry
    decreases |pending|
  {
    if |pending| == 0 then reg
    else CheckFrom(CheckOne(reg, mem, pending[0]), mem, pending[1..])
  }

  /**
   The pass only touches the active list, which only grows at its end, and
   without duplicates before there are none after.
   */
  lemma {:induction false} CheckFromFrame(reg: Registry, mem: Clues.Memory, pending: seq<Option<Mission>>)
    ensures var r := CheckFrom(reg, mem, pending);
      && r.all == reg.all && r.completed == reg.completed
      && |reg.active| <= |r.active| && r.active[..|reg.active|] == reg.active
      && (NoDuplicates(reg.active) ==> NoDuplicates(r.active))
    decreases |pending|
  {
    if |pending| > 0 {
      var next := CheckOne(reg, mem, pending[0]);
      CheckFromFrame(next, mem, pending[1..]);
      var r := CheckFrom(next, mem, pending[1..]);
      assert r.active[..|reg.active|] == reg.active by {
        assert r.active[..|reg.active|] == r.active[..|next.active|][..|reg.active|];
      }
    }
  }

  /** One visit announces what it appends. */
  lemma CheckOneNotices(reg: Registry, mem: Clues.Memory, entry: Option<Mission>)
    ensures var next := CheckOne(reg, mem, entry);
      |reg.active| <= |next.active| && next.notices == reg.notices + Announced(next.active[|reg.active|..])
  {
    var next := CheckOne(reg, mem, entry);
    if Starts(reg, mem, entry) {
      assert next.active[|reg.active|..] == [entry.value];
    } else {
      assert next.active[|reg.active|..] == [];
    }
  }

  /** Each mission the pass appends is announced once as new, in the order appended. */
  lemma {:induction false} CheckFromNotices(reg: Registry, mem: Clues.Memory, pending: seq<Option<Mission>>)
    ensures var r := CheckFrom(reg, mem, pending);
      |reg.active| <= |r.active| && r.notices == reg.notices + Announced(r.active[|reg.active|..])
    decreases |pending|
  {
    if |pending| == 0 {
      assert reg.active[|reg.active|..] == [];
    } else {
      var next := CheckOne(reg, mem, pending[0]);
      CheckOneNotices(reg, mem, pending[0]);
      CheckFromNotices(next, mem, pending[1..]);
      CheckFromFrame(next, mem, pending[1..]);
      var r := CheckFrom(next, mem, pending[1..]);
      AnnouncedStep(reg.active, next.active, r.active, reg.notices, next.notices, r.notices);
    }
  }

  /** What the active list gains is startable entries that were neither active nor completed. */
  lemma {:induction false} CheckFromGains(reg: Registry, mem: Clues.Memory, pending: seq<Option<Mission>>)
    ensures var r := CheckFrom(reg, mem, pending);
      forall k :: |reg.active| <= k < |r.active| ==>
        && Some(r.active[k]) in pending
        && CanStartMission(mem, r.active[k])
        && r.active[k] !in reg.active
        && r.active[k] !in reg.completed
    decreases |pending|
  {
    if |pending| > 0 {
      var next := CheckOne(reg, mem, pending[0]);
      CheckFromGains(next, mem, pending[1..]);
      CheckFromFrame(next, mem, pending[1..]);
      var r := CheckFrom(next, mem, pending[1..]);
      forall k | |reg.active| <= k < |r.active|
        ensures Some(r.active[k]) in pending && CanStartMission(mem, r.active[k])
        ensures r.active[k] !in reg.active && r.active[k] !in reg.completed
      {
        if k < |next.active| {
          assert r.active[k] == next.active[k] == pending[0].value;
        } else {
          assert Some(r.active[k]) in pending[1..];
        }
      }
    }
  }

  /** Every startable entry that is not completed ends up active. */
  lemma {:induction false} CheckFromStarts(reg: Registry, mem: Clues.Memory, pending: seq<Option<Mission>>)
    ensures var r := CheckFrom(reg, mem, pending);
      forall m :: Some(m) in pending && CanStartMission(mem, m) && m !in reg.completed ==> m in r.active
    decreases |pending|
  {
    if |pending| > 0 {
      var next := CheckOne(reg, mem, pending[0]);
      CheckFromStarts(next, mem, pending[1..]);
      CheckFromFrame(next, mem, pending[1..]);
      var r := CheckFrom(next, mem, pending[1..]);
      forall m | Some(m) in pending && CanStartMission(mem, m) && m !in reg.completed
        ensures m in r.active
      {
        if Some(m) == pending[0] {
          var j :| 0 <= j < |next.active| && next.active[j] == m;
          assert r.active[j] == m;
        } else {
          assert Some(m) in pending[1..];
        }
      }
    }
  }

  /** `CheckMissionPrerequisites()`, run at `Start` and on every `OnLoopStart`. */
  function CheckMissionPrerequisites(reg: Registry, mem: Clues.Memory): (r: Registry)
    ensures Valid(reg) ==> Valid(r)
    ensures forall m :: m in r.active && m !in reg.active ==>
      Some(m) in reg.all && CanStartMission(mem, m) && m !in reg.completed
    ensures forall m :: Some(m) in reg.all && CanStartMission(mem, m) && m !in reg.completed ==> m in r.active
    ensures r.completed == reg.completed && r.all == reg.all
    ensures |reg.active| <= |r.active| && r.active[..|reg.active|] == reg.active
    ensures r.notices == reg.notices + Announced(r.active[|reg.active|..])
  {
    var r := CheckFrom(reg, mem, reg.all);
    CheckFromFrame(reg, mem, reg.all);
    CheckFromGains(reg, mem, reg.all);
    CheckFromStarts(reg, mem, reg.all);
    CheckFromNotices(reg, mem, reg.all);
    forall m | m in r.active && m !in reg.active
      ensures Some(m) in reg.all && CanStartMission(mem, m) && m !in reg.completed
    {
      var k :| 0 <= k < |r.active| && r.active[k] == m;
      assert k >= |reg.active|;
    }
    r
  }

  /** A pass over entries that are all skipped or already active changes nothing. */
  lemma {:induction false} CheckFromNothingNew(reg: Registry, mem: Clues.Memory, pending: seq<Option<Mission>>)
    requires forall m :: Some(m) in pending && CanStartMission(mem, m) && m !in reg.completed ==> m in reg.active
    ensures CheckFrom(reg, mem, pending) == reg
    decreases |pending|
  {
    if |pending| > 0 {
      assert forall e :: e in pending[1..] ==> e in pending;
      CheckFromNothingNew(reg, mem, pending[1..]);
    }
  }

  /** With the loop count and the clues unchanged, a second check starts nothing. */
  lemma CheckIdempotent(reg: Registry, mem: Clues.Memory)
    ensures CheckMissionPrerequisites(CheckMissionPrerequisites(reg, mem), mem)
         == CheckMissionPrerequisites(reg, mem)
  {
    var r := CheckMissionPrerequisites(reg, mem);
    CheckFromNothingNew(r, mem, r.all);
  }

  /**
   `GrantRewards(mission)` over the reward ids still to visit: without a clue
   system nothing happens; otherwise every non-empty id is discovered.
   */
  function GrantFrom(mem: Clues.Memory, ids: seq<string>): (r: Clues.Memory)
    requires Clues.Valid(mem)
    ensures Clues.Valid(r)
    ensures mem.store.None? ==> r == mem
    ensures r.store.Some? <==> mem.store.Some?
    ensures r.loop.Some? <==> mem.loop.Some?
    ensures mem.store.Some? ==> r.store.value.discovered == mem.store.value.discovered + NonEmptyIds(ids)
    ensures mem.loop.Some? ==> r.loop.value.count == mem.loop.value.count
    ensures Clues.InSync(mem) ==> Clues.InSync(r)
    decreases |ids|
  {
    if mem.store.None? || |ids| == 0 then mem
    else
      var next := if |ids[0]| == 0 then mem else Clues.Discover(mem, ids[0]);
      assert NonEmptyIds(ids) == NonEmptyIds([ids[0]]) + NonEmptyIds(ids[1..]) by {
        assert forall id :: id in ids <==> id == ids[0] || id in ids[1..];
      }
      GrantFrom(next, ids[1..])
  }

  /** `GrantRewards(mission)`. */
  function GrantRewards(mem: Clues.Memory, m: Mission): (r: Clues.Memory)
    requires Clues.Valid(mem)
    ensures Clues.Valid(r)
    ensures mem.store.None? ==> r == mem
    ensures mem.store.Some? ==> r.store.Some?
    ensures mem.store.Some? ==> forall id :: Clues.HasClue(r.store.value, id) <==>
      Clues.HasClue(mem.store.value, id) || (id in m.rewardClueIds && |id| > 0)
    ensures mem.loop.Some? ==> r.loop.Some? && r.loop.value.count == mem.loop.value.count
    ensures Clues.InSync(mem) ==> Clues.InSync(r)
  {
    GrantFrom(mem, m.rewardClueIds)
  }

  /**
   `CompleteMission(mission)`: a no-op unless the mission is active; otherwise
   it leaves the active list, joins the completed list once, is announced and
   its rewards are granted. No mission is started by it.
   */
  function CompleteMission(reg: Registry, mem: Clues.Memory, m: Option<Mission>): (r: (Registry, Clues.Memory))
    requires Clues.Valid(mem)
    ensures Clues.Valid(r.1)
    ensures m.None? || m.value !in reg.active ==> r == (reg, mem)
    ensures m.Some? && m.value in reg.active ==>
      && r.0.active == RemoveFirst(reg.active, m.value)
      && m.value in r.0.completed
      && r.0.completed == reg.completed + (if m.value in reg.completed then [] else [m.value])
      && r.0.notices == reg.notices + [MissionComplete(m.value.missionName)]
      && r.0.all == reg.all
      && r.1 == GrantRewards(mem, m.value)
    ensures Valid(reg) && m.Some? ==> Valid(r.0) && m.value !in r.0.active
  {
    if m.None? || m.value !in reg.active then (reg, mem)
    else
      var mission := m.value;
      RemoveFirstNoDuplicatesIf(reg.active, mission);
      var completed := if mission in reg.completed then reg.completed else reg.completed + [mission];
      assert NoDuplicates(reg.completed) ==> NoDuplicates(completed);
      var reg' := reg.(active := RemoveFirst(reg.active, mission), completed := completed,
                       notices := reg.notices + [MissionComplete(mission.missionName)]);
      (reg', GrantRewards(mem, mission))
  }

  lemma RemoveFirstNoDuplicatesIf(xs: seq<Mission>, x: Mission)
    ensures NoDuplicates(xs) ==> NoDuplicates(RemoveFirst(xs, x)) && x !in RemoveFirst(xs, x)
  {
    if NoDuplicates(xs) {
      RemoveFirstNoDuplicates(xs, x);
    }
  }

  /**
   Completion does not re-run the check: a mission unlocked by the reward clues
   of the completed one stays inactive until the next check, which starts it.
   */
  lemma RewardsUnlockAtNextCheck(reg: Registry, mem: Clues.Memory, done: Mission, next: Mission)
    requires Clues.Valid(mem) && mem.store.Some?
    requires done in reg.active && next !in reg.active && next !in reg.completed
    requires Some(next) in reg.all
    requires LoopGate(mem, next)
    requires forall id :: id in next.requiredClueIds ==> id in done.rewardClueIds && |id| > 0
    ensures var (reg', mem') := CompleteMission(reg, mem, Some(done));
      && next !in reg'.active
      && next in CheckMissionPrerequisites(reg', mem').active
  {
    var (reg', mem') := CompleteMission(reg, mem, Some(done));
    assert next != done;
    assert next !in RemoveFirst(reg.active, done);
    assert next !in reg'.completed;
    assert CanStartMission(mem', next);
  }

  // ---------------------------------------------------------------------------
  // Lifecycle: the registry listens to the loop's start event from `OnEnable`

  /** The registry and whether it listens to `OnLoopStart`. */
  datatype Host = Host(reg: Registry, subscribed: bool)

  /** `OnEnable()`: subscribes when a loop manager exists. */
  function OnEnable(h: Host, mem: Clues.Memory): (r: Host)
    ensures r.reg == h.reg
    ensures r.subscribed <==> h.subscribed || mem.loop.Some?
  {
    if mem.loop.Some? then h.(subscribed := true) else h
  }

  /** `OnDisable()`: unsubscribes when a loop manager exists. */
  function OnDisable(h: Host, mem: Clues.Memory): (r: Host)
    ensures r.reg == h.reg
    ensures r.subscribed <==> h.subscribed && mem.loop.None?
  {
    if mem.loop.Some? then h.(subscribed := false) else h
  }

  /** `Start()`: one check. */
  function Start(h: Host, mem: Clues.Memory): (r: Host)
    ensures r.subscribed == h.subscribed
    ensures r.reg == CheckMissionPrerequisites(h.reg, mem)
  {
    h.(reg := CheckMissionPrerequisites(h.reg, mem))
  }

  /** The loop manager raises `OnLoopStart`: a listening registry checks again. */
  function LoopStarted(h: Host, mem: Clues.Memory): (r: Host)
    ensures !h.subscribed ==> r == h
    ensures h.subscribed ==> r.reg == CheckMissionPrerequisites(h.reg, mem) && r.subscribed
  {
    if h.subscribed then h.(reg := CheckMissionPrerequisites(h.reg, mem)) else h
  }
}

=== FILE: npc.dfy ===
/**
 The NPC controller of the `Assets/TimeLoopCity` tree (`NPCController`): a
 patrol over one of two waypoint routes chosen per loop from a seeded draw, a
 single-target override used by the NPC brain, idempotent loop-event
 subscription, and the choice of what the NPC says. Agent motion is reduced to
 the agent's position after a warp, its destination and its stopped flag.
 */
module Npc {
  import opened Common
  import opened Random
  import opened DialogueData
  import TimeLoop
  import Clues
  import BestDialogue
  import NpcMemory
  import DialogueManager

  /** A `Transform` an NPC can be sent to: its object name and position. */
  datatype Waypoint = Waypoint(name: string, position: Vec3)

  /** A serialized waypoint list; entries may be null. */
  type Route = seq<Option<Waypoint>>

  /** What the model keeps of the `NavMeshAgent`. */
  datatype Agent = Agent(position: Vec3, destination: Option<Vec3>, stopped: bool)

  /**
   The controller: its settings and routes, its dialogues, the route in use
   (null before the first initialization), the patrol index, the waiting state,
   the subscribed flag and how many listener pairs it holds on the loop manager.
   */
  datatype Controller = Controller(
    npcId: string,
    randomizeRoutine: bool,
    waypointWaitTime: real,
    defaultWaypoints: Route,
    alternateWaypoints: Route,
    defaultDialogue: Option<Dialogue>,
    loopSpecificDialogues: seq<Option<Dialogue>>,
    current: Option<Route>,
    index: int,
    waiting: bool,
    waitTimer: real,
    subscribed: bool,
    registrations: nat,
    agent: Agent)

  /** The serialized default id. */
  const DefaultNpcId: string := "npc_default"

  /** The route in use, empty while there is none. */
  function RouteOf(c: Controller): (r: Route)
    ensures c.current.Some? ==> r == c.current.value
    ensures c.current.None? ==> r == []
  {
    if c.current.Some? then c.current.value else []
  }

  /**
   The controller's invariant: the patrol index lies within the route (it is 0
   on an empty route), and the listeners are held exactly while subscribed.
   */
  predicate Valid(c: Controller) {
    && 0 <= c.index < MaxInt(1, |RouteOf(c)|)
    && c.registrations == (if c.subscribed then 1 else 0)
  }

  /**
   The serialized defaults followed by `Awake()`: the loop-specific dialogues are
   sorted highest `minLoopCount` first, nulls last.
   */
  function Create(npcId: string, randomizeRoutine: bool, waypointWaitTime: real,
                  defaultWaypoints: Route, alternateWaypoints: Route,
                  defaultDialogue: Option<Dialogue>, dialogues: seq<Option<Dialogue>>,
                  position: Vec3): (c: Controller)
    ensures Valid(c)
    ensures c.current.None? && c.index == 0 && !c.waiting && !c.subscribed
    ensures multiset(c.loopSpecificDialogues) == multiset(dialogues)
    ensures BestDialogue.LoopDescending(c.loopSpecificDialogues)
  {
    Controller(npcId, randomizeRoutine, waypointWaitTime, defaultWaypoints, alternateWaypoints,
               defaultDialogue, BestDialogue.SortLoopSpecificDialogues(dialogues),
               None, 0, false, 0.0, false, 0, Agent(position, None, false))
  }

  /** The seed of the routine draw: loop seed (0 without a manager) plus the id's hash. */
  function RoutineSeed(loop: Option<TimeLoop.Manager>, idHash: int): (r: int)
    ensures loop.None? ==> r == CombineSeed(0, idHash)
    ensures loop.Some? ==> r == CombineSeed(loop.value.count, idHash)
  {
    CombineSeed(if loop.Some? then TimeLoop.GetLoopSeed(loop.value) else 0, idHash)
  }

  /** `Random.value > 0.5f` right after seeding with the routine seed. */
  predicate UseAlternate(loop: Option<TimeLoop.Manager>, idHash: int, g: Generator) {
    Next(g, InitState(RoutineSeed(loop, idHash))).0 > 0.5
  }

  /**
   `SelectWaypointList()` with `idHash` for `npcId.GetHashCode()`: the default
   route when randomization is off or there is no alternate route; otherwise the
   alternate route exactly when the seeded draw exceeds one half.
   */
  function SelectWaypointList(c: Controller, loop: Option<TimeLoop.Manager>, idHash: int, g: Generator): (r: Route)
    ensures r == c.defaultWaypoints || r == c.alternateWaypoints
    ensures !c.randomizeRoutine || |c.alternateWaypoints| == 0 ==> r == c.defaultWaypoints
    ensures c.randomizeRoutine && |c.alternateWaypoints| > 0 && UseAlternate(loop, idHash, g) ==> r == c.alternateWaypoints
    ensures c.randomizeRoutine && |c.alternateWaypoints| > 0 && !UseAlternate(loop, idHash, g) ==> r == c.defaultWaypoints
  {
    if !c.randomizeRoutine || |c.alternateWaypoints| == 0 then c.defaultWaypoints
    else if UseAlternate(loop, idHash, g) then c.alternateWaypoints
    else c.defaultWaypoints
  }

  /**
   The route depends on nothing but the loop count: two managers with the same
   count give the same route, and no manager counts as loop 0.
   */
  lemma RouteDependsOnlyOnLoop(c: Controller, m1: TimeLoop.Manager, m2: TimeLoop.Manager, idHash: int, g: Generator)
    requires m1.count == m2.count
    ensures SelectWaypointList(c, Some(m1), idHash, g) == SelectWaypointList(c, Some(m2), idHash, g)
    ensures m1.count == 0 ==> SelectWaypointList(c, None, idHash, g) == SelectWaypointList(c, Some(m1), idHash, g)
  {
  }

  /**
   `MoveToWaypoint(index)`: nothing happens on an empty route; otherwise the
   index is clamped into the route, and a null waypoint there leaves everything
   as it was; a real one becomes the current index and the agent's destination,
   and the agent moves again.
   */
  function MoveToWaypoint(c: Controller, index: int): (r: Controller)
    ensures Valid(c) ==> Valid(r)
    ensures |RouteOf(c)| == 0 ==> r == c
    ensures |RouteOf(c)| > 0 ==>
      var k := ClampInt(index, 0, |RouteOf(c)| - 1);
      && (RouteOf(c)[k].None? ==> r == c)
      && (RouteOf(c)[k].Some? ==>
            r == c.(index := k, agent := c.agent.(stopped := false, destination := Some(RouteOf(c)[k].value.position))))
  {
    var route := RouteOf(c);
    if |route| == 0 then c
    else
      var k := ClampInt(index, 0, |route| - 1);
      if route[k].None? then c
      else c.(index := k, agent := c.agent.(stopped := false, destination := Some(route[k].value.position)))
  }

  /**
   `MoveToNextWaypoint()`: on a non-empty route the index steps to its successor
   modulo the route length (C#'s `%`), then the NPC is sent there; on an empty
   route nothing happens. The step is taken even when the next waypoint is null.
   */
  function MoveToNextWaypoint(c: Controller): (r: Controller)
    ensures Valid(c) ==> Valid(r)
    ensures |RouteOf(c)| == 0 ==> r == c
    ensures |RouteOf(c)| > 0 && c.index >= 0 ==> r.index == (c.index + 1) % |RouteOf(c)|
    ensures |RouteOf(c)| > 0 && c.index >= 0 ==>
      var k := (c.index + 1) % |RouteOf(c)|;
      RouteOf(c)[k].Some? ==> r.agent.destination == Some(RouteOf(c)[k].value.position) && !r.agent.stopped
    ensures r.current == c.current && r.subscribed == c.subscribed && r.waiting == c.waiting
  {
    var route := RouteOf(c);
    if |route| == 0 then c
    else
      var c' := c.(index := CsRem(c.index + 1, |route|));
      MoveToWaypoint(c', c'.index)
  }

  /** `k` consecutive steps of the patrol. */
  function Steps(c: Controller, k: nat): (r: Controller)
    decreases k
  {
    if k == 0 then c else Steps(MoveToNextWaypoint(c), k - 1)
  }

  /**
   The patrol is a cycle: after `k` steps the index is `k` places further on,
   modulo the route length, so after one full lap the NPC is back where it began.
   */
  lemma {:induction false} PatrolCycles(c: Controller, k: nat)
    requires Valid(c) && |RouteOf(c)| > 0
    ensures Valid(Steps(c, k))
    ensures RouteOf(Steps(c, k)) == RouteOf(c)
    ensures Steps(c, k).index == (c.index + k) % |RouteOf(c)|
    decreases k
  {
    if k > 0 {
      var n := |RouteOf(c)|;
      var c' := MoveToNextWaypoint(c);
      PatrolCycles(c', k - 1);
      assert (((c.index + 1) % n) + (k - 1)) % n == (c.index + k) % n by {
        ModShift(c.index + 1, k - 1, n);
      }
    }
  }

  /**
   `InitializeRoutine()`: the selected route becomes current with index 0 and
   waiting cleared; on a non-empty route the agent is warped to the first
   waypoint and sent there. A null first waypoint is dereferenced by the warp.
   */
  function InitializeRoutine(c: Controller, loop: Option<TimeLoop.Manager>, idHash: int, g: Generator): (r: Outcome<Controller>)
    ensures var route := SelectWaypointList(c, loop, idHash, g);
      && (r.NullReference? <==> |route| > 0 && route[0].None?)
      && (r.Ok? ==> r.value.current == Some(route) && r.value.index == 0 && !r.value.waiting)
      && (r.Ok? && |route| > 0 ==>
            r.value.agent == Agent(route[0].value.position, Some(route[0].value.position), false))
      && (|route| == 0 ==> r == Ok(c.(current := Some(route), index := 0, waiting := false)))
    ensures r.Ok? ==> r.value.subscribed == c.subscribed && r.value.registrations == c.registrations
    ensures r.Ok? && c.registrations == (if c.subscribed then 1 else 0) ==> Valid(r.value)
  {
    var route := SelectWaypointList(c, loop, idHash, g);
    var c1 := c.(current := Some(route), index := 0, waiting := false);
    if |route| == 0 then Ok(c1)
    else if route[0].None? then NullReference
    else Ok(MoveToWaypoint(c1.(agent := c1.agent.(position := route[0].value.position)), 0))
  }

  /** `StartWaiting()`: wait the configured time with the agent stopped. */
  function StartWaiting(c: Controller): (r: Controller)
    ensures r == c.(waiting := true, waitTimer := c.waypointWaitTime, agent := c.agent.(stopped := true))
  {
    c.(waiting := true, waitTimer := c.waypointWaitTime, agent := c.agent.(stopped := true))
  }

  /**
   `Update()` with frame time `dt`; `arrived` is the agent's report that no
   path is pending and the remaining distance is within tolerance. The NPC
   first tries to subscribe; with no route nothing else happens; a waiting NPC
   counts its timer down and moves on once it runs out; an NPC that has arrived
   starts waiting.
   */
  function Update(c: Controller, loopPresent: bool, dt: real, arrived: bool): (r: Controller)
    ensures Valid(c) ==> Valid(r)
    ensures r.subscribed <==> c.subscribed || loopPresent
    ensures var s := TrySubscribe(c, loopPresent);
      && (|RouteOf(c)| == 0 ==> r == s)
      && (|RouteOf(c)| > 0 && c.waiting && c.waitTimer - dt > 0.0 ==> r == s.(waitTimer := c.waitTimer - dt))
      && (|RouteOf(c)| > 0 && c.waiting && c.waitTimer - dt <= 0.0 ==>
            r == MoveToNextWaypoint(s.(waitTimer := c.waitTimer - dt, waiting := false)))
      && (|RouteOf(c)| > 0 && !c.waiting && arrived ==> r == StartWaiting(s))
      && (|RouteOf(c)| > 0 && !c.waiting && !arrived ==> r == s)
  {
    var s := TrySubscribe(c, loopPresent);
    if |RouteOf(s)| == 0 then s
    else if s.waiting then
      var t := s.(waitTimer := s.waitTimer - dt);
      if t.waitTimer <= 0.0 then MoveToNextWaypoint(t.(waiting := false)) else t
    else if arrived then StartWaiting(s)
    else s
  }

  /**
   `SetSingleDestination(target)`: null is ignored; otherwise the route becomes
   the one-element list of the target, at index 0, and the NPC is sent there.
   */
  function SetSingleDestination(c: Controller, target: Option<Waypoint>): (r: Controller)
    ensures Valid(c) ==> Valid(r)
    ensures target.None? ==> r == c
    ensures target.Some? ==>
      && r.current == Some([target])
      && r.index == 0
      && r.agent == c.agent.(stopped := false, destination := Some(target.value.position))
      && r.subscribed == c.subscribed && r.waiting == c.waiting
  {
    if target.None? then c
    else MoveToWaypoint(c.(current := Some([target]), index := 0), 0)
  }

  /** `TrySubscribeLoopEvents()`: adds the listeners once, and only when a manager exists. */
  function TrySubscribe(c: Controller, loopPresent: bool): (r: Controller)
    ensures Valid(c) ==> Valid(r)
    ensures c.subscribed || !loopPresent ==> r == c
    ensures !c.subscribed && loopPresent ==> r == c.(subscribed := true, registrations := c.registrations + 1)
  {
    if c.subscribed || !loopPresent then c
    else c.(subscribed := true, registrations := c.registrations + 1)
  }

  /** `TryUnsubscribeLoopEvents()`: removes the listeners once, and only when a manager exists. */
  function TryUnsubscribe(c: Controller, loopPresent: bool): (r: Controller)
    requires Valid(c)
    ensures Valid(r)
    ensures !c.subscribed || !loopPresent ==> r == c
    ensures c.subscribed && loopPresent ==> !r.subscribed && r.registrations == 0
  {
    if !c.subscribed || !loopPresent then c
    else c.(subscribed := false, registrations := c.registrations - 1)
  }

  /**
   However often `OnEnable`, `Update` and `OnDisable` run, the NPC never holds
   more than one pair of listeners, and a second subscribe or unsubscribe in a
   row changes nothing.
   */
  lemma SubscriptionIdempotent(c: Controller, loopPresent: bool)
    requires Valid(c)
    ensures TrySubscribe(TrySubscribe(c, loopPresent), loopPresent) == TrySubscribe(c, loopPresent)
    ensures TryUnsubscribe(TryUnsubscribe(c, loopPresent), loopPresent) == TryUnsubscribe(c, loopPresent)
    ensures TrySubscribe(c, loopPresent).registrations <= 1
  {
  }

  /** `OnLoopStart` and `OnLoopReset`: both re-initialize the routine for the new loop. */
  function OnLoopEvent(c: Controller, loop: TimeLoop.Manager, idHash: int, g: Generator): (r: Outcome<Controller>)
    ensures r == InitializeRoutine(c, Some(loop), idHash, g)
    ensures r.Ok? ==> r.value.index == 0 && !r.value.waiting
  {
    InitializeRoutine(c, Some(loop), idHash, g)
  }

  /**
   `GetDialogue()` with the unseeded draw `u`: the memory line when the NPC has
   a memory component that remembers, else "Hello there!".
   */
  function GetDialogue(memory: Option<NpcMemory.MemoryComponent>, loop: Option<TimeLoop.Manager>, u: Fraction): (r: string)
    ensures memory.Some? && NpcMemory.RemembersPreviousLoops(memory.value, loop) ==>
      r == NpcMemory.GetMemoryDialogue(memory.value, loop, u)
    ensures !(memory.Some? && NpcMemory.RemembersPreviousLoops(memory.value, loop)) ==> r == "Hello there!"
  {
    if memory.Some? && NpcMemory.RemembersPreviousLoops(memory.value, loop) then
      NpcMemory.GetMemoryDialogue(memory.value, loop, u)
    else "Hello there!"
  }

  /**
   `GetBestDialogue()`: the first eligible entry of the list as sorted at
   `Awake`, else the default dialogue.
   */
  function GetBestDialogue(c: Controller, loop: Option<TimeLoop.Manager>, store: Option<Clues.ClueSystem>): (r: Option<Dialogue>)
    ensures r == c.defaultDialogue || r in c.loopSpecificDialogues
    ensures r != c.defaultDialogue ==> BestDialogue.Eligible(r, BestDialogue.CurrentLoop(loop), store)
  {
    BestDialogue.Select(c.loopSpecificDialogues, c.defaultDialogue, BestDialogue.CurrentLoop(loop), store)
  }

  /**
   After `Awake`, the NPC says the eligible dialogue with the highest
   `minLoopCount` of those it was given; the default only when none is eligible.
   */
  lemma BestDialogueIsHighest(c: Controller, dialogues: seq<Option<Dialogue>>, loop: Option<TimeLoop.Manager>, store: Option<Clues.ClueSystem>)
    requires BestDialogue.LoopDescending(c.loopSpecificDialogues)
    requires multiset(c.loopSpecificDialogues) == multiset(dialogues)
    ensures var r := GetBestDialogue(c, loop, store);
      var n := BestDialogue.CurrentLoop(loop);
      && ((forall j :: 0 <= j < |dialogues| ==> !BestDialogue.Eligible(dialogues[j], n, store)) ==> r == c.defaultDialogue)
      && ((exists j :: 0 <= j < |dialogues| && BestDialogue.Eligible(dialogues[j], n, store)) ==>
            && r in dialogues && BestDialogue.Eligible(r, n, store)
            && forall j :: 0 <= j < |dialogues| && BestDialogue.Eligible(dialogues[j], n, store) ==>
                 dialogues[j].value.minLoopCount <= r.value.minLoopCount)
  {
    var ds := c.loopSpecificDialogues;
    var n := BestDialogue.CurrentLoop(loop);
    if exists j :: 0 <= j < |dialogues| && BestDialogue.Eligible(dialogues[j], n, store) {
      var j :| 0 <= j < |dialogues| && BestDialogue.Eligible(dialogues[j], n, store);
      assert dialogues[j] in multiset(ds);
      BestDialogue.SelectPicksHighestEligible(ds, c.defaultDialogue, n, store);
      var r := GetBestDialogue(c, loop, store);
      assert r in multiset(dialogues);
      forall i | 0 <= i < |dialogues| && BestDialogue.Eligible(dialogues[i], n, store)
        ensures dialogues[i].value.minLoopCount <= r.value.minLoopCount
      {
        assert dialogues[i] in multiset(ds);
      }
    } else {
      forall j | 0 <= j < |ds|
        ensures !BestDialogue.Eligible(ds[j], n, store)
      {
        assert ds[j] in multiset(dialogues);
      }
    }
  }

  /**
   `OnInteract(player)`: the agent stops; the best dialogue is started when a
   dialogue manager exists and there is a dialogue; otherwise the NPC only
   speaks its fallback line, which changes no state.
   */
  function OnInteract(c: Controller, dm: Option<DialogueManager.Manager>, w: DialogueManager.World,
                      loop: Option<TimeLoop.Manager>): (r: (Controller, Option<DialogueManager.Manager>, DialogueManager.World))
    requires DialogueManager.Valid(w)
    ensures DialogueManager.Valid(r.2)
    ensures r.0 == c.(agent := c.agent.(stopped := true))
    ensures r.1.Some? <==> dm.Some?
    ensures var d := GetBestDialogue(c, loop, w.mem.store);
      && (dm.Some? && d.Some? ==> (r.1.value, r.2) == DialogueManager.StartDialogue(dm.value, w, d))
      && (dm.None? || d.None? ==> r.1 == dm && r.2 == w)
  {
    var stopped := c.(agent := c.agent.(stopped := true));
    var d := GetBestDialogue(c, loop, w.mem.store);
    if dm.Some? && d.Some? then
      var (dm', w') := DialogueManager.StartDialogue(dm.value, w, d);
      (stopped, Some(dm'), w')
    else (stopped, dm, w)
  }
}

=== FILE: npc_brain.dfy ===
/**
 The NPC's daily schedule (`NPCBrain`): entries sorted by hour at start, and on
 every hour change each entry whose hour has been reached takes over in turn,
 sending the NPC to the scene object the entry names.
 */
module NpcBrain {
  import opened Common
  import Sorting
  import Npc

  /** `ScheduleEntry`. */
  datatype ScheduleEntry = ScheduleEntry(hour: real, locationName: string, activityName: string)

  /**
   The brain: the schedule, the index of the entry in force (-1 before any),
   whether a time system was found, and how many listeners it holds on it.
   */
  datatype Brain = Brain(schedule: seq<ScheduleEntry>, currentIndex: int, subscribed: bool, registrations: nat)

  /** The listener is held exactly while subscribed. */
  predicate Valid(b: Brain) {
    b.registrations == (if b.subscribed then 1 else 0)
  }

  /** The serialized schedule, before `Start`. */
  function Create(schedule: seq<ScheduleEntry>): (b: Brain)
    ensures Valid(b) && b.schedule == schedule && b.currentIndex == -1 && !b.subscribed
  {
    Brain(schedule, -1, false, 0)
  }

  function HourKey(e: ScheduleEntry): real {
    e.hour
  }

  /**
   `SubscribeToTimeSystem()`, with `timeSystemFound` for the lookup's answer:
   a brain that has a time system keeps it; otherwise it listens to the one
   found, if any.
   */
  function Subscribe(b: Brain, timeSystemFound: bool): (r: Brain)
    ensures Valid(b) ==> Valid(r)
    ensures b.subscribed || !timeSystemFound ==> r == b
    ensures !b.subscribed && timeSystemFound ==> r == b.(subscribed := true, registrations := b.registrations + 1)
  {
    if b.subscribed || !timeSystemFound then b
    else b.(subscribed := true, registrations := b.registrations + 1)
  }

  /** However often `Update` retries, the brain listens at most once. */
  lemma SubscribeAtMostOnce(b: Brain, found: seq<bool>)
    requires Valid(b)
    ensures Valid(SubscribeAll(b, found)) && SubscribeAll(b, found).registrations <= 1
    decreases |found|
  {
    if |found| > 0 {
      SubscribeAtMostOnce(Subscribe(b, found[0]), found[1..]);
    }
  }

  /** A run of subscription attempts, one per frame. */
  function SubscribeAll(b: Brain, found: seq<bool>): Brain
    decreases |found|
  {
    if |found| == 0 then b else SubscribeAll(Subscribe(b, found[0]), found[1..])
  }

  /** `Start()`: the schedule is sorted by hour, earliest first, then the brain subscribes. */
  function Start(b: Brain, timeSystemFound: bool): (r: Brain)
    requires Valid(b)
    ensures Valid(r)
    ensures Sorting.IsSortingOf(r.schedule, b.schedule, HourKey)
    ensures r.currentIndex == b.currentIndex
    ensures r.subscribed <==> b.subscribed || timeSystemFound
  {
    Subscribe(b.(schedule := Sorting.SortBy(b.schedule, HourKey)), timeSystemFound)
  }

  /** `OnDestroy()`: the listener is removed if there is one. */
  function OnDestroy(b: Brain): (r: Brain)
    requires Valid(b)
    ensures r.registrations == 0
    ensures r.schedule == b.schedule && r.currentIndex == b.currentIndex
  {
    if b.subscribed then b.(registrations := b.registrations - 1) else b
  }

  /** The hour of entry `e` has been reached at hour `hour`. */
  predicate Reached(e: ScheduleEntry, hour: int) {
    hour as real >= e.hour
  }

  /** No entry before position `k` has been reached. */
  predicate NoneReachedBefore(s: seq<ScheduleEntry>, hour: int, k: int)
    requires 0 <= k <= |s|
  {
    forall j :: 0 <= j < k ==> !Reached(s[j], hour)
  }

  /**
   `ExecuteSchedule(entry)`, with the scene's named objects as a map: the NPC is
   sent to the object the entry names when it exists, and is left alone otherwise.
   */
  function ExecuteSchedule(npc: Npc.Controller, scene: map<string, Npc.Waypoint>, e: ScheduleEntry): (r: Npc.Controller)
    ensures e.locationName !in scene ==> r == npc
    ensures e.locationName in scene ==>
      r.current == Some([Some(scene[e.locationName])])
      && r.agent.destination == Some(scene[e.locationName].position)
  {
    if e.locationName in scene then Npc.SetSingleDestination(npc, Some(scene[e.locationName])) else npc
  }

  /** The entries at positions `idx`, executed in that order. */
  function ExecuteEach(npc: Npc.Controller, scene: map<string, Npc.Waypoint>, s: seq<ScheduleEntry>, idx: seq<int>): Npc.Controller
    requires forall p :: 0 <= p < |idx| ==> 0 <= idx[p] < |s|
    decreases |idx|
  {
    if |idx| == 0 then npc
    else ExecuteSchedule(ExecuteEach(npc, scene, s, idx[..|idx| - 1]), scene, s[idx[|idx| - 1]])
  }

  /**
   Entry `k` takes over during a check at `hour` that starts with `c0` in force:
   its hour has been reached, and it is not the entry in force when it is the
   first one reached.
   */
  predicate TakesOver(s: seq<ScheduleEntry>, hour: int, c0: int, k: int)
    requires 0 <= k < |s|
  {
    Reached(s[k], hour) && !(k == c0 && NoneReachedBefore(s, hour, k))
  }

  /** The positions below `n` that take over, in increasing order. */
  function TakeOvers(s: seq<ScheduleEntry>, hour: int, c0: int, n: int): seq<int>
    requires 0 <= n <= |s|
    decreases n
  {
    if n == 0 then []
    else TakeOvers(s, hour, c0, n - 1) + (if TakesOver(s, hour, c0, n - 1) then [n - 1] else [])
  }

  /**
   The positions that take over are exactly those below `n` that take over,
   each once, in increasing order.
   */
  lemma {:induction false} TakeOversSpec(s: seq<ScheduleEntry>, hour: int, c0: int, n: int)
    requires 0 <= n <= |s|
    ensures var r := TakeOvers(s, hour, c0, n);
      && (forall p :: 0 <= p < |r| ==> 0 <= r[p] < n)
      && (forall p, q :: 0 <= p < q < |r| ==> r[p] < r[q])
      && (forall k :: k in r <==> 0 <= k < n && TakesOver(s, hour, c0, k))
    decreases n
  {
    if n > 0 {
      TakeOversSpec(s, hour, c0, n - 1);
      var prev := TakeOvers(s, hour, c0, n - 1);
      var r := TakeOvers(s, hour, c0, n);
      assert r == prev + (if TakesOver(s, hour, c0, n - 1) then [n - 1] else []);
      forall p | 0 <= p < |r|
        ensures 0 <= r[p] < n
      {
        if p < |prev| {
          assert r[p] == prev[p];
        }
      }
      forall p, q | 0 <= p < q < |r|
        ensures r[p] < r[q]
      {
        if q < |prev| {
          assert r[p] == prev[p] && r[q] == prev[q];
        } else {
          assert r[p] == prev[p];
        }
      }
    }
  }

  /** When no entry below `n` has been reached, none takes over. */
  lemma {:induction false} NothingReachedNothingRuns(s: seq<ScheduleEntry>, hour: int, c0: int, n: int)
    requires 0 <= n <= |s|
    requires NoneReachedBefore(s, hour, n)
    ensures TakeOvers(s, hour, c0, n) == []
    decreases n
  {
    if n > 0 {
      NothingReachedNothingRuns(s, hour, c0, n - 1);
    }
  }

  /**
   What the scan of `CheckSchedule` knows after the entries below `i`: the
   positions that took over, and the entry in force, which is the last one
   reached, or still the initial one when none is.
   */
  predicate Scanned(s: seq<ScheduleEntry>, hour: int, c0: int, i: int, cur: int, executed: seq<int>)
    requires 0 <= i <= |s|
  {
    && executed == TakeOvers(s, hour, c0, i)
    && (NoneReachedBefore(s, hour, i) ==> cur == c0)
    && (!NoneReachedBefore(s, hour, i) ==> LastReachedBelow(s, hour, cur, i))
  }

  /**
   One pass of the loop of `CheckSchedule`: the entry in force so far decides
   whether entry `i` takes over, and taking over (or not) keeps the scan's
   knowledge for one more entry.
   */
  lemma CheckStep(s: seq<ScheduleEntry>, hour: int, c0: int, i: int, cur: int, executed: seq<int>)
    requires 0 <= i < |s|
    requires Scanned(s, hour, c0, i, cur, executed)
    ensures TakesOver(s, hour, c0, i) <==> Reached(s[i], hour) && cur != i
    ensures var take := Reached(s[i], hour) && cur != i;
      Scanned(s, hour, c0, i + 1, if take then i else cur, if take then executed + [i] else executed)
  {
    assert TakeOvers(s, hour, c0, i + 1)
      == TakeOvers(s, hour, c0, i) + (if TakesOver(s, hour, c0, i) then [i] else []);
  }

  /** Entry `cur` is the last one below `i` whose hour has been reached. */
  predicate LastReachedBelow(s: seq<ScheduleEntry>, hour: int, cur: int, i: int)
    requires 0 <= i <= |s|
  {
    0 <= cur < i && Reached(s[cur], hour) && forall k :: cur < k < i ==> !Reached(s[k], hour)
  }

  /**
   The scan of `CheckSchedule(hour)` over the schedule: the positions that take
   over, in schedule order, and the entry in force afterwards, which is the last
   one reached, or the initial one when none is.
   */
  method ScanSchedule(s: seq<ScheduleEntry>, c0: int, hour: int) returns (cur: int, executed: seq<int>)
    ensures executed == TakeOvers(s, hour, c0, |s|)
    ensures NoneReachedBefore(s, hour, |s|) ==> cur == c0 && executed == []
    ensures !NoneReachedBefore(s, hour, |s|) ==> LastReachedBelow(s, hour, cur, |s|)
  {
    cur := c0;
    executed := [];
    var i := 0;
    while i < |s|
      invariant 0 <= i <= |s|
      invariant Scanned(s, hour, c0, i, cur, executed)
    {
      CheckStep(s, hour, c0, i, cur, executed);
      if Reached(s[i], hour) && cur != i {
        cur := i;
        executed := executed + [i];
      }
      i := i + 1;
    }
    if NoneReachedBefore(s, hour, |s|) {
      NothingReachedNothingRuns(s, hour, c0, |s|);
    }
  }

  /**
   `CheckSchedule(hour)`. Every entry whose hour has been reached is executed,
   in schedule order, except that the entry already in force is skipped when it
   is the first one reached; the entry in force ends as the last one reached,
   and when no entry is reached nothing changes.
   */
  method CheckSchedule(b: Brain, npc: Npc.Controller, scene: map<string, Npc.Waypoint>, hour: int)
    returns (b': Brain, npc': Npc.Controller, executed: seq<int>)
    ensures b'.schedule == b.schedule && b'.subscribed == b.subscribed && b'.registrations == b.registrations
    ensures executed == TakeOvers(b.schedule, hour, b.currentIndex, |b.schedule|)
    ensures forall p :: 0 <= p < |executed| ==> 0 <= executed[p] < |b.schedule|
    ensures npc' == ExecuteEach(npc, scene, b.schedule, executed)
    ensures forall k :: k in executed <==> 0 <= k < |b.schedule| && TakesOver(b.schedule, hour, b.currentIndex, k)
    ensures NoneReachedBefore(b.schedule, hour, |b.schedule|) ==> b' == b && npc' == npc && executed == []
    ensures !NoneReachedBefore(b.schedule, hour, |b.schedule|) ==>
      LastReachedBelow(b.schedule, hour, b'.currentIndex, |b.schedule|)
  {
    var cur;
    cur, executed := ScanSchedule(b.schedule, b.currentIndex, hour);
    TakeOversSpec(b.schedule, hour, b.currentIndex, |b.schedule|);
    b' := b.(currentIndex := cur);
    npc' := ExecuteEach(npc, scene, b.schedule, executed);
  }

  /**
   On the sorted schedule the entries reached form a prefix, so the entry left
   in force is the last one whose hour is at most the current hour.
   */
  lemma SortedReachedIsPrefix(s: seq<ScheduleEntry>, hour: int, j: int, k: int)
    requires Sorting.SortedBy(s, HourKey)
    requires 0 <= j <= k < |s| && Reached(s[k], hour)
    ensures Reached(s[j], hour)
  {
    assert HourKey(s[j]) <= HourKey(s[k]);
  }

  /**
   After `Start`, an hour change leaves in force exactly the last entry of the
   sorted schedule with hour at most the current hour, and every entry before it
   has been reached too.
   */
  method CheckSortedSchedule(b: Brain, npc: Npc.Controller, scene: map<string, Npc.Waypoint>, hour: int)
    returns (b': Brain, npc': Npc.Controller, executed: seq<int>)
    requires Sorting.SortedBy(b.schedule, HourKey)
    requires |b.schedule| > 0 && Reached(b.schedule[0], hour)
    ensures 0 <= b'.currentIndex < |b.schedule|
    ensures forall k :: 0 <= k < |b.schedule| ==> (Reached(b.schedule[k], hour) <==> k <= b'.currentIndex)
    ensures executed == TakeOvers(b.schedule, hour, b.currentIndex, |b.schedule|)
    ensures forall p :: 0 <= p < |executed| ==> 0 <= executed[p] < |b.schedule|
    ensures npc' == ExecuteEach(npc, scene, b.schedule, executed)
  {
    b', npc', executed := CheckSchedule(b, npc, scene, hour);
    assert !NoneReachedBefore(b.schedule, hour, |b.schedule|);
    forall k | 0 <= k < |b.schedule|
      ensures Reached(b.schedule[k], hour) <==> k <= b'.currentIndex
    {
      if k <= b'.currentIndex {
        SortedReachedIsPrefix(b.schedule, hour, k, b'.currentIndex);
      }
    }
  }
}

=== FILE: npc_memory.dfy ===
/**
 NPC memory of earlier loops (`NPCMemoryComponent`): from a loop threshold on,
 an NPC that can remember speaks its memory lines and, once, reveals a secret
 object.
 */
module NpcMemory {
  import opened Common
  import opened Random
  import TimeLoop
  import BestDialogue

  /**
   The component: its settings and lines, the optional secret object (whether
   it is active), whether the secret was revealed, and how many memory effects
   were shown.
   */
  datatype MemoryComponent = MemoryComponent(
    canRemember: bool,
    loopThresholdToRemember: int,
    normalDialogue: seq<string>,
    memoryDialogue: seq<string>,
    revealsSecretAfterMemory: bool,
    secretObject: Option<bool>,
    hasRevealed: bool,
    effectsShown: nat)

  /** The serialized defaults: no memory, threshold 3, no secret. */
  function Create(): (mc: MemoryComponent)
    ensures !mc.canRemember && mc.loopThresholdToRemember == 3 && !mc.hasRevealed && mc.effectsShown == 0
  {
    MemoryComponent(false, 3, [], [], false, None, false, 0)
  }

  /** The secret was revealed exactly when one memory effect was shown, and never more. */
  predicate Valid(mc: MemoryComponent) {
    mc.effectsShown == (if mc.hasRevealed then 1 else 0)
  }

  /** `RemembersPreviousLoops()`: the loop is taken as 0 without a manager. */
  function RemembersPreviousLoops(mc: MemoryComponent, loop: Option<TimeLoop.Manager>): (r: bool)
    ensures r <==> mc.canRemember && BestDialogue.CurrentLoop(loop) >= mc.loopThresholdToRemember
  {
    if !mc.canRemember then false
    else BestDialogue.CurrentLoop(loop) >= mc.loopThresholdToRemember
  }

  /**
   `GetMemoryDialogue()` with the unseeded draw `u`: a memory line when
   remembering and there is one, else a normal line if there is one, else "...".
   */
  function GetMemoryDialogue(mc: MemoryComponent, loop: Option<TimeLoop.Manager>, u: Fraction): (r: string)
    ensures RemembersPreviousLoops(mc, loop) && |mc.memoryDialogue| > 0 ==> r in mc.memoryDialogue
    ensures !(RemembersPreviousLoops(mc, loop) && |mc.memoryDialogue| > 0) && |mc.normalDialogue| > 0 ==> r in mc.normalDialogue
    ensures !(RemembersPreviousLoops(mc, loop) && |mc.memoryDialogue| > 0) && |mc.normalDialogue| == 0 ==> r == "..."
  {
    if RemembersPreviousLoops(mc, loop) && |mc.memoryDialogue| > 0 then
      mc.memoryDialogue[IntIn(u, 0, |mc.memoryDialogue|)]
    else if |mc.normalDialogue| > 0 then
      mc.normalDialogue[IntIn(u, 0, |mc.normalDialogue|)]
    else "..."
  }

  /** `RevealSecret()`: only for a revealing NPC, and only once. */
  function RevealSecret(mc: MemoryComponent): (r: MemoryComponent)
    requires Valid(mc)
    ensures Valid(r)
    ensures !mc.revealsSecretAfterMemory || mc.hasRevealed ==> r == mc
    ensures mc.revealsSecretAfterMemory && !mc.hasRevealed ==>
      && r.hasRevealed
      && r.secretObject == (if mc.secretObject.Some? then Some(true) else None)
      && r == mc.(hasRevealed := true, secretObject := r.secretObject, effectsShown := 1)
  {
    if !mc.revealsSecretAfterMemory || mc.hasRevealed then mc
    else
      var secret := if mc.secretObject.Some? then Some(true) else None;
      mc.(hasRevealed := true, secretObject := secret, effectsShown := mc.effectsShown + 1)
  }

  /**
   `OnLoopCountChanged(n)`: the new count is ignored and the manager's count
   read instead; a reveal is attempted only when remembering and not yet revealed.
   */
  function OnLoopCountChanged(mc: MemoryComponent, loop: Option<TimeLoop.Manager>, newLoopCount: int): (r: MemoryComponent)
    requires Valid(mc)
    ensures Valid(r)
    ensures !RemembersPreviousLoops(mc, loop) ==> r == mc
    ensures RemembersPreviousLoops(mc, loop) && !mc.hasRevealed ==> r == RevealSecret(mc)
    ensures mc.hasRevealed ==> r == mc
  {
    if RemembersPreviousLoops(mc, loop) && !mc.hasRevealed then RevealSecret(mc) else mc
  }

  /**
   Over any sequence of loop-count notifications the memory effect is shown at
   most once, and a component that does not reveal secrets never shows it.
   */
  lemma {:induction false} RevealAtMostOnce(mc: MemoryComponent, loops: seq<Option<TimeLoop.Manager>>)
    requires Valid(mc)
    ensures Valid(Notify(mc, loops))
    ensures Notify(mc, loops).effectsShown <= 1
    ensures !mc.revealsSecretAfterMemory ==> Notify(mc, loops) == mc
    ensures mc.hasRevealed ==> Notify(mc, loops) == mc
    decreases |loops|
  {
    if |loops| > 0 {
      RevealAtMostOnce(OnLoopCountChanged(mc, loops[0], 0), loops[1..]);
    }
  }

  /** A run of notifications, one per loop-count change, each seeing the manager at that moment. */
  function Notify(mc: MemoryComponent, loops: seq<Option<TimeLoop.Manager>>): (r: MemoryComponent)
    requires Valid(mc)
    decreases |loops|
  {
    if |loops| == 0 then mc else Notify(OnLoopCountChanged(mc, loops[0], BestDialogue.CurrentLoop(loops[0])), loops[1..])
  }
}

=== FILE: numerals.dfy ===
/**
 Decimal text of integers as C# string interpolation writes it: `{n}` for the
 plain decimal numeral and `{n:00}` for the numeral padded to two digits.
 */
module Numerals {

  predicate IsDigit(c: char) {
    '0' <= c <= '9'
  }

  predicate AllDigits(s: string) {
    forall k :: 0 <= k < |s| ==> IsDigit(s[k])
  }

  /** The digit character for `d`. */
  function DigitChar(d: nat): (c: char)
    requires d < 10
    ensures IsDigit(c) && (c as int) - ('0' as int) == d
  {
    ('0' as int + d) as char
  }

  /** The value of a digit character. */
  function DigitValue(c: char): (d: nat)
    requires IsDigit(c)
    ensures d < 10
  {
    (c as int) - ('0' as int)
  }

  /** `n.ToString()` for `n >= 0`: digits only, and no leading zero except for 0 itself. */
  function NatToString(n: nat): (s: string)
    ensures |s| >= 1 && AllDigits(s)
    ensures s[0] == '0' <==> n == 0
    ensures n < 10 <==> |s| == 1
    ensures 10 <= n < 100 <==> |s| == 2
    decreases n
  {
    if n < 10 then [DigitChar(n)] else NatToString(n / 10) + [DigitChar(n % 10)]
  }

  /** The value a string of digits denotes. */
  function ParseNat(s: string): (n: nat)
    requires AllDigits(s)
    decreases |s|
  {
    if |s| == 0 then 0 else ParseNat(s[..|s| - 1]) * 10 + DigitValue(s[|s| - 1])
  }

  /** Reading a numeral back gives the number written. */
  lemma {:induction false} ParseNatToString(n: nat)
    ensures ParseNat(NatToString(n)) == n
    decreases n
  {
    var s := NatToString(n);
    if n >= 10 {
      ParseNatToString(n / 10);
      assert s[..|s| - 1] == NatToString(n / 10);
    }
  }

  /** Two numbers with the same numeral are equal. */
  lemma NatToStringInjective(a: nat, b: nat)
    requires NatToString(a) == NatToString(b)
    ensures a == b
  {
    ParseNatToString(a);
    ParseNatToString(b);
  }

  /** `i.ToString()`: a minus sign before the numeral of a negative number. */
  function IntToString(i: int): (s: string)
    ensures i >= 0 ==> s == NatToString(i)
    ensures i < 0 ==> |s| >= 2 && s[0] == '-' && s[1..] == NatToString(-i)
  {
    if i < 0 then "-" + NatToString(-i) else NatToString(i)
  }

  /** The numeral of `n`, with a leading zero when it has a single digit. */
  function Pad2(n: nat): (s: string)
    ensures |s| >= 2 && AllDigits(s)
    ensures n < 100 ==> |s| == 2
  {
    if n < 10 then "0" + NatToString(n) else NatToString(n)
  }

  /** A padded numeral reads back as the number written. */
  lemma ParsePad2(n: nat)
    ensures ParseNat(Pad2(n)) == n
  {
    ParseNatToString(n);
    if n < 10 {
      assert Pad2(n)[..1] == "0";
    }
  }

  /** `i.ToString("00")`: the sign, then at least two digits. */
  function Format00(i: int): (s: string)
    ensures i >= 0 ==> s == Pad2(i)
    ensures i < 0 ==> s == "-" + Pad2(-i)
  {
    if i < 0 then "-" + Pad2(-i) else Pad2(i)
  }
}

=== FILE: object_pool.dfy ===
/**
 The generic object pool (`ObjectPool<T>` under `Scripts/Core`): a first-in,
 first-out queue of inactive objects. Objects are named by ids; a new object
 from `Object.Instantiate` is an id the pool has never seen, given by the
 caller.
 */
module ObjectPool {
  import opened Common

  /** The queue of pooled objects and the active flag of every object the pool has handled. */
  datatype Pool = Pool(queue: seq<nat>, objects: map<nat, bool>)

  /** Every queued object is one the pool knows. */
  predicate Valid(p: Pool) {
    forall k :: 0 <= k < |p.queue| ==> p.queue[k] in p.objects
  }

  /** The constructor's loop over the objects instantiated, in order. */
  function Fill(p: Pool, made: seq<nat>): (r: Pool)
    requires Valid(p)
    requires NoDuplicates(made) && forall k :: 0 <= k < |made| ==> made[k] !in p.objects
    ensures Valid(r)
    ensures r.queue == p.queue + made
    ensures r.objects.Keys == p.objects.Keys + set k | 0 <= k < |made| :: made[k]
    ensures forall id :: id in p.objects ==> r.objects[id] == p.objects[id]
    ensures forall k :: 0 <= k < |made| ==> !r.objects[made[k]]
    decreases |made|
  {
    if |made| == 0 then p
    else
      var id := made[|made| - 1];
      var p' := Fill(p, made[..|made| - 1]);
      assert id !in p'.objects by {
        assert forall k :: 0 <= k < |made| - 1 ==> made[k] != id;
      }
      Pool(p'.queue + [id], p'.objects[id := false])
  }

  /**
   `new ObjectPool(prefab, initialSize)`, with the objects instantiated: the
   pool starts with exactly `initialSize` inactive objects queued (none for a
   negative size).
   */
  function Create(initialSize: int, made: seq<nat>): (p: Pool)
    requires |made| == MaxInt(initialSize, 0) && NoDuplicates(made)
    ensures Valid(p)
    ensures p.queue == made && |p.queue| == MaxInt(initialSize, 0)
    ensures forall k :: 0 <= k < |made| ==> made[k] in p.objects && !p.objects[made[k]]
  {
    Fill(Pool([], map[]), made)
  }

  /**
   `Get()`, with the object `Instantiate` would make: a non-empty pool hands out
   its oldest object and shrinks by one; an empty pool makes a new object and
   stays empty. Either way the object handed out is active.
   */
  function Get(p: Pool, newObj: nat): (r: (nat, Pool))
    requires Valid(p)
    requires |p.queue| == 0 ==> newObj !in p.objects
    ensures Valid(r.1)
    ensures r.1.objects.Keys >= p.objects.Keys
    ensures r.0 in r.1.objects && r.1.objects[r.0]
    ensures |p.queue| > 0 ==> r.0 == p.queue[0] && r.1.queue == p.queue[1..]
    ensures |p.queue| == 0 ==> r.0 == newObj && r.1.queue == []
    ensures forall id :: id in p.objects && id != r.0 ==> r.1.objects[id] == p.objects[id]
  {
    var obj := if |p.queue| > 0 then p.queue[0] else newObj;
    var queue := if |p.queue| > 0 then p.queue[1..] else [];
    var r := Pool(queue, p.objects[obj := true]);
    assert forall k :: 0 <= k < |queue| ==> queue[k] == p.queue[k + 1];
    (obj, r)
  }

  /** `Return(obj)`: the object is deactivated and queued at the back, even if it is queued already. */
  function Return(p: Pool, obj: nat): (r: Pool)
    requires Valid(p)
    ensures Valid(r)
    ensures r.queue == p.queue + [obj]
    ensures r.objects.Keys == p.objects.Keys + {obj}
    ensures !r.objects[obj]
    ensures forall id :: id in p.objects && id != obj ==> r.objects[id] == p.objects[id]
  {
    Pool(p.queue + [obj], p.objects[obj := false])
  }

  /** Returning several objects, in order. */
  function ReturnAll(p: Pool, objs: seq<nat>): (r: Pool)
    requires Valid(p)
    ensures Valid(r)
    ensures r.queue == p.queue + objs
    decreases |objs|
  {
    if |objs| == 0 then p
    else
      var r := ReturnAll(p, objs[..|objs| - 1]);
      assert objs[..|objs| - 1] + [objs[|objs| - 1]] == objs;
      Return(r, objs[|objs| - 1])
  }

  /** `n` calls of `Get()` on a pool holding at least `n` objects: the objects handed out, in order. */
  function GetMany(p: Pool, n: nat): (r: (seq<nat>, Pool))
    requires Valid(p) && n <= |p.queue|
    ensures Valid(r.1)
    decreases n
  {
    if n == 0 then ([], p)
    else
      var (obj, p') := Get(p, 0);
      var (rest, p'') := GetMany(p', n - 1);
      ([obj] + rest, p'')
  }

  /**
   The pool is first in, first out: the objects handed out by successive calls
   are the queued ones in order, and the pool keeps the rest.
   */
  lemma {:induction false} GetManyInOrder(p: Pool, n: nat)
    requires Valid(p) && n <= |p.queue|
    ensures GetMany(p, n).0 == p.queue[..n] && GetMany(p, n).1.queue == p.queue[n..]
    decreases n
  {
    if n > 0 {
      var (obj, p') := Get(p, 0);
      GetManyInOrder(p', n - 1);
      assert p.queue[..n] == [p.queue[0]] + p'.queue[..n - 1];
      assert p'.queue[n - 1..] == p.queue[n..];
    }
  }

  /** Objects returned to a pool come back out after those already queued, in the order returned. */
  lemma {:induction false} ReturnedComeBackInOrder(p: Pool, objs: seq<nat>)
    requires Valid(p)
    ensures var r := ReturnAll(p, objs);
      GetMany(r, |p.queue| + |objs|).0 == p.queue + objs
  {
    var r := ReturnAll(p, objs);
    var n := |p.queue| + |objs|;
    assert |r.queue| == n;
    GetManyInOrder(r, n);
    assert r.queue[..n] == r.queue;
  }
}

=== FILE: props.dfy ===
/**
 Street props (`ProceduralPropGenerator`): cylinders and latitude/longitude
 spheres appended to shared vertex, uv and index lists, and the tree and
 street-light meshes built from them. Vertex positions involve sines and
 cosines, so a vertex is named by the ring or grid step it was computed from;
 a uv coordinate is named by the integer quotient it was computed from.
 */
module Props {
  import opened Common
  import opened Mesh

  /** A cylinder's bottom centre, height, radius and segment count. */
  datatype Cylinder = Cylinder(start: Vec3, height: real, radius: real, segments: int)

  /** A sphere's centre, radius and latitude and longitude step counts. */
  datatype Sphere = Sphere(center: Vec3, radius: real, latSegments: int, longSegments: int)

  /**
   A prop vertex: the point at angle step `i` on a cylinder's bottom or top
   ring, or the sphere point at latitude step `lat` and longitude step `lon`.
   */
  datatype PropVertex = Ring(cyl: Cylinder, i: int, top: bool) | Globe(sph: Sphere, lat: int, lon: int)

  /** The float quotient `(float)num / den`; a zero denominator gives NaN or infinity. */
  datatype Ratio = Ratio(num: int, den: int)

  /** A uv pair of quotients. */
  datatype PropUv = PropUv(u: Ratio, v: Ratio)

  type PropMesh = MeshBuf<PropVertex, PropUv>

  /** A quotient that lies in [0, 1]. */
  predicate InUnit(q: Ratio) {
    q.den > 0 && 0 <= q.num <= q.den
  }

  /** The number of passes of a loop `for (i = 0; i <= n; i++)`. */
  function Steps(n: int): nat {
    if n >= 0 then n + 1 else 0
  }

  // Cylinder

  /** The vertices of the first `n` passes of the ring loop: a bottom and a top point per pass. */
  function RingVertices(c: Cylinder, n: nat): (vs: seq<PropVertex>)
    ensures |vs| == 2 * n
  {
    if n == 0 then [] else RingVertices(c, n - 1) + [Ring(c, n - 1, false), Ring(c, n - 1, true)]
  }

  /** The uvs of the first `n` passes: (i / segments, 0) below and (i / segments, 1) above. */
  function RingUvs(c: Cylinder, n: nat): (us: seq<PropUv>)
    ensures |us| == 2 * n
  {
    if n == 0 then []
    else RingUvs(c, n - 1) + [PropUv(Ratio(n - 1, c.segments), Ratio(0, 1)), PropUv(Ratio(n - 1, c.segments), Ratio(1, 1))]
  }

  /**
   The side quad between ring points `i` and `i + 1`, whose bottom points are
   `current` and `next`: triangles (current, current+1, next+1) and
   (current, next+1, next).
   */
  function CylinderQuad(base: int, i: int): seq<int> {
    var current := base + 2 * i;
    var next := base + 2 * (i + 1);
    [current, current + 1, next + 1, current, next + 1, next]
  }

  /** The indices of the first `n` side quads. */
  function CylinderIndices(base: int, n: nat): (t: seq<int>)
    ensures |t| == 6 * n
  {
    if n == 0 then [] else CylinderIndices(base, n - 1) + CylinderQuad(base, n - 1)
  }

  /** The first `n` side quads only name the `2(n + 1)` ring points from `base` on. */
  lemma {:induction false} CylinderIndicesBounds(base: int, n: nat)
    ensures forall j :: 0 <= j < |CylinderIndices(base, n)| ==>
      base <= CylinderIndices(base, n)[j] < base + 2 * (n + 1)
  {
    if n > 0 {
      CylinderIndicesBounds(base, n - 1);
      var t := CylinderIndices(base, n);
      forall j | 0 <= j < |t|
        ensures base <= t[j] < base + 2 * (n + 1)
      {
        if j >= 6 * (n - 1) {
          assert t[j] == CylinderQuad(base, n - 1)[j - 6 * (n - 1)];
        } else {
          assert t[j] == CylinderIndices(base, n - 1)[j];
        }
      }
    }
  }

  /** With at least one segment every cylinder uv lies in the unit square. */
  lemma {:induction false} RingUvsInUnit(c: Cylinder, n: nat)
    requires c.segments > 0 && n <= c.segments + 1
    ensures forall j :: 0 <= j < |RingUvs(c, n)| ==> InUnit(RingUvs(c, n)[j].u) && InUnit(RingUvs(c, n)[j].v)
  {
    if n > 0 {
      RingUvsInUnit(c, n - 1);
      var us := RingUvs(c, n);
      forall j | 0 <= j < |us|
        ensures InUnit(us[j].u) && InUnit(us[j].v)
      {
        if j < 2 * (n - 1) {
          assert us[j] == RingUvs(c, n - 1)[j];
        }
      }
    }
  }

  /**
   `GenerateCylinder(verts, tris, uvs, start, height, radius, segments)`:
   `segments + 1` ring passes append a bottom and a top point each, with their
   uvs, and `segments` side quads append six indices each, all naming the new
   points. A negative count appends nothing; a zero count appends one pair of
   points and no indices.
   */
  method GenerateCylinder(m: PropMesh, c: Cylinder) returns (r: PropMesh)
    ensures r.vertices == m.vertices + RingVertices(c, Steps(c.segments))
    ensures r.uvs == m.uvs + RingUvs(c, Steps(c.segments))
    ensures r.triangles == m.triangles + CylinderIndices(|m.vertices|, MaxInt(c.segments, 0))
    ensures |r.vertices| == |m.vertices| + 2 * Steps(c.segments)
    ensures |r.triangles| == |m.triangles| + 6 * MaxInt(c.segments, 0)
    ensures forall j :: |m.triangles| <= j < |r.triangles| ==> |m.vertices| <= r.triangles[j] < |r.vertices|
    ensures WellFormed(m) ==> WellFormed(r)
  {
    var verts, uvs := CylinderPoints(m, c);
    var tris := CylinderTriangles(m, c);
    var n := MaxInt(c.segments, 0);
    CylinderIndicesBounds(|m.vertices|, n);
    assert 3 * (2 * n) == 6 * n;
    AppendWithin(m.triangles, CylinderIndices(|m.vertices|, n), |m.vertices|, |verts|);
    r := MeshBuf(verts, uvs, tris);
  }

  /** The ring loop of `GenerateCylinder`: a bottom and a top point per pass. */
  method CylinderPoints(m: PropMesh, c: Cylinder) returns (verts: seq<PropVertex>, uvs: seq<PropUv>)
    ensures verts == m.vertices + RingVertices(c, Steps(c.segments))
    ensures uvs == m.uvs + RingUvs(c, Steps(c.segments))
  {
    verts, uvs := m.vertices, m.uvs;
    var i := 0;
    while i <= c.segments
      invariant 0 <= i <= Steps(c.segments)
      invariant verts == m.vertices + RingVertices(c, i)
      invariant uvs == m.uvs + RingUvs(c, i)
    {
      verts := verts + [Ring(c, i, false), Ring(c, i, true)];
      uvs := uvs + [PropUv(Ratio(i, c.segments), Ratio(0, 1)), PropUv(Ratio(i, c.segments), Ratio(1, 1))];
      i := i + 1;
    }
  }

  /** The side loop of `GenerateCylinder`: six indices per segment. */
  method CylinderTriangles(m: PropMesh, c: Cylinder) returns (tris: seq<int>)
    ensures tris == m.triangles + CylinderIndices(|m.vertices|, MaxInt(c.segments, 0))
  {
    var base := |m.vertices|;
    tris := m.triangles;
    var k := 0;
    while k < c.segments
      invariant 0 <= k <= MaxInt(c.segments, 0)
      invariant tris == m.triangles + CylinderIndices(base, k)
    {
      var current := base + k * 2;
      var next := base + (k + 1) * 2;
      tris := tris + [current, current + 1, next + 1, current, next + 1, next];
      k := k + 1;
    }
  }

  // Sphere

  /** The first `n` points of latitude row `lat`. */
  function RowVertices(s: Sphere, lat: int, n: nat): (vs: seq<PropVertex>)
    ensures |vs| == n
  {
    if n == 0 then [] else RowVertices(s, lat, n - 1) + [Globe(s, lat, n - 1)]
  }

  /** The uvs of the first `n` points of row `lat`: (lon / longSegments, lat / latSegments). */
  function RowUvs(s: Sphere, lat: int, n: nat): (us: seq<PropUv>)
    ensures |us| == n
  {
    if n == 0 then [] else RowUvs(s, lat, n - 1) + [PropUv(Ratio(n - 1, s.longSegments), Ratio(lat, s.latSegments))]
  }

  /** The points of the first `k` latitude rows, each a full pass of the longitude loop. */
  function GlobeVertices(s: Sphere, k: nat): (vs: seq<PropVertex>)
    ensures |vs| == k * Steps(s.longSegments)
  {
    if k == 0 then [] else GlobeVertices(s, k - 1) + RowVertices(s, k - 1, Steps(s.longSegments))
  }

  /** The uvs of the first `k` latitude rows. */
  function GlobeUvs(s: Sphere, k: nat): (us: seq<PropUv>)
    ensures |us| == k * Steps(s.longSegments)
  {
    if k == 0 then [] else GlobeUvs(s, k - 1) + RowUvs(s, k - 1, Steps(s.longSegments))
  }

  /**
   The quad at grid step (lat, lon) of a sphere with `cols` longitude steps:
   `current` is its point and `next` the point a row further.
   */
  function SphereQuad(base: int, cols: int, lat: int, lon: int): seq<int> {
    var current := base + lat * (cols + 1) + lon;
    var next := current + cols + 1;
    [current, current + 1, next + 1, current, next + 1, next]
  }

  /** The first `n` quads of row `lat`. */
  function RowIndices(base: int, cols: int, lat: int, n: nat): (t: seq<int>)
    ensures |t| == 6 * n
  {
    if n == 0 then [] else RowIndices(base, cols, lat, n - 1) + SphereQuad(base, cols, lat, n - 1)
  }

  /** The quads of the first `k` rows. */
  function SphereIndices(base: int, cols: int, k: nat): (t: seq<int>)
    ensures |t| == 6 * k * MaxInt(cols, 0)
  {
    if k == 0 then []
    else
      var t := SphereIndices(base, cols, k - 1) + RowIndices(base, cols, k - 1, MaxInt(cols, 0));
      assert 6 * (k - 1) * MaxInt(cols, 0) + 6 * MaxInt(cols, 0) == 6 * k * MaxInt(cols, 0);
      t
  }

  /** The first point of row `lat`. */
  function RowStart(base: int, cols: int, lat: int): int {
    base + lat * (cols + 1)
  }

  /** One row further is `cols + 1` points further. */
  lemma RowStep(base: int, cols: int, lat: int)
    ensures RowStart(base, cols, lat + 1) == RowStart(base, cols, lat) + cols + 1
  {
    assert (lat + 1) * (cols + 1) == lat * (cols + 1) + cols + 1;
  }

  /** The quads of row `lat` only name points of that row and the next. */
  lemma {:induction false} RowIndicesBounds(base: int, cols: int, lat: int, n: nat)
    requires n <= cols
    ensures forall j :: 0 <= j < |RowIndices(base, cols, lat, n)| ==>
      RowStart(base, cols, lat) <= RowIndices(base, cols, lat, n)[j] < RowStart(base, cols, lat + 2)
  {
    if n > 0 {
      RowIndicesBounds(base, cols, lat, n - 1);
      RowStep(base, cols, lat);
      RowStep(base, cols, lat + 1);
      var t := RowIndices(base, cols, lat, n);
      forall j | 0 <= j < |t|
        ensures RowStart(base, cols, lat) <= t[j] < RowStart(base, cols, lat + 2)
      {
        if j >= 6 * (n - 1) {
          assert t[j] == SphereQuad(base, cols, lat, n - 1)[j - 6 * (n - 1)];
        } else {
          assert t[j] == RowIndices(base, cols, lat, n - 1)[j];
        }
      }
    }
  }

  /** The quads of the first `k` rows only name points of the first `k + 1` rows. */
  lemma {:induction false} SphereIndicesBounds(base: int, cols: int, k: nat)
    ensures forall j :: 0 <= j < |SphereIndices(base, cols, k)| ==>
      base <= SphereIndices(base, cols, k)[j] < RowStart(base, cols, k + 1)
  {
    if k > 0 && cols > 0 {
      SphereIndicesBounds(base, cols, k - 1);
      RowIndicesBounds(base, cols, k - 1, cols);
      RowStep(base, cols, k);
      assert 0 <= (k - 1) * (cols + 1);
      var prev := SphereIndices(base, cols, k - 1);
      var row := RowIndices(base, cols, k - 1, cols);
      var t := SphereIndices(base, cols, k);
      assert t == prev + row;
      forall j | 0 <= j < |t|
        ensures base <= t[j] < RowStart(base, cols, k + 1)
      {
        if j < |prev| {
          assert t[j] == prev[j];
        } else {
          assert t[j] == row[j - |prev|];
        }
      }
    }
  }

  /** With at least one step each way every sphere uv lies in the unit square. */
  lemma {:induction false} RowUvsInUnit(s: Sphere, lat: int, n: nat)
    requires s.latSegments > 0 && s.longSegments > 0
    requires 0 <= lat <= s.latSegments && n <= s.longSegments + 1
    ensures forall j :: 0 <= j < |RowUvs(s, lat, n)| ==> InUnit(RowUvs(s, lat, n)[j].u) && InUnit(RowUvs(s, lat, n)[j].v)
  {
    if n > 0 {
      RowUvsInUnit(s, lat, n - 1);
      var us := RowUvs(s, lat, n);
      forall j | 0 <= j < |us|
        ensures InUnit(us[j].u) && InUnit(us[j].v)
      {
        if j < n - 1 {
          assert us[j] == RowUvs(s, lat, n - 1)[j];
        }
      }
    }
  }

  /** Every uv of the first `k` rows lies in the unit square. */
  lemma {:induction false} GlobeUvsInUnit(s: Sphere, k: nat)
    requires s.latSegments > 0 && s.longSegments > 0 && k <= s.latSegments + 1
    ensures forall j :: 0 <= j < |GlobeUvs(s, k)| ==> InUnit(GlobeUvs(s, k)[j].u) && InUnit(GlobeUvs(s, k)[j].v)
  {
    if k > 0 {
      GlobeUvsInUnit(s, k - 1);
      RowUvsInUnit(s, k - 1, Steps(s.longSegments));
      var prev := GlobeUvs(s, k - 1);
      var row := RowUvs(s, k - 1, Steps(s.longSegments));
      var us := GlobeUvs(s, k);
      forall j | 0 <= j < |us|
        ensures InUnit(us[j].u) && InUnit(us[j].v)
      {
        if j < |prev| {
          assert us[j] == prev[j];
        } else {
          assert us[j] == row[j - |prev|];
        }
      }
    }
  }

  /** The vertex loops of `GenerateSphere`: one row per latitude pass. */
  method SpherePoints(m: PropMesh, s: Sphere) returns (verts: seq<PropVertex>, uvs: seq<PropUv>)
    ensures verts == m.vertices + GlobeVertices(s, Steps(s.latSegments))
    ensures uvs == m.uvs + GlobeUvs(s, Steps(s.latSegments))
  {
    verts, uvs := m.vertices, m.uvs;
    var lat := 0;
    while lat <= s.latSegments
      invariant 0 <= lat <= Steps(s.latSegments)
      invariant verts == m.vertices + GlobeVertices(s, lat)
      invariant uvs == m.uvs + GlobeUvs(s, lat)
    {
      var rowVerts, rowUvs := SphereRow(s, lat);
      verts, uvs := verts + rowVerts, uvs + rowUvs;
      lat := lat + 1;
    }
  }

  /** The inner vertex loop of `GenerateSphere`: one point per longitude pass of row `lat`. */
  method SphereRow(s: Sphere, lat: int) returns (verts: seq<PropVertex>, uvs: seq<PropUv>)
    ensures verts == RowVertices(s, lat, Steps(s.longSegments))
    ensures uvs == RowUvs(s, lat, Steps(s.longSegments))
  {
    verts, uvs := [], [];
    var lon := 0;
    while lon <= s.longSegments
      invariant 0 <= lon <= Steps(s.longSegments)
      invariant verts == RowVertices(s, lat, lon)
      invariant uvs == RowUvs(s, lat, lon)
    {
      verts := verts + [Globe(s, lat, lon)];
      uvs := uvs + [PropUv(Ratio(lon, s.longSegments), Ratio(lat, s.latSegments))];
      lon := lon + 1;
    }
  }

  /** The index loops of `GenerateSphere`: one pass per row of quads, one quad per longitude step. */
  method SphereTriangles(m: PropMesh, s: Sphere) returns (tris: seq<int>)
    ensures tris == m.triangles + SphereIndices(|m.vertices|, s.longSegments, MaxInt(s.latSegments, 0))
  {
    var base := |m.vertices|;
    tris := m.triangles;
    var lat := 0;
    while lat < s.latSegments
      invariant 0 <= lat <= MaxInt(s.latSegments, 0)
      invariant tris == m.triangles + SphereIndices(base, s.longSegments, lat)
    {
      var row := SphereRowTriangles(base, s.longSegments, lat);
      tris := tris + row;
      assert SphereIndices(base, s.longSegments, lat + 1)
        == SphereIndices(base, s.longSegments, lat) + RowIndices(base, s.longSegments, lat, MaxInt(s.longSegments, 0));
      lat := lat + 1;
    }
  }

  /** The inner index loop of `GenerateSphere`: the quads of row `lat`, one per longitude step. */
  method SphereRowTriangles(base: nat, longSegments: int, lat: nat) returns (row: seq<int>)
    ensures row == RowIndices(base, longSegments, lat, MaxInt(longSegments, 0))
  {
    row := [];
    var lon := 0;
    while lon < longSegments
      invariant 0 <= lon <= MaxInt(longSegments, 0)
      invariant row == RowIndices(base, longSegments, lat, lon)
    {
      row := row + SphereQuad(base, longSegments, lat, lon);
      lon := lon + 1;
    }
  }

  /**
   `GenerateSphere(verts, tris, uvs, center, radius, latSegments, longSegments)`:
   `(lat + 1)(lon + 1)` grid points with their uvs, row by row, and six indices
   for each of the `lat × lon` grid quads, all naming the new points. A negative
   count appends no points; a zero count appends no indices.
   */
  method GenerateSphere(m: PropMesh, s: Sphere) returns (r: PropMesh)
    ensures r.vertices == m.vertices + GlobeVertices(s, Steps(s.latSegments))
    ensures r.uvs == m.uvs + GlobeUvs(s, Steps(s.latSegments))
    ensures r.triangles == m.triangles + SphereIndices(|m.vertices|, s.longSegments, MaxInt(s.latSegments, 0))
    ensures |r.vertices| == |m.vertices| + Steps(s.latSegments) * Steps(s.longSegments)
    ensures |r.triangles| == |m.triangles| + 6 * MaxInt(s.latSegments, 0) * MaxInt(s.longSegments, 0)
    ensures forall j :: |m.triangles| <= j < |r.triangles| ==> |m.vertices| <= r.triangles[j] < |r.vertices|
    ensures WellFormed(m) ==> WellFormed(r)
  {
    var verts, uvs := SpherePoints(m, s);
    var tris := SphereTriangles(m, s);
    var added := SphereIndices(|m.vertices|, s.longSegments, MaxInt(s.latSegments, 0));
    SphereIndicesWithin(|m.vertices|, s);
    AppendWithin(m.triangles, added, |m.vertices|, |verts|);
    r := MeshBuf(verts, uvs, tris);
  }

  /** The indices a sphere appends name only its own points, and come in whole triangles. */
  lemma SphereIndicesWithin(base: nat, s: Sphere)
    ensures var added := SphereIndices(base, s.longSegments, MaxInt(s.latSegments, 0));
      && |added| % 3 == 0
      && forall j :: 0 <= j < |added| ==> base <= added[j] < base + Steps(s.latSegments) * Steps(s.longSegments)
  {
    var k, cols := MaxInt(s.latSegments, 0), s.longSegments;
    SphereIndicesWhole(base, cols, k);
    if k > 0 && cols > 0 {
      SphereIndicesBounds(base, cols, k);
      SphereEnd(base, s);
    } else {
      SphereIndicesNone(base, cols, k);
    }
  }

  /** Six indices per quad make whole triangles. */
  lemma SphereIndicesWhole(base: int, cols: int, k: nat)
    ensures |SphereIndices(base, cols, k)| % 3 == 0
  {
    var n := 2 * k * MaxInt(cols, 0);
    assert |SphereIndices(base, cols, k)| == 3 * n;
    TripleIsWhole(n);
  }

  /** A multiple of three leaves no remainder. */
  lemma TripleIsWhole(n: int)
    ensures (3 * n) % 3 == 0
  {
  }

  /** Without a row or a column of quads there are no indices. */
  lemma SphereIndicesNone(base: int, cols: int, k: nat)
    requires k == 0 || cols <= 0
    ensures |SphereIndices(base, cols, k)| == 0
  {
    assert k == 0 || MaxInt(cols, 0) == 0;
  }

  /** The row after the last one starts right after the sphere's points. */
  lemma SphereEnd(base: int, s: Sphere)
    requires s.latSegments > 0 && s.longSegments > 0
    ensures RowStart(base, s.longSegments, s.latSegments + 1) == base + Steps(s.latSegments) * Steps(s.longSegments)
  {
    assert Steps(s.latSegments) == s.latSegments + 1 && Steps(s.longSegments) == s.longSegments + 1;
  }

  /**
   Appending whole triangles over the points from `lo` to `hi` to a buffer
   whose triangles name points below `lo` gives triangles naming points below `hi`.
   */
  lemma AppendWithin(prior: seq<int>, added: seq<int>, lo: int, hi: int)
    requires forall j :: 0 <= j < |added| ==> lo <= added[j] < hi
    ensures forall j :: |prior| <= j < |prior + added| ==> lo <= (prior + added)[j] < hi
    ensures |prior| % 3 == 0 && |added| % 3 == 0 && IndicesBelow(prior, lo) && 0 <= lo <= hi ==>
      |prior + added| % 3 == 0 && IndicesBelow(prior + added, hi)
  {
    assert forall j :: |prior| <= j < |prior + added| ==> (prior + added)[j] == added[j - |prior|];
    assert forall j :: 0 <= j < |prior| ==> (prior + added)[j] == prior[j];
  }

  // Props

  /** The trunk of a tree: eight segments, 0.3 of the tree's height, from the origin. */
  function Trunk(height: real, trunkRadius: real): Cylinder {
    Cylinder(Vec3(0.0, 0.0, 0.0), height * 0.3, trunkRadius, 8)
  }

  /** The foliage of a tree: an 8×8 sphere centred half its radius above the trunk top. */
  function Foliage(height: real, foliageRadius: real): Sphere {
    Sphere(Vec3(0.0, height * 0.3 + foliageRadius * 0.5, 0.0), foliageRadius, 8, 8)
  }

  /**
   `GenerateTree(height, trunkRadius, foliageRadius)`: the trunk's 18 points
   and 48 indices, then the foliage's 81 points and 384 indices.
   */
  method GenerateTree(height: real, trunkRadius: real, foliageRadius: real) returns (m: PropMesh)
    ensures WellFormed(m)
    ensures |m.vertices| == 99 && |m.uvs| == 99 && |m.triangles| == 432
    ensures forall j :: 0 <= j < 18 ==> m.vertices[j].Ring? && m.vertices[j].cyl == Trunk(height, trunkRadius)
    ensures forall j :: 18 <= j < 99 ==> m.vertices[j].Globe? && m.vertices[j].sph == Foliage(height, foliageRadius)
  {
    var trunk, foliage := Trunk(height, trunkRadius), Foliage(height, foliageRadius);
    var e: PropMesh := Empty();
    var t := GenerateCylinder(e, trunk);
    RingVerticesOf(trunk, Steps(trunk.segments));
    m := GenerateSphere(t, foliage);
    GlobeVerticesOf(foliage, Steps(foliage.latSegments));
    assert forall j :: 18 <= j < 99 ==> m.vertices[j] == GlobeVertices(foliage, Steps(foliage.latSegments))[j - 18];
  }

  /** The ring loop makes only points of its own cylinder. */
  lemma {:induction false} RingVerticesOf(c: Cylinder, n: nat)
    ensures forall j :: 0 <= j < |RingVertices(c, n)| ==> RingVertices(c, n)[j].Ring? && RingVertices(c, n)[j].cyl == c
  {
    if n > 0 {
      RingVerticesOf(c, n - 1);
      var vs := RingVertices(c, n);
      assert forall j :: 0 <= j < 2 * (n - 1) ==> vs[j] == RingVertices(c, n - 1)[j];
    }
  }

  /** The grid loops make only points of their own sphere. */
  lemma {:induction false} GlobeVerticesOf(s: Sphere, k: nat)
    ensures forall j :: 0 <= j < |GlobeVertices(s, k)| ==> GlobeVertices(s, k)[j].Globe? && GlobeVertices(s, k)[j].sph == s
  {
    if k > 0 {
      GlobeVerticesOf(s, k - 1);
      RowVerticesOf(s, k - 1, Steps(s.longSegments));
      var prev := GlobeVertices(s, k - 1);
      var row := RowVertices(s, k - 1, Steps(s.longSegments));
      assert GlobeVertices(s, k) == prev + row;
    }
  }

  /** A row of the grid loop makes only points of its own sphere. */
  lemma {:induction false} RowVerticesOf(s: Sphere, lat: int, n: nat)
    ensures forall j :: 0 <= j < n ==> RowVertices(s, lat, n)[j].Globe? && RowVertices(s, lat, n)[j].sph == s
  {
    if n > 0 {
      RowVerticesOf(s, lat, n - 1);
      assert forall j :: 0 <= j < n - 1 ==> RowVertices(s, lat, n)[j] == RowVertices(s, lat, n - 1)[j];
    }
  }

  /** `AddBox(...)`: the arm and lamp boxes are not implemented and append nothing. */
  function AddBox(m: PropMesh, start: Vec3, end: Vec3, width: real): (r: PropMesh)
    ensures r == m
  {
    m
  }

  /** The pole of a street light: six segments of radius 0.15 over the full height. */
  function Pole(height: real): Cylinder {
    Cylinder(Vec3(0.0, 0.0, 0.0), height, 0.15, 6)
  }

  /**
   `GenerateStreetLight(height)`: since both boxes append nothing, the mesh is
   the pole alone, 14 points and 36 indices.
   */
  method GenerateStreetLight(height: real) returns (m: PropMesh)
    ensures WellFormed(m)
    ensures |m.vertices| == 14 && |m.uvs| == 14 && |m.triangles| == 36
    ensures m.vertices == RingVertices(Pole(height), 7)
    ensures m.triangles == CylinderIndices(0, 6)
  {
    var e: PropMesh := Empty();
    m := GenerateCylinder(e, Pole(height));
    var armStart := Vec3(0.0, height - 0.2, 0.0);
    var armEnd := Vec3(0.0, height - 0.2, 1.5);
    m := AddBox(m, armStart, armEnd, 0.1);
    var lamp := Vec3(armEnd.x, armEnd.y - 0.2, armEnd.z);
    m := AddBox(m, Vec3(lamp.x - 0.2, lamp.y - 0.2, lamp.z - 0.2), Vec3(lamp.x + 0.2, lamp.y + 0.2, lamp.z + 0.2), 0.4);
  }

  /** A built cylinder's uvs lie in the unit square once it has a segment; with none they divide by zero. */
  lemma CylinderUvs(c: Cylinder)
    ensures c.segments > 0 ==>
      forall j :: 0 <= j < |RingUvs(c, Steps(c.segments))| ==> InUnit(RingUvs(c, Steps(c.segments))[j].u)
    ensures c.segments == 0 ==> RingUvs(c, Steps(c.segments))[0].u == Ratio(0, 0)
  {
    if c.segments > 0 {
      RingUvsInUnit(c, Steps(c.segments));
    }
  }

  /** A built sphere's uvs lie in the unit square once it has a step each way. */
  lemma SphereUvs(s: Sphere)
    requires s.latSegments > 0 && s.longSegments > 0
    ensures forall j :: 0 <= j < |GlobeUvs(s, Steps(s.latSegments))| ==>
      InUnit(GlobeUvs(s, Steps(s.latSegments))[j].u) && InUnit(GlobeUvs(s, Steps(s.latSegments))[j].v)
  {
    GlobeUvsInUnit(s, Steps(s.latSegments));
  }
}

=== FILE: random.dfy ===
/**
 Unity's global `UnityEngine.Random`, kept abstract. A generator maps a seed and
 a position to the value `Random.value` returns at that position after
 `Random.InitState(seed)`; nothing is assumed about how the values are produced,
 only that they are deterministic and lie in [0, 1]. Range draws are derived from
 one such value.
 */
module Random {
  import opened Common

  /** A value of `Random.value`: a real in [0, 1]. */
  type Fraction = r: real | 0.0 <= r <= 1.0

  /** The k-th value drawn after `Random.InitState(seed)` is `g(seed, k)`. */
  type Generator = (int, nat) -> Fraction

  /** The generator's position: the last seed set and how many values were drawn since. */
  datatype Stream = Stream(seed: int, drawn: nat)

  /** `Random.InitState(seed)`. */
  function InitState(seed: int): (s: Stream)
    ensures s.seed == seed && s.drawn == 0
  {
    Stream(seed, 0)
  }

  /** `Random.value`: the next value of the stream, and the advanced stream. */
  function Next(g: Generator, s: Stream): (r: (Fraction, Stream))
    ensures r.0 == g(s.seed, s.drawn)
    ensures r.1.seed == s.seed && r.1.drawn == s.drawn + 1
  {
    (g(s.seed, s.drawn), Stream(s.seed, s.drawn + 1))
  }

  /**
   `Random.Range(lo, hi)` on integers, computed from one value `u`: uniform over
   [lo, hi) when lo < hi, `lo` when they are equal, and over (hi, lo] when the
   bounds are reversed.
   */
  function IntIn(u: Fraction, lo: int, hi: int): (r: int)
    ensures lo < hi ==> lo <= r < hi
    ensures lo == hi ==> r == lo
    ensures hi < lo ==> hi < r <= lo
  {
    if lo < hi then
      var k := FloorToInt(u * (hi - lo) as real);
      FloorScaled(u, hi - lo);
      lo + (if k < hi - lo then k else hi - lo - 1)
    else if lo == hi then lo
    else
      var k := FloorToInt(u * (lo - hi) as real);
      FloorScaled(u, lo - hi);
      lo - (if k < lo - hi then k else lo - hi - 1)
  }

  lemma FloorScaled(u: Fraction, n: int)
    requires n > 0
    ensures 0 <= FloorToInt(u * n as real) <= n
  {
    assert 0.0 <= u * n as real <= n as real by {
      MulNonNegative(u, n as real);
      MulNonNegative(1.0 - u, n as real);
    }
  }

  /** `Random.Range(lo, hi)` on floats: both bounds inclusive, in either order. */
  function RealIn(u: Fraction, lo: real, hi: real): (r: real)
    ensures lo <= hi ==> lo <= r <= hi
    ensures hi <= lo ==> hi <= r <= lo
    ensures u == 0.0 ==> r == lo
    ensures u == 1.0 ==> r == hi
  {
    ScaledGap(lo, hi, u);
    lo + (hi - lo) * u
  }

  /** Drawing an integer range from the stream. */
  function NextInt(g: Generator, s: Stream, lo: int, hi: int): (r: (int, Stream))
    ensures lo < hi ==> lo <= r.0 < hi
    ensures r.0 == IntIn(g(s.seed, s.drawn), lo, hi)
    ensures r.1 == Stream(s.seed, s.drawn + 1)
  {
    var (u, s') := Next(g, s);
    (IntIn(u, lo, hi), s')
  }

  /** Drawing a float range from the stream. */
  function NextReal(g: Generator, s: Stream, lo: real, hi: real): (r: (real, Stream))
    ensures lo <= hi ==> lo <= r.0 <= hi
    ensures r.0 == RealIn(g(s.seed, s.drawn), lo, hi)
    ensures r.1 == Stream(s.seed, s.drawn + 1)
  {
    var (u, s') := Next(g, s);
    (RealIn(u, lo, hi), s')
  }

  /**
   The seed a component derives by adding a private offset to the loop seed,
   with C#'s unchecked 32-bit addition.
   */
  function CombineSeed(loopSeed: int, offset: int): (r: int)
    ensures IsInt32(r)
    ensures IsInt32(loopSeed + offset) ==> r == loopSeed + offset
  {
    WrapInt32(loopSeed + offset)
  }
}

=== FILE: road.dfy ===
/**
 The road network (`RoadNetworkGenerator`): a road piece is a five-quad cross
 section (sidewalk, curb, road, curb, sidewalk) stretched along its length;
 district loops are four pieces around a square; bridges are raised pieces on
 three pillars. Piece lengths are distances, which involve square roots, so
 they are passed in.
 */
module Road {
  import opened Common
  import opened Mesh

  const RoadWidth := 8.0
  const SidewalkWidth := 2.0
  const CurbHeight := 0.2

  /** A point of the cross section, at one end of the piece. */
  predicate OnProfile(p: Vec3, length: real, roadWidth: real, sidewalkWidth: real, curbHeight: real) {
    var halfRoad := roadWidth / 2.0;
    var total := halfRoad + sidewalkWidth;
    && (p.z == -length / 2.0 || p.z == length / 2.0)
    && (p.y == 0.0 || p.y == curbHeight)
    && (p.x == -total || p.x == -halfRoad || p.x == halfRoad || p.x == total)
  }

  /** The four corners of quad `k` of a corner list, in the order they were added. */
  function Quad(vs: seq<Vec3>, k: nat): (q: seq<Vec3>)
    requires 4 * k + 4 <= |vs|
    ensures |q| == 4
  {
    vs[4 * k..4 * k + 4]
  }

  /**
   A quad that runs the whole length of the piece: its first and last corners
   are at the near end and its middle two at the far end.
   */
  predicate SpansLength(q: seq<Vec3>, length: real)
    requires |q| == 4
  {
    && q[0].z == -length / 2.0 && q[3].z == -length / 2.0
    && q[1].z == length / 2.0 && q[2].z == length / 2.0
  }

  /** All corners of a quad are at height `y`. */
  predicate FlatAt(q: seq<Vec3>, y: real) {
    forall c :: 0 <= c < |q| ==> q[c].y == y
  }

  /** The twenty corners of the cross section, quad by quad from the left sidewalk to the right. */
  function RoadCorners(length: real, roadWidth: real, sidewalkWidth: real, curbHeight: real): (vs: seq<Vec3>)
    ensures |vs| == 20
  {
    var h := length / 2.0;
    var r := roadWidth / 2.0;
    var t := r + sidewalkWidth;
    var c := curbHeight;
    [Vec3(-t, c, -h), Vec3(-t, c, h), Vec3(-r, c, h), Vec3(-r, c, -h),
     Vec3(-r, c, -h), Vec3(-r, c, h), Vec3(-r, 0.0, h), Vec3(-r, 0.0, -h),
     Vec3(-r, 0.0, -h), Vec3(-r, 0.0, h), Vec3(r, 0.0, h), Vec3(r, 0.0, -h),
     Vec3(r, 0.0, -h), Vec3(r, 0.0, h), Vec3(r, c, h), Vec3(r, c, -h),
     Vec3(r, c, -h), Vec3(r, c, h), Vec3(t, c, h), Vec3(t, c, -h)]
  }

  /**
   `GenerateRoadMesh(length, roadWidth, sidewalkWidth, curbHeight)`: the left
   sidewalk top, the left curb face, the road surface, the right curb face and
   the right sidewalk top, one `AddQuad` each, across the piece from left to
   right.
   */
  function GenerateRoadMesh(length: real, roadWidth: real, sidewalkWidth: real, curbHeight: real): (m: MeshBuf<Vec3, Uv>)
    ensures QuadLayout(m, 5) && WellFormed(m)
    ensures |m.vertices| == 20 && |m.triangles| == 30
    ensures m.vertices == RoadCorners(length, roadWidth, sidewalkWidth, curbHeight)
  {
    var vs := RoadCorners(length, roadWidth, sidewalkWidth, curbHeight);
    CornersOfQuads(5);
    var m := AddQuads(Empty(), vs);
    AddQuadsLayout(Empty(), 0, vs);
    QuadLayoutWellFormed(m, 5);
    m
  }

  /**
   Every quad of the mesh runs the whole length of the piece; the road surface
   is flat at height 0 between -roadWidth/2 and roadWidth/2, and both sidewalk
   tops are flat at the curb height.
   */
  lemma RoadSurfaces(length: real, roadWidth: real, sidewalkWidth: real, curbHeight: real)
    ensures var vs := RoadCorners(length, roadWidth, sidewalkWidth, curbHeight);
      && (forall k: nat :: k < 5 ==> SpansLength(Quad(vs, k), length))
      && FlatAt(Quad(vs, 0), curbHeight) && FlatAt(Quad(vs, 2), 0.0) && FlatAt(Quad(vs, 4), curbHeight)
      && (forall c :: 0 <= c < 4 ==> Quad(vs, 2)[c].x == -roadWidth / 2.0 || Quad(vs, 2)[c].x == roadWidth / 2.0)
  {
    var vs := RoadCorners(length, roadWidth, sidewalkWidth, curbHeight);
    forall k: nat | k < 5
      ensures SpansLength(Quad(vs, k), length)
    {
      QuadAt(vs, k);
    }
    QuadAt(vs, 0);
    QuadAt(vs, 2);
    QuadAt(vs, 4);
  }

  /** Quad `k` is the four corners from `4k` on. */
  lemma QuadAt(vs: seq<Vec3>, k: nat)
    requires 4 * k + 4 <= |vs|
    ensures Quad(vs, k) == [vs[4 * k], vs[4 * k + 1], vs[4 * k + 2], vs[4 * k + 3]]
  {
  }

  /**
   The cross section has no gaps: each quad starts along the edge where the one
   before it ended (its first two corners are the previous quad's last two, in
   reverse).
   */
  lemma ProfileIsConnected(length: real, roadWidth: real, sidewalkWidth: real, curbHeight: real)
    ensures var vs := RoadCorners(length, roadWidth, sidewalkWidth, curbHeight);
      forall k: nat :: 1 <= k < 5 ==> Quad(vs, k)[0] == Quad(vs, k - 1)[3] && Quad(vs, k)[1] == Quad(vs, k - 1)[2]
  {
    var vs := RoadCorners(length, roadWidth, sidewalkWidth, curbHeight);
    forall k: nat | 1 <= k < 5
      ensures Quad(vs, k)[0] == Quad(vs, k - 1)[3] && Quad(vs, k)[1] == Quad(vs, k - 1)[2]
    {
      QuadAt(vs, k);
      QuadAt(vs, k - 1);
      if k == 1 {
        assert vs[4] == vs[3] && vs[5] == vs[2];
      } else if k == 2 {
        assert vs[8] == vs[7] && vs[9] == vs[6];
      } else if k == 3 {
        assert vs[12] == vs[11] && vs[13] == vs[10];
      } else {
        assert vs[16] == vs[15] && vs[17] == vs[14];
      }
    }
  }

  /** Mirroring a point across the road's centre line. */
  function MirrorX(p: Vec3): Vec3 {
    Vec3(-p.x, p.y, p.z)
  }

  /** Quad `w` is quad `q` mirrored, its corners taken in reverse order. */
  predicate MirrorOf(w: seq<Vec3>, q: seq<Vec3>)
    requires |w| == 4 && |q| == 4
  {
    forall c :: 0 <= c < 4 ==> w[c] == MirrorX(q[3 - c])
  }

  /** The cross section is symmetric about the centre line: quad `4 - k` is quad `k` mirrored. */
  lemma ProfileIsSymmetric(length: real, roadWidth: real, sidewalkWidth: real, curbHeight: real)
    ensures var vs := RoadCorners(length, roadWidth, sidewalkWidth, curbHeight);
      forall k: nat :: k < 5 ==> MirrorOf(Quad(vs, 4 - k), Quad(vs, k))
  {
    var vs := RoadCorners(length, roadWidth, sidewalkWidth, curbHeight);
    forall k: nat | k < 5
      ensures MirrorOf(Quad(vs, 4 - k), Quad(vs, k))
    {
      var w, q := Quad(vs, 4 - k), Quad(vs, k);
      QuadAt(vs, 4 - k);
      QuadAt(vs, k);
      if k == 0 {
        assert MirrorOf(w, q);
      } else if k == 1 {
        assert MirrorOf(w, q);
      } else if k == 2 {
        assert MirrorOf(w, q);
      } else if k == 3 {
        assert MirrorOf(w, q);
      } else {
        assert MirrorOf(w, q);
      }
    }
  }

  /** Every corner of the mesh is on the cross section, at one end of the piece. */
  lemma CornersOnProfile(length: real, roadWidth: real, sidewalkWidth: real, curbHeight: real)
    ensures var vs := RoadCorners(length, roadWidth, sidewalkWidth, curbHeight);
      forall j :: 0 <= j < |vs| ==> OnProfile(vs[j], length, roadWidth, sidewalkWidth, curbHeight)
  {
  }

  /** A road piece to be created: its end points, its name and whether it is a bridge. */
  datatype Segment = Segment(start: Vec3, end: Vec3, name: string, isBridge: bool)

  function Add(a: Vec3, b: Vec3): Vec3 {
    Vec3(a.x + b.x, a.y + b.y, a.z + b.z)
  }

  /** The corners of a district loop: centre ± radius, north-east, south-east, south-west, north-west. */
  function LoopCorners(center: Vec3, radius: real): (p: seq<Vec3>)
    ensures |p| == 4
    ensures forall i :: 0 <= i < 4 ==> p[i].y == center.y
    ensures forall i :: 0 <= i < 4 ==>
      && (p[i].x == center.x + radius || p[i].x == center.x - radius)
      && (p[i].z == center.z + radius || p[i].z == center.z - radius)
  {
    [Add(center, Vec3(radius, 0.0, radius)), Add(center, Vec3(radius, 0.0, -radius)),
     Add(center, Vec3(-radius, 0.0, -radius)), Add(center, Vec3(-radius, 0.0, radius))]
  }

  /**
   `CreateDistrictLoop(center, radius, name)`: the east, south, west and north
   sides, each from one corner to the next, closing back at the first corner;
   none is a bridge.
   */
  function CreateDistrictLoop(center: Vec3, radius: real, name: string): (segs: seq<Segment>)
    ensures |segs| == 4
    ensures forall i :: 0 <= i < 4 ==> segs[i].start == LoopCorners(center, radius)[i] && !segs[i].isBridge
    ensures segs[0].end == segs[1].start && segs[1].end == segs[2].start
    ensures segs[2].end == segs[3].start && segs[3].end == segs[0].start
    ensures segs[0].name == name + "_East" && segs[1].name == name + "_South"
    ensures segs[2].name == name + "_West" && segs[3].name == name + "_North"
  {
    var p := LoopCorners(center, radius);
    [Segment(p[0], p[1], name + "_East", false), Segment(p[1], p[2], name + "_South", false),
     Segment(p[2], p[3], name + "_West", false), Segment(p[3], p[0], name + "_North", false)]
  }

  /**
   Each side of a loop runs along one axis, across the whole square: the east
   and west sides keep x and cover 2·radius of z, the south and north sides keep
   z and cover 2·radius of x.
   */
  lemma LoopSidesAreAxisAligned(center: Vec3, radius: real, name: string)
    ensures var s := CreateDistrictLoop(center, radius, name);
      && s[0].start.x == s[0].end.x && s[0].start.z - s[0].end.z == 2.0 * radius
      && s[1].start.z == s[1].end.z && s[1].start.x - s[1].end.x == 2.0 * radius
      && s[2].start.x == s[2].end.x && s[2].end.z - s[2].start.z == 2.0 * radius
      && s[3].start.z == s[3].end.z && s[3].end.x - s[3].start.x == 2.0 * radius
  {
  }

  /** `Vector3.Lerp(a, b, t)`. */
  function LerpV(a: Vec3, b: Vec3, t: real): Vec3 {
    Vec3(Lerp(a.x, b.x, t), Lerp(a.y, b.y, t), Lerp(a.z, b.z, t))
  }

  /** A pillar's position: the point dropped to the ground. */
  function Ground(p: Vec3): (g: Vec3)
    ensures g.y == 0.0 && g.x == p.x && g.z == p.z
  {
    Vec3(p.x, 0.0, p.z)
  }

  /**
   The pillars a bridge from `start` to `end` stands on, in the order they are
   created: under the midpoint, a quarter of the way along and three quarters
   of the way along, all on the ground.
   */
  function BridgePillars(start: Vec3, end: Vec3): (p: seq<Vec3>)
    ensures |p| == 3 && forall i :: 0 <= i < 3 ==> p[i].y == 0.0
    ensures p[0].x == (start.x + end.x) / 2.0 && p[0].z == (start.z + end.z) / 2.0
    ensures p[1].x == start.x + (end.x - start.x) * 0.25 && p[1].z == start.z + (end.z - start.z) * 0.25
    ensures p[2].x == start.x + (end.x - start.x) * 0.75 && p[2].z == start.z + (end.z - start.z) * 0.75
  {
    var mid := Vec3((start.x + end.x) / 2.0, (start.y + end.y) / 2.0, (start.z + end.z) / 2.0);
    [Ground(mid), Ground(LerpV(start, end, 0.25)), Ground(LerpV(start, end, 0.75))]
  }

  /** The pillars are evenly spaced: the middle one is halfway between the other two. */
  lemma PillarsEvenlySpaced(start: Vec3, end: Vec3)
    ensures var p := BridgePillars(start, end);
      p[0].x - p[1].x == p[2].x - p[0].x && p[0].z - p[1].z == p[2].z - p[0].z
  {
  }

  /** A bridge built the other way round stands on the same pillars, the outer two swapped. */
  lemma PillarsIgnoreDirection(start: Vec3, end: Vec3)
    ensures var p := BridgePillars(start, end);
      var q := BridgePillars(end, start);
      q[0] == p[0] && q[1] == p[2] && q[2] == p[1]
  {
  }

  /** What `CreateRoadSegment` places: the piece at the midpoint, two units higher for a bridge, and the bridge's pillars. */
  datatype Placed = Placed(position: Vec3, pillars: seq<Vec3>)

  function PlaceSegment(s: Segment): (r: Placed)
    ensures !s.isBridge ==> r.pillars == []
    ensures s.isBridge ==> r.pillars == BridgePillars(s.start, s.end)
    ensures r.position.x == (s.start.x + s.end.x) / 2.0 && r.position.z == (s.start.z + s.end.z) / 2.0
    ensures r.position.y == (s.start.y + s.end.y) / 2.0 + (if s.isBridge then 2.0 else 0.0)
  {
    var mid := Vec3((s.start.x + s.end.x) / 2.0, (s.start.y + s.end.y) / 2.0, (s.start.z + s.end.z) / 2.0);
    if s.isBridge then Placed(Add(mid, Vec3(0.0, 2.0, 0.0)), BridgePillars(s.start, s.end))
    else Placed(mid, [])
  }

  const MarineDrive := Vec3(0.0, 0.6, 0.0)
  const FortKochi := Vec3(-120.0, 0.6, 20.0)
  const Willingdon := Vec3(120.0, 0.6, -20.0)
  const Mangalavanam := Vec3(20.0, 0.6, 100.0)

  /** The pieces out of Marine Drive: bridges to Fort Kochi and Willingdon, a road to Mangalavanam. */
  function Links(): (segs: seq<Segment>)
    ensures |segs| == 3 && segs[0].isBridge && segs[1].isBridge && !segs[2].isBridge
    ensures segs[0].start == MarineDrive && segs[0].end == FortKochi
    ensures segs[1].start == MarineDrive && segs[1].end == Willingdon
  {
    [Segment(MarineDrive, FortKochi, "Bridge_Marine_Fort", true),
     Segment(MarineDrive, Willingdon, "Bridge_Marine_Willingdon", true),
     Segment(MarineDrive, Mangalavanam, "Road_Marine_Mangalavanam", false)]
  }

  /** The loops around Marine Drive (radius 30), Fort Kochi (20) and Willingdon (25). */
  function Loops(): (segs: seq<Segment>)
    ensures |segs| == 12 && forall i :: 0 <= i < 12 ==> !segs[i].isBridge
  {
    CreateDistrictLoop(MarineDrive, 30.0, "Loop_MarineDrive")
    + CreateDistrictLoop(FortKochi, 20.0, "Loop_FortKochi")
    + CreateDistrictLoop(Willingdon, 25.0, "Loop_Willingdon")
  }

  /**
   `GenerateNetwork()`: the links out of Marine Drive, then the district loops;
   only the first two pieces are bridges.
   */
  function GenerateNetwork(): (segs: seq<Segment>)
    ensures |segs| == 15
    ensures segs[0].isBridge && segs[1].isBridge && forall i :: 2 <= i < 15 ==> !segs[i].isBridge
    ensures segs[0].start == MarineDrive && segs[0].end == FortKochi
    ensures segs[1].start == MarineDrive && segs[1].end == Willingdon
  {
    Links() + Loops()
  }

  /** All the pillars the network's pieces stand on. */
  function AllPillars(segs: seq<Segment>): seq<Vec3> {
    if |segs| == 0 then [] else AllPillars(segs[..|segs| - 1]) + PlaceSegment(segs[|segs| - 1]).pillars
  }

  /** The pillars of two runs of pieces, one after the other. */
  lemma {:induction false} AllPillarsAppend(a: seq<Segment>, b: seq<Segment>)
    ensures AllPillars(a + b) == AllPillars(a) + AllPillars(b)
    decreases |b|
  {
    if |b| == 0 {
      assert a + b == a;
    } else {
      var n := |a + b|;
      assert (a + b)[..n - 1] == a + b[..|b| - 1];
      assert (a + b)[n - 1] == b[|b| - 1];
      AllPillarsAppend(a, b[..|b| - 1]);
    }
  }

  /** A run of pieces without bridges stands on no pillars. */
  lemma {:induction false} NoBridgesNoPillars(s: seq<Segment>)
    requires forall i :: 0 <= i < |s| ==> !s[i].isBridge
    ensures AllPillars(s) == []
    decreases |s|
  {
    if |s| > 0 {
      NoBridgesNoPillars(s[..|s| - 1]);
    }
  }

  /** Two pieces stand on the pillars of the first, then those of the second. */
  lemma PairPillars(x: Segment, y: Segment)
    ensures AllPillars([x, y]) == PlaceSegment(x).pillars + PlaceSegment(y).pillars
  {
    assert [x, y][..1] == [x] && [x][..0] == [];
    assert AllPillars([x]) == AllPillars([]) + PlaceSegment(x).pillars;
    assert AllPillars([x, y]) == AllPillars([x]) + PlaceSegment(y).pillars;
  }

  /** A run that starts with two bridges and has no other stands on the pillars of those two. */
  lemma {:induction false} TwoBridgesFirst(n: seq<Segment>)
    requires |n| >= 2 && n[0].isBridge && n[1].isBridge
    requires forall i :: 2 <= i < |n| ==> !n[i].isBridge
    ensures AllPillars(n) == BridgePillars(n[0].start, n[0].end) + BridgePillars(n[1].start, n[1].end)
  {
    var head, rest := n[..2], n[2..];
    NoBridgesNoPillars(rest);
    AllPillarsAppend(head, rest);
    assert head + rest == n;
    assert head == [n[0], n[1]];
    PairPillars(n[0], n[1]);
  }

  /** The network stands on the six pillars of its two bridges. */
  lemma NetworkPillars()
    ensures AllPillars(GenerateNetwork()) == BridgePillars(MarineDrive, FortKochi) + BridgePillars(MarineDrive, Willingdon)
  {
    TwoBridgesFirst(GenerateNetwork());
  }
}

=== FILE: sorting.dfy ===
/**
 Ordering lists by a numeric key, as `List.Sort` with a key comparison does.
 `List.Sort` is not stable, so callers are specified against every ordering
 that is sorted and a permutation; `SortBy` is one such ordering.
 */
module Sorting {

  /** The keys do not decrease along the list. */
  ghost predicate SortedBy<T>(xs: seq<T>, key: T -> real) {
    forall i, j :: 0 <= i < j < |xs| ==> key(xs[i]) <= key(xs[j])
  }

  /** `ys` is `xs` reordered by key: the same elements, sorted. */
  ghost predicate IsSortingOf<T>(ys: seq<T>, xs: seq<T>, key: T -> real) {
    multiset(ys) == multiset(xs) && SortedBy(ys, key)
  }

  /** Putting an element no larger than the head in front keeps a list sorted. */
  lemma ConsSorted<T>(a: T, rest: seq<T>, key: T -> real)
    requires SortedBy(rest, key)
    requires |rest| > 0 ==> key(a) <= key(rest[0])
    ensures SortedBy([a] + rest, key)
  {
    var r := [a] + rest;
    forall i, j | 0 <= i < j < |r| ensures key(r[i]) <= key(r[j]) {
      if i == 0 {
        assert r[j] == rest[j - 1];
        if j > 1 { assert key(rest[0]) <= key(rest[j - 1]); }
      } else {
        assert r[i] == rest[i - 1] && r[j] == rest[j - 1];
      }
    }
  }

  /** Inserts `x` before the first element with a larger key. */
  function InsertBy<T>(x: T, xs: seq<T>, key: T -> real): (r: seq<T>)
    requires SortedBy(xs, key)
    ensures SortedBy(r, key)
    ensures multiset(r) == multiset(xs) + multiset{x}
    ensures |r| == |xs| + 1
    ensures r[0] == x || (|xs| > 0 && r[0] == xs[0])
    decreases |xs|
  {
    if |xs| == 0 then [x]
    else if key(x) <= key(xs[0]) then
      ConsSorted(x, xs, key);
      [x] + xs
    else
      assert xs == [xs[0]] + xs[1..];
      var rest := InsertBy(x, xs[1..], key);
      ConsSorted(xs[0], rest, key);
      [xs[0]] + rest
  }

  /** Insertion sort by key: a sorted permutation of the input. */
  function SortBy<T>(xs: seq<T>, key: T -> real): (r: seq<T>)
    ensures IsSortingOf(r, xs, key)
    ensures |r| == |xs|
    decreases |xs|
  {
    if |xs| == 0 then []
    else
      assert xs == [xs[0]] + xs[1..];
      InsertBy(xs[0], SortBy(xs[1..], key), key)
  }
}

=== FILE: starter_missions.dfy ===
/**
 The starter mission registry (`MissionManager` under `Scripts/Managers`). It
 uses the same gates as the game's registry, but `StartMission` appends without
 looking at the active list, `CompleteMission` appends to the completed list
 without looking at it, reward ids are not filtered for emptiness, and the
 reward loop runs over the rewards once per reward.
 */
module StarterMissions {
  import opened Common
  import opened MissionData
  import TimeLoop
  import Clues
  import Missions

  /** The registry: authored, active and completed lists, and the notifications. */
  datatype Registry = Registry(all: seq<Mission>, active: seq<Mission>, completed: seq<Mission>, notices: seq<Notice>)

  /** `StartMission(mission)`: appends and announces, unconditionally. */
  function StartMission(reg: Registry, m: Mission): (r: Registry)
    ensures r.active == reg.active + [m]
    ensures multiset(r.active)[m] == multiset(reg.active)[m] + 1
    ensures r.completed == reg.completed && r.all == reg.all
    ensures r.notices == reg.notices + [NewMission(m.missionName)]
  {
    reg.(active := reg.active + [m], notices := reg.notices + [NewMission(m.missionName)])
  }

  /** A direct `StartMission` of an active mission leaves it in the active list twice. */
  lemma DirectStartDuplicates(reg: Registry, m: Mission)
    requires m in reg.active
    ensures !NoDuplicates(StartMission(reg, m).active)
  {
    var r := StartMission(reg, m);
    var k :| 0 <= k < |reg.active| && reg.active[k] == m;
    assert r.active[k] == r.active[|r.active| - 1];
  }

  /** One pass of the `foreach`: active and completed missions are skipped, the rest start when they may. */
  function CheckOne(reg: Registry, mem: Clues.Memory, m: Mission): (r: Registry)
    ensures r.all == reg.all && r.completed == reg.completed
    ensures !(m in reg.active || m in reg.completed) && Missions.CanStartMission(mem, m) ==>
      r == reg.(active := reg.active + [m], notices := reg.notices + [NewMission(m.missionName)])
    ensures m in reg.active || m in reg.completed || !Missions.CanStartMission(mem, m) ==> r == reg
  {
    if m in reg.active || m in reg.completed then reg
    else if Missions.CanStartMission(mem, m) then StartMission(reg, m)
    else reg
  }

  /** The `foreach` of `CheckMissionPrerequisites` over the entries still to visit. */
  function CheckFrom(reg: Registry, mem: Clues.Memory, pending: seq<Mission>): Registry
    decreases |pending|
  {
    if |pending| == 0 then reg
    else CheckFrom(CheckOne(reg, mem, pending[0]), mem, pending[1..])
  }

  /**
   The pass only touches the active list, which only grows at its end, and
   without duplicates before there are none after.
   */
  lemma {:induction false} CheckFromFrame(reg: Registry, mem: Clues.Memory, pending: seq<Mission>)
    ensures var r := CheckFrom(reg, mem, pending);
      && r.all == reg.all && r.completed == reg.completed
      && |reg.active| <= |r.active| && r.active[..|reg.active|] == reg.active
      && (NoDuplicates(reg.active) ==> NoDuplicates(r.active))
    decreases |pending|
  {
    if |pending| > 0 {
      var next := CheckOne(reg, mem, pending[0]);
      CheckFromFrame(next, mem, pending[1..]);
      var r := CheckFrom(next, mem, pending[1..]);
      assert r.active[..|reg.active|] == reg.active by {
        assert r.active[..|reg.active|] == r.active[..|next.active|][..|reg.active|];
      }
    }
  }

  /** One visit announces what it appends. */
  lemma CheckOneNotices(reg: Registry, mem: Clues.Memory, m: Mission)
    ensures var next := CheckOne(reg, mem, m);
      |reg.active| <= |next.active| && next.notices == reg.notices + Announced(next.active[|reg.active|..])
  {
    var next := CheckOne(reg, mem, m);
    if m in reg.active || m in reg.completed || !Missions.CanStartMission(mem, m) {
      assert next.active[|reg.active|..] == [];
    } else {
      assert next.active[|reg.active|..] == [m];
    }
  }

  /** Each mission the pass appends is announced once as new, in the order appended. */
  lemma {:induction false} CheckFromNotices(reg: Registry, mem: Clues.Memory, pending: seq<Mission>)
    ensures var r := CheckFrom(reg, mem, pending);
      |reg.active| <= |r.active| && r.notices == reg.notices + Announced(r.active[|reg.active|..])
    decreases |pending|
  {
    if |pending| == 0 {
      assert reg.active[|reg.active|..] == [];
    } else {
      var next := CheckOne(reg, mem, pending[0]);
      CheckOneNotices(reg, mem, pending[0]);
      CheckFromNotices(next, mem, pending[1..]);
      CheckFromFrame(next, mem, pending[1..]);
      var r := CheckFrom(next, mem, pending[1..]);
      AnnouncedStep(reg.active, next.active, r.active, reg.notices, next.notices, r.notices);
    }
  }

  /** What the active list gains is startable entries that were neither active nor completed. */
  lemma {:induction false} CheckFromGains(reg: Registry, mem: Clues.Memory, pending: seq<Mission>)
    ensures var r := CheckFrom(reg, mem, pending);
      forall k :: |reg.active| <= k < |r.active| ==>
        && r.active[k] in pending
        && Missions.CanStartMission(mem, r.active[k])
        && r.active[k] !in reg.active
        && r.active[k] !in reg.completed
    decreases |pending|
  {
    if |pending| > 0 {
      var m := pending[0];
      var next := CheckOne(reg, mem, m);
      CheckFromGains(next, mem, pending[1..]);
      CheckFromFrame(next, mem, pending[1..]);
      var r := CheckFrom(next, mem, pending[1..]);
      forall k | |reg.active| <= k < |r.active|
        ensures r.active[k] in pending && Missions.CanStartMission(mem, r.active[k])
        ensures r.active[k] !in reg.active && r.active[k] !in reg.completed
      {
        if k < |next.active| {
          assert r.active[k] == next.active[k] == m;
        } else {
          assert r.active[k] in pending[1..];
        }
      }
    }
  }

  /** Every startable entry that is not completed ends up active. */
  lemma {:induction false} CheckFromStarts(reg: Registry, mem: Clues.Memory, pending: seq<Mission>)
    ensures var r := CheckFrom(reg, mem, pending);
      forall m :: m in pending && Missions.CanStartMission(mem, m) && m !in reg.completed ==> m in r.active
    decreases |pending|
  {
    if |pending| > 0 {
      var next := CheckOne(reg, mem, pending[0]);
      CheckFromStarts(next, mem, pending[1..]);
      CheckFromFrame(next, mem, pending[1..]);
      var r := CheckFrom(next, mem, pending[1..]);
      forall x | x in pending && Missions.CanStartMission(mem, x) && x !in reg.completed
        ensures x in r.active
      {
        if x == pending[0] {
          var j :| 0 <= j < |next.active| && next.active[j] == x;
          assert r.active[j] == x;
        } else {
          assert x in pending[1..];
        }
      }
    }
  }

  /**
   `CheckMissionPrerequisites()`: active and completed missions are skipped, so
   the check itself never duplicates an active mission.
   */
  function CheckMissionPrerequisites(reg: Registry, mem: Clues.Memory): (r: Registry)
    ensures NoDuplicates(reg.active) ==> NoDuplicates(r.active)
    ensures forall m :: m in r.active && m !in reg.active ==>
      m in reg.all && Missions.CanStartMission(mem, m) && m !in reg.completed
    ensures forall m :: m in reg.all && Missions.CanStartMission(mem, m) && m !in reg.completed ==> m in r.active
    ensures r.completed == reg.completed && r.all == reg.all
    ensures |reg.active| <= |r.active| && r.active[..|reg.active|] == reg.active
    ensures r.notices == reg.notices + Announced(r.active[|reg.active|..])
  {
    var r := CheckFrom(reg, mem, reg.all);
    CheckFromFrame(reg, mem, reg.all);
    CheckFromGains(reg, mem, reg.all);
    CheckFromStarts(reg, mem, reg.all);
    CheckFromNotices(reg, mem, reg.all);
    forall m | m in r.active && m !in reg.active
      ensures m in reg.all && Missions.CanStartMission(mem, m) && m !in reg.completed
    {
      var k :| 0 <= k < |r.active| && r.active[k] == m;
      assert k >= |reg.active|;
    }
    r
  }

  /** One pass of `DiscoverClue` over the ids, empty ones included. */
  function DiscoverAll(mem: Clues.Memory, ids: seq<string>): (r: Clues.Memory)
    requires Clues.Valid(mem)
    ensures Clues.Valid(r)
    ensures mem.store.None? ==> r == mem
    ensures r.store.Some? <==> mem.store.Some?
    ensures r.loop.Some? <==> mem.loop.Some?
    ensures mem.store.Some? ==> r.store.value.discovered == mem.store.value.discovered + set id | id in ids
    ensures mem.loop.Some? ==> r.loop.value.count == mem.loop.value.count
    decreases |ids|
  {
    if mem.store.None? || |ids| == 0 then mem
    else
      assert (set id | id in ids) == {ids[0]} + set id | id in ids[1..] by {
        assert forall id :: id in ids <==> id == ids[0] || id in ids[1..];
      }
      DiscoverAll(Clues.Discover(mem, ids[0]), ids[1..])
  }

  /** A pass over ids that are all held already changes nothing. */
  lemma {:induction false} DiscoverAllHeld(mem: Clues.Memory, ids: seq<string>)
    requires Clues.Valid(mem)
    requires mem.store.Some? ==> forall id :: id in ids ==> Clues.HasClue(mem.store.value, id)
    ensures DiscoverAll(mem, ids) == mem
    decreases |ids|
  {
    if mem.store.Some? && |ids| > 0 {
      assert Clues.Discover(mem, ids[0]) == mem;
      DiscoverAllHeld(mem, ids[1..]);
    }
  }

  /** The nested reward loop as intended: the inner pass repeated `rounds` times. */
  function NestedPasses(mem: Clues.Memory, ids: seq<string>, rounds: nat): (r: Clues.Memory)
    requires Clues.Valid(mem)
    ensures Clues.Valid(r)
    decreases rounds
  {
    if rounds == 0 then mem else NestedPasses(DiscoverAll(mem, ids), ids, rounds - 1)
  }

  /** `GrantRewards(mission)`: the inner pass once per reward id. */
  function GrantRewards(mem: Clues.Memory, m: Mission): (r: Clues.Memory)
    requires Clues.Valid(mem)
    ensures Clues.Valid(r)
    ensures r == (if |m.rewardClueIds| == 0 then mem else DiscoverAll(mem, m.rewardClueIds))
  {
    NestedSinglePass(mem, m.rewardClueIds, |m.rewardClueIds|);
    NestedPasses(mem, m.rewardClueIds, |m.rewardClueIds|)
  }

  /**
   Discovery is idempotent, so any positive number of passes leaves the same
   state, notifications and manager copy included, as a single pass.
   */
  lemma {:induction false} NestedSinglePass(mem: Clues.Memory, ids: seq<string>, rounds: nat)
    requires Clues.Valid(mem)
    ensures NestedPasses(mem, ids, rounds) == (if rounds == 0 then mem else DiscoverAll(mem, ids))
    decreases rounds
  {
    if rounds > 1 {
      var once := DiscoverAll(mem, ids);
      NestedSinglePass(once, ids, rounds - 1);
      DiscoverAllHeld(once, ids);
    }
  }

  /**
   `CompleteMission(mission)`: only an active mission is completed; it leaves
   the active list and is appended to the completed list even if already there.
   */
  function CompleteMission(reg: Registry, mem: Clues.Memory, m: Mission): (r: (Registry, Clues.Memory))
    requires Clues.Valid(mem)
    ensures Clues.Valid(r.1)
    ensures m !in reg.active ==> r == (reg, mem)
    ensures m in reg.active ==>
      && r.0.active == RemoveFirst(reg.active, m)
      && r.0.completed == reg.completed + [m]
      && r.0.notices == reg.notices + [MissionComplete(m.missionName)]
      && r.0.all == reg.all
      && r.1 == GrantRewards(mem, m)
  {
    if m in reg.active then
      (reg.(active := RemoveFirst(reg.active, m), completed := reg.completed + [m],
            notices := reg.notices + [MissionComplete(m.missionName)]),
       GrantRewards(mem, m))
    else (reg, mem)
  }

  /** The registry and whether it listens to `OnLoopStart`. */
  datatype Host = Host(reg: Registry, subscribed: bool)

  /**
   `Start()`: the check runs first and the subscription is made afterwards,
   when a loop manager exists.
   */
  function Start(h: Host, mem: Clues.Memory): (r: Host)
    ensures r.reg == CheckMissionPrerequisites(h.reg, mem)
    ensures r.subscribed <==> h.subscribed || mem.loop.Some?
  {
    var checked := h.(reg := CheckMissionPrerequisites(h.reg, mem));
    if mem.loop.Some? then checked.(subscribed := true) else checked
  }

  /** The loop manager raises `OnLoopStart`: a listening registry checks again. */
  function LoopStarted(h: Host, mem: Clues.Memory): (r: Host)
    ensures !h.subscribed ==> r == h
    ensures h.subscribed ==> r.reg == CheckMissionPrerequisites(h.reg, mem) && r.subscribed
  {
    if h.subscribed then h.(reg := CheckMissionPrerequisites(h.reg, mem)) else h
  }
}

=== FILE: starter_npc.dfy ===
/**
 The NPC controller of the top-level `Scripts` tree (`NPCController`): the same
 patrol as the other copy, but everything depends on a NavMesh being found at
 `Awake`, a loop reset rewinds the patrol before re-initializing it, and the
 dialogue list is sorted on every request. `onNavMesh` stands for
 `agent.isOnNavMesh` at the time of the call.
 */
module StarterNpc {
  import opened Common
  import opened Random
  import opened DialogueData
  import TimeLoop
  import Clues
  import BestDialogue
  import Sorting
  import Npc
  import DialogueManager

  /**
   The controller: settings and routes, dialogues, whether a NavMesh was found,
   the route in use (null before the first initialization), the patrol index,
   the waiting state and whether `Start` added the loop listeners.
   */
  datatype Controller = Controller(
    npcId: string,
    randomizeRoutine: bool,
    waypointWaitTime: real,
    defaultWaypoints: seq<Npc.Waypoint>,
    alternateWaypoints: seq<Npc.Waypoint>,
    defaultDialogue: Option<Dialogue>,
    loopSpecificDialogues: seq<Option<Dialogue>>,
    navMeshAvailable: bool,
    current: Option<seq<Npc.Waypoint>>,
    index: int,
    waiting: bool,
    waitTimer: real,
    subscribed: bool,
    agent: Npc.Agent)

  function RouteOf(c: Controller): (r: seq<Npc.Waypoint>)
    ensures c.current.Some? ==> r == c.current.value
    ensures c.current.None? ==> r == []
  {
    if c.current.Some? then c.current.value else []
  }

  /** The patrol index is never negative. */
  predicate Valid(c: Controller) {
    c.index >= 0
  }

  /** `Awake()`: the controller as serialized, with the NavMesh probe's answer. */
  function Create(npcId: string, randomizeRoutine: bool, waypointWaitTime: real,
                  defaultWaypoints: seq<Npc.Waypoint>, alternateWaypoints: seq<Npc.Waypoint>,
                  defaultDialogue: Option<Dialogue>, dialogues: seq<Option<Dialogue>>,
                  navMeshFound: bool, position: Vec3): (c: Controller)
    ensures Valid(c)
    ensures c.navMeshAvailable == navMeshFound
    ensures c.current.None? && c.index == 0 && !c.waiting && !c.subscribed
    ensures c.loopSpecificDialogues == dialogues
  {
    Controller(npcId, randomizeRoutine, waypointWaitTime, defaultWaypoints, alternateWaypoints,
               defaultDialogue, dialogues, navMeshFound, None, 0, false, 0.0, false,
               Npc.Agent(position, None, false))
  }

  /**
   The route `InitializeRoutine()` picks: with randomization on, the alternate
   route when the seeded draw exceeds one half and that route is not empty;
   the default route otherwise.
   */
  function ChooseRoute(c: Controller, loop: Option<TimeLoop.Manager>, idHash: int, g: Generator): (r: seq<Npc.Waypoint>)
    ensures r == c.defaultWaypoints || r == c.alternateWaypoints
    ensures !c.randomizeRoutine ==> r == c.defaultWaypoints
    ensures c.randomizeRoutine ==>
      (r == c.alternateWaypoints && r != c.defaultWaypoints ==> Npc.UseAlternate(loop, idHash, g) && |c.alternateWaypoints| > 0)
    ensures c.randomizeRoutine && Npc.UseAlternate(loop, idHash, g) && |c.alternateWaypoints| > 0 ==> r == c.alternateWaypoints
    ensures c.randomizeRoutine && !(Npc.UseAlternate(loop, idHash, g) && |c.alternateWaypoints| > 0) ==> r == c.defaultWaypoints
  {
    if c.randomizeRoutine && Npc.UseAlternate(loop, idHash, g) && |c.alternateWaypoints| > 0 then c.alternateWaypoints
    else c.defaultWaypoints
  }

  /**
   Both controllers choose their route by the same rule: for the same settings,
   loop and id hash they walk the same waypoints.
   */
  lemma SameRouteAsOtherCopy(c: Controller, a: Npc.Controller, loop: Option<TimeLoop.Manager>, idHash: int, g: Generator)
    requires a.randomizeRoutine == c.randomizeRoutine
    requires |a.defaultWaypoints| == |c.defaultWaypoints| && |a.alternateWaypoints| == |c.alternateWaypoints|
    requires forall k :: 0 <= k < |c.defaultWaypoints| ==> a.defaultWaypoints[k] == Some(c.defaultWaypoints[k])
    requires forall k :: 0 <= k < |c.alternateWaypoints| ==> a.alternateWaypoints[k] == Some(c.alternateWaypoints[k])
    ensures var r := ChooseRoute(c, loop, idHash, g);
      var ra := Npc.SelectWaypointList(a, loop, idHash, g);
      |ra| == |r| && forall k :: 0 <= k < |r| ==> ra[k] == Some(r[k])
  {
  }

  /**
   `MoveToWaypoint(index)`: without a NavMesh, a route or the agent on the
   NavMesh nothing happens; otherwise the index becomes current and the agent
   moves to that waypoint. The callers only pass indices inside the route.
   */
  function MoveToWaypoint(c: Controller, index: int, onNavMesh: bool): (r: Controller)
    requires |RouteOf(c)| > 0 ==> 0 <= index < |RouteOf(c)|
    ensures !c.navMeshAvailable || |RouteOf(c)| == 0 || !onNavMesh ==> r == c
    ensures c.navMeshAvailable && |RouteOf(c)| > 0 && onNavMesh ==>
      r == c.(index := index, agent := c.agent.(stopped := false, destination := Some(RouteOf(c)[index].position)))
  {
    if !c.navMeshAvailable || |RouteOf(c)| == 0 || !onNavMesh then c
    else c.(index := index, agent := c.agent.(stopped := false, destination := Some(RouteOf(c)[index].position)))
  }

  /**
   `InitializeRoutine()`, with `sampled` for the NavMesh point found near the
   first waypoint when the agent is off the NavMesh: nothing without a NavMesh;
   otherwise the chosen route becomes current and, if it is not empty, the agent
   is warped to its start (or to the sampled point) and sent to waypoint 0. An
   agent off the NavMesh with no sampled point is not warped, so the move that
   follows does nothing and the index is not rewound.
   */
  function InitializeRoutine(c: Controller, loop: Option<TimeLoop.Manager>, idHash: int, g: Generator,
                             onNavMesh: bool, sampled: Option<Vec3>): (r: Controller)
    requires Valid(c)
    ensures Valid(r)
    ensures !c.navMeshAvailable ==> r == c
    ensures c.navMeshAvailable ==> r.current == Some(ChooseRoute(c, loop, idHash, g))
    ensures c.navMeshAvailable && |ChooseRoute(c, loop, idHash, g)| > 0 && onNavMesh ==>
      var start := ChooseRoute(c, loop, idHash, g)[0].position;
      r.index == 0 && r.agent == Npc.Agent(start, Some(start), false)
    ensures c.navMeshAvailable && |ChooseRoute(c, loop, idHash, g)| > 0 && !onNavMesh && sampled.Some? ==>
      var start := ChooseRoute(c, loop, idHash, g)[0].position;
      r.index == 0 && r.agent == Npc.Agent(sampled.value, Some(start), false)
    ensures c.navMeshAvailable && (|ChooseRoute(c, loop, idHash, g)| == 0 || (!onNavMesh && sampled.None?)) ==>
      r.index == c.index && r.agent == c.agent
    ensures r.waiting == c.waiting && r.waitTimer == c.waitTimer && r.subscribed == c.subscribed
  {
    if !c.navMeshAvailable then c
    else
      var route := ChooseRoute(c, loop, idHash, g);
      var c1 := c.(current := Some(route));
      if |route| == 0 then c1
      else
        var pos := if onNavMesh then route[0].position else if sampled.Some? then sampled.value else c.agent.position;
        // a successful sample warps the agent onto the NavMesh before the move
        MoveToWaypoint(c1.(agent := c1.agent.(position := pos)), 0, onNavMesh || sampled.Some?)
  }

  /**
   `Start()`: adds the loop listeners when a manager exists, then initializes
   the routine.
   */
  function Start(c: Controller, loop: Option<TimeLoop.Manager>, idHash: int, g: Generator,
                 onNavMesh: bool, sampled: Option<Vec3>): (r: Controller)
    requires Valid(c)
    ensures Valid(r)
    ensures r.subscribed <==> c.subscribed || loop.Some?
    ensures r == InitializeRoutine(c.(subscribed := c.subscribed || loop.Some?), loop, idHash, g, onNavMesh, sampled)
    ensures c.navMeshAvailable && |ChooseRoute(c, loop, idHash, g)| > 0 && (onNavMesh || sampled.Some?) ==>
      && r.index == 0 && !r.agent.stopped
      && r.agent.destination == Some(ChooseRoute(c, loop, idHash, g)[0].position)
    ensures c.navMeshAvailable && !onNavMesh && sampled.None? ==> r.index == c.index && r.agent == c.agent
  {
    InitializeRoutine(c.(subscribed := c.subscribed || loop.Some?), loop, idHash, g, onNavMesh, sampled)
  }

  /**
   `OnLoopReset`: without a NavMesh nothing happens; otherwise the agent goes
   back to the start of the old route, the index, the waiting flag and the timer
   are zeroed, and the routine is initialized for the new loop.
   */
  function OnLoopReset(c: Controller, loop: TimeLoop.Manager, idHash: int, g: Generator,
                       onNavMesh: bool, sampled: Option<Vec3>): (r: Controller)
    requires Valid(c)
    ensures Valid(r)
    ensures !c.navMeshAvailable ==> r == c
    ensures c.navMeshAvailable ==>
      && r.index == 0 && !r.waiting && r.waitTimer == 0.0
      && r.current == Some(ChooseRoute(c, Some(loop), idHash, g))
      && r.subscribed == c.subscribed
    ensures c.navMeshAvailable && |ChooseRoute(c, Some(loop), idHash, g)| > 0 && (onNavMesh || sampled.Some?) ==>
      var start := ChooseRoute(c, Some(loop), idHash, g)[0].position;
      r.agent == Npc.Agent(if onNavMesh then start else sampled.value, Some(start), false)
    ensures c.navMeshAvailable && !onNavMesh && sampled.None? ==> r.agent == c.agent
    ensures c.navMeshAvailable && |ChooseRoute(c, Some(loop), idHash, g)| == 0 && onNavMesh ==>
      r.agent == c.agent.(position := if |RouteOf(c)| > 0 then RouteOf(c)[0].position else c.agent.position)
  {
    if !c.navMeshAvailable then c
    else
      var route := RouteOf(c);
      var pos := if |route| > 0 && onNavMesh then route[0].position else c.agent.position;
      var c1 := c.(agent := c.agent.(position := pos), index := 0, waiting := false, waitTimer := 0.0);
      InitializeRoutine(c1, Some(loop), idHash, g, onNavMesh, sampled)
  }

  /** `OnLoopStart`: the routine is initialized for the loop. */
  function OnLoopStart(c: Controller, loop: TimeLoop.Manager, idHash: int, g: Generator,
                       onNavMesh: bool, sampled: Option<Vec3>): (r: Controller)
    requires Valid(c)
    ensures Valid(r)
    ensures r == InitializeRoutine(c, Some(loop), idHash, g, onNavMesh, sampled)
    ensures c.navMeshAvailable && |ChooseRoute(c, Some(loop), idHash, g)| > 0 && (onNavMesh || sampled.Some?) ==>
      && r.index == 0 && !r.agent.stopped
      && r.agent.destination == Some(ChooseRoute(c, Some(loop), idHash, g)[0].position)
    ensures c.navMeshAvailable && !onNavMesh && sampled.None? ==> r.index == c.index && r.agent == c.agent
  {
    InitializeRoutine(c, Some(loop), idHash, g, onNavMesh, sampled)
  }

  /**
   `MoveToNextWaypoint()`: on a route the index advances modulo its length, and
   the NPC is sent there when it can move; on no route nothing happens.
   */
  function MoveToNextWaypoint(c: Controller, onNavMesh: bool): (r: Controller)
    requires Valid(c)
    ensures Valid(r)
    ensures |RouteOf(c)| == 0 ==> r == c
    ensures |RouteOf(c)| > 0 ==> r.index == (c.index + 1) % |RouteOf(c)| && 0 <= r.index < |RouteOf(c)|
    ensures |RouteOf(c)| > 0 && c.navMeshAvailable && onNavMesh ==>
      r.agent.destination == Some(RouteOf(c)[r.index].position)
    ensures r.current == c.current
  {
    var route := RouteOf(c);
    if |route| == 0 then c
    else
      var k := CsRem(c.index + 1, |route|);
      MoveToWaypoint(c.(index := k), k, onNavMesh)
  }

  /**
   `SetSingleDestination(target)`: without a NavMesh or with a null target
   nothing happens; otherwise the route becomes exactly the target, at index 0,
   and the NPC is sent there when it can move.
   */
  function SetSingleDestination(c: Controller, target: Option<Npc.Waypoint>, onNavMesh: bool): (r: Controller)
    requires Valid(c)
    ensures Valid(r)
    ensures !c.navMeshAvailable || target.None? ==> r == c
    ensures c.navMeshAvailable && target.Some? ==>
      && r.current == Some([target.value]) && r.index == 0
      && (onNavMesh ==> r.agent.destination == Some(target.value.position) && !r.agent.stopped)
      && (!onNavMesh ==> r.agent == c.agent)
  {
    if !c.navMeshAvailable || target.None? then c
    else MoveToWaypoint(c.(current := Some([target.value]), index := 0), 0, onNavMesh)
  }

  /**
   `Update()` with frame time `dt`; `arrived` is the agent's report that it has
   reached its waypoint and stopped. Without a NavMesh nothing happens; a waiting
   NPC counts down and moves on when the timer runs out; an arrived one starts
   waiting, without stopping the agent.
   */
  function Update(c: Controller, dt: real, onNavMesh: bool, arrived: bool): (r: Controller)
    requires Valid(c)
    ensures Valid(r)
    ensures !c.navMeshAvailable ==> r == c
    ensures c.navMeshAvailable && c.waiting && c.waitTimer - dt > 0.0 ==> r == c.(waitTimer := c.waitTimer - dt)
    ensures c.navMeshAvailable && c.waiting && c.waitTimer - dt <= 0.0 ==>
      r == MoveToNextWaypoint(c.(waitTimer := c.waitTimer - dt, waiting := false), onNavMesh)
    ensures c.navMeshAvailable && !c.waiting && arrived && onNavMesh ==>
      r == c.(waiting := true, waitTimer := c.waypointWaitTime)
    ensures c.navMeshAvailable && !c.waiting && !(arrived && onNavMesh) ==> r == c
  {
    if !c.navMeshAvailable then c
    else if c.waiting then
      var t := c.(waitTimer := c.waitTimer - dt);
      if t.waitTimer <= 0.0 then MoveToNextWaypoint(t.(waiting := false), onNavMesh) else t
    else if arrived && onNavMesh then c.(waiting := true, waitTimer := c.waypointWaitTime)
    else c
  }

  // ---------------------------------------------------------------------------
  // Choosing a dialogue

  /**
   `GetBestDialogue()` as written: the list is sorted in place on every call
   with a comparator that reads `minLoopCount` of both arguments. A sort of two
   or more entries compares every entry at least once, so a null entry in such a
   list raises (a NullReferenceException, wrapped by `List.Sort`); a list
   without nulls, or of a single entry, is sorted and searched as in the other
   copy.
   */
  function GetBestDialogueAsWritten(c: Controller, loop: Option<TimeLoop.Manager>, store: Option<Clues.ClueSystem>): (r: Outcome<(Option<Dialogue>, Controller)>)
    ensures r.NullReference? <==> |c.loopSpecificDialogues| >= 2 && None in c.loopSpecificDialogues
    ensures r.Ok? ==> r.value == GetBestDialogue(c, loop, store)
  {
    if |c.loopSpecificDialogues| >= 2 && None in c.loopSpecificDialogues then NullReference
    else Ok(GetBestDialogue(c, loop, store))
  }

  /**
   A list holding a null entry and a dialogue every loop may use: the code as
   written raises instead of returning the dialogue, which the corrected
   comparator does return.
   */
  lemma NullEntryBreaksSort(c: Controller, d: Dialogue, store: Option<Clues.ClueSystem>)
    requires c.loopSpecificDialogues == [None, Some(d)]
    requires d.minLoopCount == 0 && IsNullOrEmpty(d.requiredClueId)
    ensures GetBestDialogueAsWritten(c, None, store).NullReference?
    ensures GetBestDialogue(c, None, store).0 == Some(d)
  {
    var ds := c.loopSpecificDialogues;
    assert BestDialogue.Eligible(ds[1], 0, store);
    var sorted := BestDialogue.SortLoopSpecificDialogues(ds);
    BestDialogue.AnySortPicksHighestEligible(ds, sorted, c.defaultDialogue, 0, store);
  }

  /**
   `GetBestDialogue()` with the comparator the loop below it evidently intends:
   null entries order last, as in the other copy. The list is stored back
   sorted, and the first eligible entry, or the default, is returned.
   */
  function GetBestDialogue(c: Controller, loop: Option<TimeLoop.Manager>, store: Option<Clues.ClueSystem>): (r: (Option<Dialogue>, Controller))
    ensures multiset(r.1.loopSpecificDialogues) == multiset(c.loopSpecificDialogues)
    ensures BestDialogue.LoopDescending(r.1.loopSpecificDialogues)
    ensures r.1 == c.(loopSpecificDialogues := r.1.loopSpecificDialogues)
    ensures r.0 == BestDialogue.Select(r.1.loopSpecificDialogues, c.defaultDialogue, BestDialogue.CurrentLoop(loop), store)
  {
    var sorted := BestDialogue.SortLoopSpecificDialogues(c.loopSpecificDialogues);
    (BestDialogue.Select(sorted, c.defaultDialogue, BestDialogue.CurrentLoop(loop), store),
     c.(loopSpecificDialogues := sorted))
  }

  /**
   With the corrected comparator, the NPC says the eligible dialogue with the
   highest `minLoopCount`, and the default only when none is eligible.
   */
  lemma BestDialogueIsHighest(c: Controller, loop: Option<TimeLoop.Manager>, store: Option<Clues.ClueSystem>)
    ensures var ds := c.loopSpecificDialogues;
      var n := BestDialogue.CurrentLoop(loop);
      var r := GetBestDialogue(c, loop, store).0;
      && ((forall j :: 0 <= j < |ds| ==> !BestDialogue.Eligible(ds[j], n, store)) ==> r == c.defaultDialogue)
      && ((exists j :: 0 <= j < |ds| && BestDialogue.Eligible(ds[j], n, store)) ==>
            && r in ds && BestDialogue.Eligible(r, n, store)
            && forall j :: 0 <= j < |ds| && BestDialogue.Eligible(ds[j], n, store) ==>
                 ds[j].value.minLoopCount <= r.value.minLoopCount)
  {
    var ds := c.loopSpecificDialogues;
    var n := BestDialogue.CurrentLoop(loop);
    var sorted := GetBestDialogue(c, loop, store).1.loopSpecificDialogues;
    if exists j :: 0 <= j < |ds| && BestDialogue.Eligible(ds[j], n, store) {
      BestDialogue.AnySortPicksHighestEligible(ds, sorted, c.defaultDialogue, n, store);
    } else {
      forall j | 0 <= j < |sorted|
        ensures !BestDialogue.Eligible(sorted[j], n, store)
      {
        assert sorted[j] in multiset(ds);
      }
    }
  }

  /**
   `OnInteract(player)` with the corrected selection: the agent stops when it
   can, and the best dialogue is started when a dialogue manager exists and there
   is a dialogue.
   */
  function OnInteract(c: Controller, dm: Option<DialogueManager.Manager>, w: DialogueManager.World,
                      loop: Option<TimeLoop.Manager>, onNavMesh: bool): (r: (Controller, Option<DialogueManager.Manager>, DialogueManager.World))
    requires DialogueManager.Valid(w)
    ensures DialogueManager.Valid(r.2)
    ensures r.0.agent.stopped <==> c.agent.stopped || (c.navMeshAvailable && onNavMesh)
    ensures r.1.Some? <==> dm.Some?
    ensures var (d, _) := GetBestDialogue(c, loop, w.mem.store);
      && (dm.Some? && d.Some? ==> (r.1.value, r.2) == DialogueManager.StartDialogue(dm.value, w, d))
      && (dm.None? || d.None? ==> r.1 == dm && r.2 == w)
  {
    var c1 := if c.navMeshAvailable && onNavMesh then c.(agent := c.agent.(stopped := true)) else c;
    var (d, c2) := GetBestDialogue(c1, loop, w.mem.store);
    if dm.Some? && d.Some? then
      var (dm', w') := DialogueManager.StartDialogue(dm.value, w, d);
      (c2, Some(dm'), w')
    else (c2, dm, w)
  }
}

=== FILE: starter_time_of_day.dfy ===
/**
 The starter day-night clock (`TimeOfDaySystem` under `Scripts/World`): the hour
 follows the loop's progress from 6 to 20 while a loop runs and otherwise stays
 where it is. It broadcasts nothing.
 */
module StarterTimeOfDay {
  import opened Common
  import TimeLoop

  /** The clock: the hour and the (unused) speed. */
  datatype Clock = Clock(hour: real, timeSpeed: real)

  /** The serialized defaults: 8 AM, real-time speed. */
  function Create(): (c: Clock)
    ensures c.hour == 8.0 && c.timeSpeed == 1.0
  {
    Clock(8.0, 1.0)
  }

  /** `Update()`: follows the running loop; leaves the hour alone while resetting or without a manager. */
  function Update(c: Clock, loop: Option<TimeLoop.Manager>): (r: Clock)
    requires loop.Some? ==> TimeLoop.Valid(loop.value)
    ensures r.timeSpeed == c.timeSpeed
    ensures loop.Some? && !loop.value.resetting ==>
      r.hour == Lerp(6.0, 20.0, TimeLoop.LoopProgress(loop.value)) && 6.0 <= r.hour <= 20.0
    ensures !(loop.Some? && !loop.value.resetting) ==> r == c
  {
    if loop.Some? && !loop.value.resetting then c.(hour := Lerp(6.0, 20.0, TimeLoop.LoopProgress(loop.value)))
    else c
  }

  /** `SetTimeOfDay(hour)`: the hour clamped to [0, 24]. */
  function SetTimeOfDay(c: Clock, hour: real): (r: Clock)
    ensures 0.0 <= r.hour <= 24.0
    ensures 0.0 <= hour <= 24.0 ==> r.hour == hour
    ensures hour < 0.0 ==> r.hour == 0.0
    ensures hour > 24.0 ==> r.hour == 24.0
    ensures r.timeSpeed == c.timeSpeed
  {
    c.(hour := Clamp(hour, 0.0, 24.0))
  }

  /** `GetCurrentHour()`: the hour last set or derived. */
  function GetCurrentHour(c: Clock): real {
    c.hour
  }

  /** The hour read back is the clamped hour last set, and no later update moves it while resetting. */
  lemma SetThenGet(c: Clock, h: real, m: TimeLoop.Manager)
    requires TimeLoop.Valid(m) && m.resetting
    ensures GetCurrentHour(SetTimeOfDay(c, h)) == Clamp(h, 0.0, 24.0)
    ensures GetCurrentHour(Update(SetTimeOfDay(c, h), Some(m))) == Clamp(h, 0.0, 24.0)
    ensures GetCurrentHour(Update(SetTimeOfDay(c, h), None)) == Clamp(h, 0.0, 24.0)
  {
  }

  /** `IsNight()`: night is every hour outside the span [6, 20] a running loop covers. */
  function IsNight(c: Clock): (r: bool)
    ensures r <==> !(6.0 <= GetCurrentHour(c) <= 20.0)
  {
    c.hour < 6.0 || c.hour > 20.0
  }

  /** After `SetTimeOfDay(h)` the clock reports night exactly when `h` is before 6 or after 20. */
  lemma SetNightIff(c: Clock, h: real)
    ensures IsNight(SetTimeOfDay(c, h)) <==> h < 6.0 || h > 20.0
  {
  }

  /** The loop's start (progress 0) shows 6 AM and its end (progress 1) shows 8 PM. */
  lemma LoopEndpoints(c: Clock, m: TimeLoop.Manager)
    requires TimeLoop.Valid(m) && !m.resetting
    ensures m.time <= 0.0 ==> GetCurrentHour(Update(c, Some(m))) == 6.0
    ensures m.time >= m.duration ==> GetCurrentHour(Update(c, Some(m))) == 20.0
  {
    TimeLoop.ProgressBounds(m.time, m.duration);
    if m.time <= 0.0 {
      assert m.time / m.duration <= 0.0 by { NonPositiveQuotient(m.time, m.duration); }
    }
  }

  lemma NonPositiveQuotient(t: real, d: real)
    requires t <= 0.0 && d > 0.0
    ensures t / d <= 0.0
  {
    var q := t / d;
    assert q * d == t;
    TimeLoop.SignOfProduct(q, d);
  }
}

=== FILE: time_display.dfy ===
/**
 The on-screen clock (`UI_TimeDisplay`): every frame, while a loop manager
 exists, the loop label, the progress bar and the time text are refreshed from
 the manager and the day-night clock, each only when its widget exists.
 */
module TimeDisplay {
  import opened Common
  import opened Numerals
  import TimeLoop

  /**
   The widgets: `None` for a widget reference left unset, otherwise the text
   or fill it shows; and the 24-hour setting.
   */
  datatype Display = Display(
    timeText: Option<string>,
    loopCountText: Option<string>,
    progressFill: Option<real>,
    show24HourFormat: bool)

  /** The text of the loop label for loop `n`. */
  function LoopLabel(n: int): (s: string)
    ensures |s| > 6 && s[..6] == "Loop: "
    ensures s[6..] == IntToString(n)
  {
    "Loop: " + IntToString(n)
  }

  /** The hour and minute shown for a clock reading: whole hours, and whole minutes into the hour. */
  function ClockFace(hour: real): (r: (int, int))
    ensures r.0 as real <= hour < r.0 as real + 1.0
    ensures 0 <= r.1 <= 59
    ensures r.0 as real + r.1 as real / 60.0 <= hour < r.0 as real + (r.1 + 1) as real / 60.0
  {
    var h := FloorToInt(hour);
    var m := FloorToInt((hour - h as real) * 60.0);
    (h, m)
  }

  /** The 12-hour value: 0 shows as 12, afternoon hours lose 12, the rest are kept. */
  function Hour12(h: int): (r: int)
    ensures 0 <= h <= 24 ==> 1 <= r <= 12
    ensures h == 0 || h == 12 ==> r == 12
  {
    if h > 12 then h - 12 else if h == 0 then 12 else h
  }

  /** The period marker. */
  function Period(h: int): (s: string)
    ensures s == "PM" <==> h >= 12
    ensures s == "AM" <==> h < 12
  {
    if h >= 12 then "PM" else "AM"
  }

  /** The 24-hour text `HH:MM`. */
  function Text24(h: int, m: int): string {
    Format00(h) + ":" + Format00(m)
  }

  /** The 12-hour text `H:MM AM` or `H:MM PM`. */
  function Text12(h: int, m: int): string {
    IntToString(Hour12(h)) + ":" + Format00(m) + " " + Period(h)
  }

  /** The time text for a clock reading in the chosen format. */
  function TimeText(hour: real, show24: bool): string {
    var (h, m) := ClockFace(hour);
    if show24 then Text24(h, m) else Text12(h, m)
  }

  /**
   `UpdateTimeDisplay()`, with the loop manager and the hour of the day-night
   clock, if each exists. Without a manager nothing changes. Otherwise the loop
   label shows the count, the bar the loop's progress (clamped to [0, 1], as
   the image's fill amount is), and the time text the clock's reading; a missing widget or a missing clock leaves its part alone.
   */
  function UpdateTimeDisplay(d: Display, loop: Option<TimeLoop.Manager>, clockHour: Option<real>): (r: Display)
    requires loop.Some? ==> TimeLoop.Valid(loop.value)
    ensures r.show24HourFormat == d.show24HourFormat
    ensures loop.None? ==> r == d
    ensures r.timeText.Some? <==> d.timeText.Some?
    ensures r.loopCountText.Some? <==> d.loopCountText.Some?
    ensures r.progressFill.Some? <==> d.progressFill.Some?
    ensures loop.Some? && d.loopCountText.Some? ==> r.loopCountText == Some(LoopLabel(loop.value.count))
    ensures loop.Some? && d.progressFill.Some? ==> r.progressFill == Some(Clamp01(TimeLoop.LoopProgress(loop.value)))
    ensures loop.Some? && r.progressFill.Some? ==> 0.0 <= r.progressFill.value <= 1.0
    ensures loop.Some? && d.progressFill.Some? && 0.0 <= loop.value.time <= loop.value.duration ==>
      r.progressFill == Some(TimeLoop.LoopProgress(loop.value))
    ensures loop.Some? && d.progressFill.Some? && loop.value.time >= loop.value.duration ==>
      r.progressFill == Some(1.0)
    ensures loop.Some? && d.timeText.Some? && clockHour.Some? ==>
      r.timeText == Some(TimeText(clockHour.value, d.show24HourFormat))
    ensures clockHour.None? ==> r.timeText == d.timeText
  {
    if loop.None? then d
    else
      var m := loop.value;
      var loopText := if d.loopCountText.Some? then Some(LoopLabel(m.count)) else None;
      var fill := if d.progressFill.Some? then Some(Clamp01(TimeLoop.LoopProgress(m))) else None;
      var time :=
        if d.timeText.Some? && clockHour.Some? then Some(TimeText(clockHour.value, d.show24HourFormat))
        else d.timeText;
      d.(timeText := time, loopCountText := loopText, progressFill := fill)
  }

  /** The loop label reads back as the loop count. */
  lemma LoopLabelReadsBack(n: nat)
    ensures var s := LoopLabel(n); AllDigits(s[6..]) && ParseNat(s[6..]) == n
  {
    ParseNatToString(n);
  }

  /**
   For a reading within the day the 24-hour text is five characters, two digits,
   a colon and two digits, and reading the digits back gives the hour and minute
   shown.
   */
  lemma Text24ReadsBack(hour: real)
    requires 0.0 <= hour < 100.0
    ensures var (h, m) := ClockFace(hour);
      var s := Text24(h, m);
      && |s| == 5 && s[2] == ':'
      && AllDigits(s[..2]) && AllDigits(s[3..])
      && ParseNat(s[..2]) == h && ParseNat(s[3..]) == m
  {
    var (h, m) := ClockFace(hour);
    var s := Text24(h, m);
    ParsePad2(h);
    ParsePad2(m);
    assert s[..2] == Pad2(h);
    assert s[3..] == Pad2(m);
  }

  /**
   For a reading within the day the 12-hour text names an hour from 1 to 12 that
   agrees with the hour shown modulo 12, then the padded minute, then the period,
   which is PM exactly from noon on.
   */
  lemma Text12ReadsBack(hour: real)
    requires 0.0 <= hour <= 24.0
    ensures var (h, m) := ClockFace(hour);
      var s := Text12(h, m);
      var k := |IntToString(Hour12(h))|;
      && 1 <= Hour12(h) <= 12 && Hour12(h) % 12 == h % 12
      && |s| == k + 6
      && s[..k] == NatToString(Hour12(h))
      && s[k] == ':' && AllDigits(s[k + 1..k + 3]) && ParseNat(s[k + 1..k + 3]) == m
      && s[k + 3] == ' '
      && (s[k + 4..] == "PM" <==> h >= 12)
  {
    var (h, m) := ClockFace(hour);
    assert 0 <= h <= 24;
    var a, b, p := IntToString(Hour12(h)), Format00(m), Period(h);
    assert a == NatToString(Hour12(h));
    assert b == Pad2(m) && |b| == 2 && |p| == 2;
    var s := Text12(h, m);
    assert s == a + ":" + b + " " + p;
    var k := |a|;
    ParsePad2(m);
    assert s[..k] == a;
    assert s[k + 1..k + 3] == b;
    assert s[k + 4..] == p;
  }
}

=== FILE: time_loop.dfy ===
/**
 The loop controller (`TimeLoopManager`): loop count, elapsed time, the reset
 protocol with its one-second delayed restart, and the manager's own copy of
 the discovered clues. Every event the manager raises is appended to `trace`,
 so the order of the reset protocol can be stated.
 */
module TimeLoop {
  import opened Common

  /** What the manager raises or calls, in the order it does so. */
  datatype LoopEvent =
    | CountChanged(count: nat)       // OnLoopCountChanged(count)
    | LoopReset                      // OnLoopReset
    | TeleportToSpawn                // TeleportPlayerToSpawn()
    | StartScheduled                 // Invoke(nameof(StartLoop), 1f)
    | LoopStart                      // OnLoopStart
    | TimeUpdated(time: real)        // OnLoopTimeUpdated(time)
    | CluesSaved(clues: set<string>) // SaveLoadManager.SaveClues(clues)

  /**
   The manager's state. `startPending` stands for the delayed `StartLoop`
   scheduled by `Invoke`; `saverPresent` for `SaveLoadManager.Instance != null`.
   */
  datatype Manager = Manager(
    duration: real,
    autoReset: bool,
    saverPresent: bool,
    count: nat,
    time: real,
    resetting: bool,
    startPending: bool,
    clues: set<string>,
    trace: seq<LoopEvent>)

  /** A positive loop length, and a delayed start pending exactly while resetting. */
  predicate Valid(m: Manager) {
    m.duration > 0.0 && (m.resetting <==> m.startPending)
  }

  /** The serialized initial state, before `Start()` runs. */
  function Create(duration: real, autoReset: bool, saverPresent: bool): (m: Manager)
    requires duration > 0.0
    ensures Valid(m)
    ensures m.count == 0 && m.time == 0.0 && !m.resetting && m.clues == {} && m.trace == []
  {
    Manager(duration, autoReset, saverPresent, 0, 0.0, false, false, {}, [])
  }

  /** `Start()`: the first loop starts at once. */
  function Boot(m: Manager): (r: Manager)
    requires Valid(m)
    ensures Valid(r)
    ensures Starts(m, r)
  {
    StartLoop(m)
  }

  /** The effect of `StartLoop`: time back to 0, reset over, then `OnLoopStart`. */
  ghost predicate Starts(m: Manager, r: Manager) {
    && r == m.(time := 0.0, resetting := false, startPending := false, trace := m.trace + [LoopStart])
  }

  /**
   The effect of an accepted `ResetLoop`: the count goes up by one, then
   `OnLoopCountChanged(new count)`, `OnLoopReset` and the teleport happen in that
   order, and the restart is scheduled; time, clues and settings are untouched.
   */
  ghost predicate Resets(m: Manager, r: Manager) {
    && r.count == m.count + 1
    && r.trace == m.trace + [CountChanged(m.count + 1), LoopReset, TeleportToSpawn, StartScheduled]
    && r.resetting && r.startPending
    && r == m.(count := m.count + 1, resetting := true, startPending := true, trace := r.trace)
  }

  /** `StartLoop()`. */
  function StartLoop(m: Manager): (r: Manager)
    requires Valid(m)
    ensures Valid(r)
    ensures r.time == 0.0 && !r.resetting
    ensures r.trace == m.trace + [LoopStart]
    ensures r.count == m.count && r.clues == m.clues && r.autoReset == m.autoReset
  {
    m.(time := 0.0, resetting := false, startPending := false, trace := m.trace + [LoopStart])
  }

  /** `ResetLoop()`: ignored while a reset is in progress. */
  function ResetLoop(m: Manager): (r: Manager)
    requires Valid(m)
    ensures Valid(r)
    ensures m.resetting ==> r == m
    ensures !m.resetting ==> Resets(m, r)
  {
    if m.resetting then m
    else
      m.(count := m.count + 1, resetting := true, startPending := true,
         trace := m.trace + [CountChanged(m.count + 1), LoopReset, TeleportToSpawn, StartScheduled])
  }

  /** `ForceResetLoop()`: a reset regardless of elapsed time, with the same guard. */
  function ForceResetLoop(m: Manager): (r: Manager)
    requires Valid(m)
    ensures Valid(r)
    ensures m.resetting ==> r == m
    ensures !m.resetting ==> Resets(m, r)
  {
    ResetLoop(m)
  }

  /** The scheduled `StartLoop` fires after the transition delay. */
  function FireScheduledStart(m: Manager): (r: Manager)
    requires Valid(m)
    ensures Valid(r)
    ensures m.startPending ==> Starts(m, r)
    ensures !m.startPending ==> r == m
  {
    if m.startPending then StartLoop(m) else m
  }

  /**
   `Update()` with frame time `dt`: nothing while resetting; otherwise time
   advances, `OnLoopTimeUpdated` is raised, and an automatic reset follows when
   the loop is over and auto-reset is on.
   */
  function Update(m: Manager, dt: real): (r: Manager)
    requires Valid(m)
    ensures Valid(r)
    ensures m.resetting ==> r == m
    ensures !m.resetting ==>
      var ticked := m.(time := m.time + dt, trace := m.trace + [TimeUpdated(m.time + dt)]);
      if m.time + dt >= m.duration && m.autoReset then Resets(ticked, r) else r == ticked
  {
    if m.resetting then m
    else
      var ticked := m.(time := m.time + dt, trace := m.trace + [TimeUpdated(m.time + dt)]);
      if ticked.time >= ticked.duration && ticked.autoReset then ResetLoop(ticked) else ticked
  }

  /** `StopLoop()`: only automatic resets are switched off. */
  function StopLoop(m: Manager): (r: Manager)
    requires Valid(m)
    ensures Valid(r)
    ensures !r.autoReset
    ensures r == m.(autoReset := false)
  {
    m.(autoReset := false)
  }

  /** `AddClue(id)`: a new clue is kept and the whole set saved, when a saver exists. */
  function AddClue(m: Manager, id: string): (r: Manager)
    requires Valid(m)
    ensures Valid(r)
    ensures r.clues == m.clues + {id}
    ensures id in m.clues ==> r == m
    ensures id !in m.clues ==>
      r.trace == m.trace + (if m.saverPresent then [CluesSaved(m.clues + {id})] else [])
    ensures r.count == m.count && r.time == m.time && r.resetting == m.resetting
    ensures r == m.(clues := r.clues, trace := r.trace)
  {
    if id in m.clues then m
    else
      var clues := m.clues + {id};
      m.(clues := clues, trace := m.trace + (if m.saverPresent then [CluesSaved(clues)] else []))
  }

  /** `HasClue(id)`. */
  predicate HasClue(m: Manager, id: string) {
    id in m.clues
  }

  /**
   `HasClue` after `AddClue`: the added id is held, and every other id is held
   exactly when it was held before.
   */
  lemma HasClueAfterAdd(m: Manager, id: string, other: string)
    requires Valid(m)
    ensures HasClue(AddClue(m, id), id)
    ensures other != id ==> (HasClue(AddClue(m, id), other) <==> HasClue(m, other))
  {
  }

  /** `LoadClues(set)`: the manager's clues become exactly the loaded set. */
  function LoadClues(m: Manager, clues: set<string>): (r: Manager)
    requires Valid(m)
    ensures Valid(r)
    ensures forall id :: HasClue(r, id) <==> id in clues
    ensures r.count == m.count && r.trace == m.trace
    ensures r.time == m.time && r.resetting == m.resetting && r.startPending == m.startPending
    ensures r.autoReset == m.autoReset && r.duration == m.duration && r.saverPresent == m.saverPresent
  {
    m.(clues := clues)
  }

  /** `GetAllClues()`: a copy holding exactly the clues the manager has. */
  function GetAllClues(m: Manager): (r: set<string>)
    ensures forall id :: id in r <==> HasClue(m, id)
  {
    m.clues
  }

  /** `GetLoopSeed()`: the seed of a loop is its loop count, so it is never negative. */
  function GetLoopSeed(m: Manager): (r: int)
    ensures r == m.count && r >= 0
  {
    m.count
  }

  /** `LoopProgress`: elapsed time as a fraction of the loop length. */
  function LoopProgress(m: Manager): (r: real)
    requires Valid(m)
    ensures 0.0 <= m.time <= m.duration ==> 0.0 <= r <= 1.0
    ensures m.time >= m.duration ==> r >= 1.0
  {
    ProgressBounds(m.time, m.duration);
    m.time / m.duration
  }

  lemma ProgressBounds(t: real, d: real)
    requires d > 0.0
    ensures 0.0 <= t <= d ==> 0.0 <= t / d <= 1.0
    ensures t >= d ==> t / d >= 1.0
  {
    var q := t / d;
    assert q * d == t;
    if q < 0.0 {
      SignOfProduct(q, d);
    }
    if q != 1.0 {
      SignOfProduct(q - 1.0, d);
      assert (q - 1.0) * d == t - d;
    }
  }

  lemma SignOfProduct(x: real, y: real)
    requires y > 0.0
    ensures x > 0.0 ==> x * y > 0.0
    ensures x < 0.0 ==> x * y < 0.0
  {
  }

  // ---------------------------------------------------------------------------
  // Properties of the reset protocol

  /**
   A reset followed by the delayed start: the new loop starts at time 0 with the
   seed one higher, and the trace gained exactly the protocol's five events.
   */
  lemma ResetThenStart(m: Manager)
    requires Valid(m) && !m.resetting
    ensures var r := FireScheduledStart(ForceResetLoop(m));
      && GetLoopSeed(r) == GetLoopSeed(m) + 1
      && r.time == 0.0 && !r.resetting && Valid(r)
      && r.clues == m.clues && r.autoReset == m.autoReset
      && r.trace == m.trace + [CountChanged(m.count + 1), LoopReset, TeleportToSpawn, StartScheduled, LoopStart]
  {
  }

  /** The operations the rest of the game performs on the manager. */
  datatype Op =
    | Tick(dt: real)
    | Force
    | FireStart
    | Stop
    | Discover(id: string)

  function Apply(m: Manager, op: Op): (r: Manager)
    requires Valid(m)
    ensures Valid(r)
  {
    match op
    case Tick(dt) => Update(m, dt)
    case Force => ForceResetLoop(m)
    case FireStart => FireScheduledStart(m)
    case Stop => StopLoop(m)
    case Discover(id) => AddClue(m, id)
  }

  function Run(m: Manager, ops: seq<Op>): (r: Manager)
    requires Valid(m)
    ensures Valid(r)
    decreases |ops|
  {
    if |ops| == 0 then m else Run(Apply(m, ops[0]), ops[1..])
  }

  /** The loop counts carried by the `CountChanged` events of a trace, in order. */
  function CountsOf(trace: seq<LoopEvent>): seq<nat> {
    if |trace| == 0 then []
    else
      var last := trace[|trace| - 1];
      CountsOf(trace[..|trace| - 1]) + (if last.CountChanged? then [last.count] else [])
  }

  lemma CountsOfAppend(a: seq<LoopEvent>, b: seq<LoopEvent>)
    ensures CountsOf(a + b) == CountsOf(a) + CountsOf(b)
    decreases |b|
  {
    if |b| == 0 {
      assert a + b == a;
    } else {
      assert (a + b)[..|a + b| - 1] == a + b[..|b| - 1];
      CountsOfAppend(a, b[..|b| - 1]);
    }
  }

  /**
   The counts announced so far go up by exactly one each time and end at the
   current count: the i-th `CountChanged` (from 0) carries `count - n + i + 1`.
   */
  ghost predicate CountsStepByOne(m: Manager) {
    var cs := CountsOf(m.trace);
    && |cs| <= m.count
    && forall i :: 0 <= i < |cs| ==> cs[i] == m.count - |cs| + i + 1
  }

  lemma {:induction false} ApplyKeepsCounts(m: Manager, op: Op)
    requires Valid(m) && CountsStepByOne(m)
    ensures CountsStepByOne(Apply(m, op))
    ensures m.count <= Apply(m, op).count <= m.count + 1
    ensures m.clues <= Apply(m, op).clues
  {
    var r := Apply(m, op);
    var added := AddedEvents(m, op);
    CountsOfAppend(m.trace, added);
    var cs := CountsOf(m.trace);
    var cs' := CountsOf(r.trace);
    if r.count == m.count + 1 {
      assert cs' == cs + [m.count + 1];
      forall i | 0 <= i < |cs'| ensures cs'[i] == r.count - |cs'| + i + 1 {
        if i < |cs| { assert cs'[i] == cs[i]; }
      }
    } else {
      assert cs' == cs;
    }
  }

  /** The events one operation appends, and the counts they announce. */
  lemma AddedEvents(m: Manager, op: Op) returns (added: seq<LoopEvent>)
    requires Valid(m)
    ensures Apply(m, op).trace == m.trace + added
    ensures Apply(m, op).count == m.count + 1 ==> CountsOf(added) == [m.count + 1]
    ensures Apply(m, op).count != m.count + 1 ==> Apply(m, op).count == m.count && CountsOf(added) == []
  {
    var r := Apply(m, op);
    var protocol := [CountChanged(m.count + 1), LoopReset, TeleportToSpawn, StartScheduled];
    assert CountsOf(protocol) == [m.count + 1] by { ProtocolCounts(m.count + 1); }
    match op {
      case Tick(dt) =>
        if m.resetting {
          added := [];
        } else {
          var tick := [TimeUpdated(m.time + dt)];
          assert CountsOf(tick) == [] by { assert CountsOf(tick) == CountsOf([]) + []; }
          if m.time + dt >= m.duration && m.autoReset {
            added := tick + protocol;
            CountsOfAppend(tick, protocol);
          } else {
            added := tick;
          }
        }
      case Force =>
        added := if m.resetting then [] else protocol;
      case FireStart =>
        added := if m.startPending then [LoopStart] else [];
        assert CountsOf([LoopStart]) == [] by { assert CountsOf([LoopStart]) == CountsOf([]) + []; }
      case Stop =>
        added := [];
      case Discover(id) =>
        added := if id in m.clues || !m.saverPresent then [] else [CluesSaved(m.clues + {id})];
        assert CountsOf([CluesSaved(m.clues + {id})]) == [] by {
          assert CountsOf([CluesSaved(m.clues + {id})]) == CountsOf([]) + [];
        }
    }
    assert r.trace == m.trace + added;
  }

  lemma ProtocolCounts(n: nat)
    ensures CountsOf([CountChanged(n), LoopReset, TeleportToSpawn, StartScheduled]) == [n]
  {
    var p1 := [CountChanged(n)];
    var p2 := p1 + [LoopReset];
    var p3 := p2 + [TeleportToSpawn];
    var p4 := p3 + [StartScheduled];
    assert p1[..0] == [];
    assert CountsOf(p1) == [n];
    assert p2[..1] == p1;
    assert CountsOf(p2) == [n];
    assert p3[..2] == p2;
    assert CountsOf(p3) == [n];
    assert p4[..3] == p3;
    assert CountsOf(p4) == [n];
    assert p4 == [CountChanged(n), LoopReset, TeleportToSpawn, StartScheduled];
  }

  /**
   Over any run of operations the loop count never decreases, discovered clues
   are never lost, and every `CountChanged` carries the count it moved to.
   */
  lemma {:induction false} RunMonotone(m: Manager, ops: seq<Op>)
    requires Valid(m) && CountsStepByOne(m)
    ensures m.count <= Run(m, ops).count <= m.count + |ops|
    ensures m.clues <= Run(m, ops).clues
    ensures CountsStepByOne(Run(m, ops))
    decreases |ops|
  {
    if |ops| > 0 {
      ApplyKeepsCounts(m, ops[0]);
      RunMonotone(Apply(m, ops[0]), ops[1..]);
    }
  }

  /** Ticks only. */
  function RunTicks(m: Manager, dts: seq<real>): (r: Manager)
    requires Valid(m)
    ensures Valid(r)
    decreases |dts|
  {
    if |dts| == 0 then m else RunTicks(Update(m, dts[0]), dts[1..])
  }

  /**
   After `StopLoop`, no amount of elapsed time resets the loop: ticks keep
   advancing time but the count and reset flag stay as they are.
   */
  lemma {:induction false} StoppedTicksNeverReset(m: Manager, dts: seq<real>)
    requires Valid(m) && !m.autoReset && !m.resetting
    ensures RunTicks(m, dts).count == m.count
    ensures !RunTicks(m, dts).resetting
    ensures !RunTicks(m, dts).autoReset
    decreases |dts|
  {
    if |dts| > 0 {
      StoppedTicksNeverReset(Update(m, dts[0]), dts[1..]);
    }
  }

  /** A stopped loop still honours a forced reset. */
  lemma StopThenForce(m: Manager)
    requires Valid(m) && !m.resetting
    ensures ForceResetLoop(StopLoop(m)).count == m.count + 1
    ensures !ForceResetLoop(StopLoop(m)).autoReset
  {
  }

  /** With auto-reset on, a tick resets exactly when it reaches the loop length. */
  lemma TickResetsIffLoopOver(m: Manager, dt: real)
    requires Valid(m) && !m.resetting && m.autoReset
    ensures Update(m, dt).count == m.count + 1 <==> m.time + dt >= m.duration
    ensures Update(m, dt).resetting <==> m.time + dt >= m.duration
  {
  }
}

=== FILE: time_of_day.dfy ===
/**
 The day-night clock of the game (`TimeOfDaySystem` under `Assets/TimeLoopCity`):
 while a loop runs the hour follows the loop's progress from 6 to 20; otherwise
 it advances freely and wraps at 24. Each change of the whole hour is broadcast
 once through `OnHourChanged`.
 */
module TimeOfDay {
  import opened Common
  import TimeLoop

  /** The clock: the hour, its speed when free-running, the last broadcast hour and the broadcasts made. */
  datatype Clock = Clock(hour: real, timeSpeed: real, lastBroadcastHour: int, broadcasts: seq<int>)

  /** The serialized defaults: 8 AM, real-time speed, nothing broadcast yet (-1). */
  function Create(): (c: Clock)
    ensures c.hour == 8.0 && c.timeSpeed == 1.0 && c.lastBroadcastHour == -1 && c.broadcasts == []
  {
    Clock(8.0, 1.0, -1, [])
  }

  /** `BroadcastHourIfNeeded()`: the floored hour is raised only when it differs from the last one raised. */
  function BroadcastHourIfNeeded(c: Clock): (r: Clock)
    ensures r.hour == c.hour && r.timeSpeed == c.timeSpeed
    ensures r.lastBroadcastHour == FloorToInt(c.hour)
    ensures FloorToInt(c.hour) == c.lastBroadcastHour ==> r == c
    ensures FloorToInt(c.hour) != c.lastBroadcastHour ==> r.broadcasts == c.broadcasts + [FloorToInt(c.hour)]
  {
    var rounded := FloorToInt(c.hour);
    if rounded == c.lastBroadcastHour then c
    else c.(lastBroadcastHour := rounded, broadcasts := c.broadcasts + [rounded])
  }

  /** Broadcasting twice in a row raises nothing the second time. */
  lemma BroadcastIdempotent(c: Clock)
    ensures BroadcastHourIfNeeded(BroadcastHourIfNeeded(c)) == BroadcastHourIfNeeded(c)
  {
  }

  /** The first broadcast of a fresh clock always fires, since no hour floors to -1 from [0, 24]. */
  lemma FirstBroadcastFires(hour: real)
    requires 0.0 <= hour <= 24.0
    ensures BroadcastHourIfNeeded(Create().(hour := hour)).broadcasts == [FloorToInt(hour)]
  {
  }

  /**
   `Update()` with frame time `dt`: the hour follows the loop when a manager
   exists and is not resetting, else it advances and wraps into [0, 24); then
   the hour is broadcast if needed.
   */
  function Update(c: Clock, loop: Option<TimeLoop.Manager>, dt: real): (r: Clock)
    requires loop.Some? ==> TimeLoop.Valid(loop.value)
    ensures loop.Some? && !loop.value.resetting ==>
      r.hour == Lerp(6.0, 20.0, TimeLoop.LoopProgress(loop.value)) && 6.0 <= r.hour <= 20.0
    ensures !(loop.Some? && !loop.value.resetting) ==>
      r.hour == RepeatDay(c.hour + c.timeSpeed * dt) && 0.0 <= r.hour < 24.0
    ensures r == BroadcastHourIfNeeded(c.(hour := r.hour))
  {
    var hour :=
      if loop.Some? && !loop.value.resetting then Lerp(6.0, 20.0, TimeLoop.LoopProgress(loop.value))
      else RepeatDay(c.hour + c.timeSpeed * dt);
    BroadcastHourIfNeeded(c.(hour := hour))
  }

  /** `SetTimeOfDay(hour)`: the hour clamped to [0, 24], then broadcast if needed. */
  function SetTimeOfDay(c: Clock, hour: real): (r: Clock)
    ensures 0.0 <= r.hour <= 24.0
    ensures 0.0 <= hour <= 24.0 ==> r.hour == hour
    ensures hour < 0.0 ==> r.hour == 0.0
    ensures hour > 24.0 ==> r.hour == 24.0
    ensures r == BroadcastHourIfNeeded(c.(hour := r.hour))
  {
    BroadcastHourIfNeeded(c.(hour := Clamp(hour, 0.0, 24.0)))
  }

  /** `GetCurrentHour()`. */
  function GetCurrentHour(c: Clock): real {
    c.hour
  }

  /** `IsNight()`: night is every hour outside the span [6, 20] a running loop covers. */
  function IsNight(c: Clock): (r: bool)
    ensures r <==> !(6.0 <= GetCurrentHour(c) <= 20.0)
  {
    c.hour < 6.0 || c.hour > 20.0
  }

  /**
   The hour read back after `SetTimeOfDay(h)` is `h` clamped to [0, 24], and the
   clock reports night exactly when `h` is before 6 or after 20.
   */
  lemma SetThenGet(c: Clock, h: real)
    ensures GetCurrentHour(SetTimeOfDay(c, h)) == Clamp(h, 0.0, 24.0)
    ensures IsNight(SetTimeOfDay(c, h)) <==> h < 6.0 || h > 20.0
  {
  }

  /**
   A free-running clock (no loop manager, or the loop resetting) whose advanced
   hour stays within the day reads that hour, and reports night exactly when it
   is before 6 or after 20; so running on past 20:00 reaches night.
   */
  lemma FreeRunningNight(c: Clock, loop: Option<TimeLoop.Manager>, dt: real)
    requires loop.Some? ==> TimeLoop.Valid(loop.value) && loop.value.resetting
    requires 0.0 <= c.hour + c.timeSpeed * dt < 24.0
    ensures GetCurrentHour(Update(c, loop, dt)) == c.hour + c.timeSpeed * dt
    ensures IsNight(Update(c, loop, dt)) <==> c.hour + c.timeSpeed * dt < 6.0 || c.hour + c.timeSpeed * dt > 20.0
  {
  }

  /** While a loop runs the clock never shows night, except exactly 20:00 is day as well. */
  lemma RunningLoopIsDay(c: Clock, m: TimeLoop.Manager, dt: real)
    requires TimeLoop.Valid(m) && !m.resetting
    ensures !IsNight(Update(c, Some(m), dt))
  {
  }
}

=== FILE: traffic.dfy ===
/**
 Car spawning (`TrafficSystem`): a pool of `maxCars` cars made at start; every
 `spawnInterval` seconds of accumulated frame time a pooled car is placed on a
 random spawn point while fewer than `maxCars` are out; cars come back to the
 pool when returned. Waypoints are compared by value.
 */
module Traffic {
  import opened Common
  import opened Random
  import ObjectPool

  /** A spawn waypoint and the waypoint a car placed on it heads for next. */
  datatype Waypoint = Waypoint(id: nat, next: Option<nat>)

  /**
   The system's fields, the pool being null before `Start()`; `placed` records
   the spawn point each car spawned so far was put on (its position and
   rotation are copied from that point), and `heading` the waypoint it was sent
   towards.
   */
  datatype Traffic = Traffic(
    maxCars: int,
    spawnInterval: real,
    spawnPoints: seq<Waypoint>,
    timer: real,
    currentCars: int,
    pool: Option<ObjectPool.Pool>,
    placed: map<nat, nat>,
    heading: map<nat, Option<nat>>)

  const DefaultMaxCars := 10
  const DefaultSpawnInterval := 3.0

  /** The count of cars out stays between zero and the cap, spawn points are distinct, the pool is sound. */
  predicate Valid(t: Traffic) {
    && 0 <= t.currentCars <= MaxInt(t.maxCars, 0)
    && NoDuplicates(t.spawnPoints)
    && (t.pool.Some? ==> ObjectPool.Valid(t.pool.value))
  }

  /** The serialized defaults, before `Start()`. */
  function Create(): (t: Traffic)
    ensures Valid(t)
    ensures t.maxCars == DefaultMaxCars && t.spawnInterval == DefaultSpawnInterval
    ensures t.spawnPoints == [] && t.currentCars == 0 && t.timer == 0.0 && t.pool.None?
  {
    Traffic(DefaultMaxCars, DefaultSpawnInterval, [], 0.0, 0, None, map[], map[])
  }

  /** `InitializePool()`, with the cars the pool instantiates: `maxCars` of them, all parked. */
  function InitializePool(t: Traffic, made: seq<nat>): (r: Traffic)
    requires Valid(t)
    requires |made| == MaxInt(t.maxCars, 0) && NoDuplicates(made)
    ensures Valid(r)
    ensures r == t.(pool := Some(ObjectPool.Create(t.maxCars, made)))
    ensures |r.pool.value.queue| == MaxInt(t.maxCars, 0)
  {
    t.(pool := Some(ObjectPool.Create(t.maxCars, made)))
  }

  /** The precondition `Get()` puts on the car it would instantiate. */
  predicate CanGet(t: Traffic, newCar: nat) {
    t.pool.Some? ==>
      && ObjectPool.Valid(t.pool.value)
      && (|t.pool.value.queue| == 0 ==> newCar !in t.pool.value.objects)
  }

  /**
   `SpawnCar()`, with the draw `u` for `Random.Range(0, Count)`: without a pool
   nothing happens; otherwise the car from the pool is placed on the spawn point
   drawn, sent towards that point's next waypoint, and counted.
   */
  function SpawnCar(t: Traffic, u: Fraction, newCar: nat): (r: Traffic)
    requires |t.spawnPoints| > 0 && CanGet(t, newCar)
    ensures t.pool.None? ==> r == t
    ensures t.pool.Some? ==>
      var (car, pool') := ObjectPool.Get(t.pool.value, newCar);
      var sp := t.spawnPoints[IntIn(u, 0, |t.spawnPoints|)];
      && r.pool == Some(pool')
      && r.currentCars == t.currentCars + 1
      && car in r.placed && r.placed[car] == sp.id
      && car in r.heading && r.heading[car] == sp.next
      && pool'.objects[car]
      && (forall c :: c in t.placed && c != car ==> c in r.placed && r.placed[c] == t.placed[c])
    ensures r.spawnPoints == t.spawnPoints && r.maxCars == t.maxCars && r.timer == t.timer
  {
    if t.pool.None? then t
    else
      var sp := t.spawnPoints[IntIn(u, 0, |t.spawnPoints|)];
      var (car, pool') := ObjectPool.Get(t.pool.value, newCar);
      t.(pool := Some(pool'), placed := t.placed[car := sp.id], heading := t.heading[car := sp.next],
         currentCars := t.currentCars + 1)
  }

  /** Draws that pick spawn points with different ids spawn the car in different places. */
  lemma SpawnPlacementFollowsDraw(t: Traffic, u1: Fraction, u2: Fraction, newCar: nat)
    requires |t.spawnPoints| > 0 && CanGet(t, newCar) && t.pool.Some?
    requires t.spawnPoints[IntIn(u1, 0, |t.spawnPoints|)].id != t.spawnPoints[IntIn(u2, 0, |t.spawnPoints|)].id
    ensures SpawnCar(t, u1, newCar) != SpawnCar(t, u2, newCar)
  {
    var car := ObjectPool.Get(t.pool.value, newCar).0;
    assert SpawnCar(t, u1, newCar).placed[car] != SpawnCar(t, u2, newCar).placed[car];
  }

  /** Whether a frame of length `dt` reaches the spawn threshold with room for another car. */
  predicate Due(t: Traffic, dt: real) {
    t.timer + dt >= t.spawnInterval && t.currentCars < t.maxCars
  }

  /**
   `Update()` for a frame of length `dt`: nothing without spawn points;
   otherwise the timer grows by `dt`, and once it reaches the interval with room
   for another car a spawn is attempted and the timer restarts, even when the
   attempt does nothing because there is no pool yet.
   */
  function Update(t: Traffic, dt: real, u: Fraction, newCar: nat): (r: Traffic)
    requires Valid(t) && CanGet(t, newCar)
    ensures Valid(r)
    ensures |t.spawnPoints| == 0 ==> r == t
    ensures |t.spawnPoints| > 0 && !Due(t, dt) ==> r == t.(timer := t.timer + dt)
    ensures |t.spawnPoints| > 0 && Due(t, dt) ==> r.timer == 0.0
    ensures r.currentCars == t.currentCars + 1 <==> |t.spawnPoints| > 0 && Due(t, dt) && t.pool.Some?
    ensures r.currentCars != t.currentCars + 1 ==> r.currentCars == t.currentCars && r.pool == t.pool
    ensures r.spawnPoints == t.spawnPoints && r.maxCars == t.maxCars
  {
    if |t.spawnPoints| == 0 then t
    else
      var t1 := t.(timer := t.timer + dt);
      if Due(t, dt) then SpawnCar(t1, u, newCar).(timer := 0.0) else t1
  }

  /**
   `ReturnCar(car)`: ignored for a null car or before the pool exists; otherwise
   the car goes back to the pool and the count drops by one, never below zero.
   */
  function ReturnCar(t: Traffic, car: Option<nat>): (r: Traffic)
    requires Valid(t)
    ensures Valid(r)
    ensures car.None? || t.pool.None? ==> r == t
    ensures car.Some? && t.pool.Some? ==>
      && r.pool == Some(ObjectPool.Return(t.pool.value, car.value))
      && r.currentCars == MaxInt(0, t.currentCars - 1)
      && r.timer == t.timer && r.spawnPoints == t.spawnPoints
  {
    if car.None? || t.pool.None? then t
    else t.(pool := Some(ObjectPool.Return(t.pool.value, car.value)), currentCars := MaxInt(0, t.currentCars - 1))
  }

  /** `RegisterSpawnPoint(wp)`: a non-null waypoint not yet listed is appended. */
  function RegisterSpawnPoint(t: Traffic, wp: Option<Waypoint>): (r: Traffic)
    requires Valid(t)
    ensures Valid(r)
    ensures wp.None? || wp.value in t.spawnPoints ==> r == t
    ensures wp.Some? && wp.value !in t.spawnPoints ==> r == t.(spawnPoints := t.spawnPoints + [wp.value])
    ensures wp.Some? ==> wp.value in r.spawnPoints
  {
    if wp.Some? && wp.value !in t.spawnPoints then t.(spawnPoints := t.spawnPoints + [wp.value]) else t
  }

  /**
   The pool made at start holds every car not out on the road: the parked cars
   plus the cars out make up `maxCars`.
   */
  predicate Balanced(t: Traffic) {
    t.pool.Some? && |t.pool.value.queue| + t.currentCars == MaxInt(t.maxCars, 0)
  }

  /** Right after the pool is made, all `maxCars` cars are parked. */
  lemma InitializedIsBalanced(t: Traffic, made: seq<nat>)
    requires Valid(t) && t.currentCars == 0
    requires |made| == MaxInt(t.maxCars, 0) && NoDuplicates(made)
    ensures Balanced(InitializePool(t, made))
  {
  }

  /**
   While balanced, a spawn always finds a parked car, so the pool never has to
   instantiate a new one.
   */
  lemma BalancedNeverInstantiates(t: Traffic, dt: real)
    requires Valid(t) && Balanced(t) && Due(t, dt)
    ensures |t.pool.value.queue| > 0
  {
  }

  /** Frames keep the balance. */
  lemma UpdateKeepsBalance(t: Traffic, dt: real, u: Fraction, newCar: nat)
    requires Valid(t) && Balanced(t) && CanGet(t, newCar)
    ensures Balanced(Update(t, dt, u, newCar))
  {
    if |t.spawnPoints| > 0 && Due(t, dt) {
      BalancedNeverInstantiates(t, dt);
    }
  }

  /** Returning a car that is out keeps the balance. */
  lemma ReturnKeepsBalance(t: Traffic, car: nat)
    requires Valid(t) && Balanced(t) && t.currentCars > 0
    ensures Balanced(ReturnCar(t, Some(car)))
  {
  }

  /** A spawn followed by the return of the car spawned restores the count and parks the car again. */
  lemma SpawnThenReturn(t: Traffic, dt: real, u: Fraction, newCar: nat)
    requires Valid(t) && CanGet(t, newCar) && t.pool.Some?
    requires |t.spawnPoints| > 0 && Due(t, dt)
    ensures var car := ObjectPool.Get(t.pool.value, newCar).0;
      var r := ReturnCar(Update(t, dt, u, newCar), Some(car));
      && r.currentCars == t.currentCars
      && r.pool.value.queue[|r.pool.value.queue| - 1] == car
      && !r.pool.value.objects[car]
  {
  }
}

=== FILE: weather.dfy ===
/**
 The weather kinds of the world state (`WeatherType`) and the weather system
 (`WeatherSystem`): choosing a weather plays the matching particle effect,
 sets the rain emission rate, moves the fog density towards the weather's
 target and switches fog rendering.
 */
module Weather {
  import opened Common

  /** `WeatherType`, in declaration order. */
  datatype WeatherType = Sunny | Cloudy | Rainy | Foggy | Stormy

  /** `Enum.GetValues(typeof(WeatherType)).Length`. */
  const WeatherCount: int := 5

  /** The integer value of an enum member. */
  function Ordinal(w: WeatherType): (r: int)
    ensures 0 <= r < WeatherCount
  {
    match w
    case Sunny => 0
    case Cloudy => 1
    case Rainy => 2
    case Foggy => 3
    case Stormy => 4
  }

  /** The cast `(WeatherType)i` for an index of a declared member. */
  function FromOrdinal(i: int): (w: WeatherType)
    requires 0 <= i < WeatherCount
    ensures Ordinal(w) == i
  {
    if i == 0 then Sunny
    else if i == 1 then Cloudy
    else if i == 2 then Rainy
    else if i == 3 then Foggy
    else Stormy
  }

  /** The cast and the member's value are inverse to each other. */
  lemma OrdinalRoundTrip(w: WeatherType)
    ensures FromOrdinal(Ordinal(w)) == w
  {
  }

  /** The fog density a weather aims for. */
  function TargetFog(w: WeatherType): (r: real)
    ensures 0.0 <= r <= 0.05
    ensures r == 0.0 <==> w == Sunny
  {
    match w
    case Rainy => 0.01
    case Stormy => 0.01
    case Foggy => 0.05
    case Cloudy => 0.005
    case Sunny => 0.0
  }

  /** The rain emission rate a weather sets, if it sets one. */
  function RainRate(w: WeatherType): (r: Option<real>)
    ensures r.Some? <==> w == Rainy || w == Stormy
  {
    match w
    case Stormy => Some(500.0)
    case Rainy => Some(200.0)
    case _ => None
  }

  /** A particle effect: whether it plays and its emission rate. */
  datatype Particles = Particles(playing: bool, rate: real)

  /** The render settings and the sun light the weather system touches. */
  datatype Scene = Scene(fogDensity: real, fogEnabled: bool, sunIntensity: Option<real>)

  /** `WeatherSystem`: the current weather, the transition speed and the optional effects. */
  datatype WeatherSystem = WeatherSystem(
    current: WeatherType,
    transitionSpeed: real,
    rain: Option<Particles>,
    fog: Option<Particles>,
    snow: Option<Particles>)

  function Stop(p: Option<Particles>): (r: Option<Particles>)
    ensures r.Some? <==> p.Some?
    ensures r.Some? ==> !r.value.playing && r.value.rate == p.value.rate
  {
    if p.Some? then Some(p.value.(playing := false)) else None
  }

  /** The interpolation factor: 1 when instant, else `Clamp01(dt * transitionSpeed)`. */
  function LerpFactor(instant: bool, dt: real, speed: real): (r: real)
    ensures 0.0 <= r <= 1.0
    ensures instant ==> r == 1.0
  {
    if instant then 1.0 else Clamp01(dt * speed)
  }

  /**
   `ApplyWeather(weather, instant)` with frame time `dt`: every effect is stopped,
   then the rain effect plays for rain and storm (at 200 or 500), the fog effect
   for fog, the sun dims to 70% for cloud; the fog density moves from its value
   towards the target and fog is rendered for any weather but sun.
   */
  function ApplyWeather(ws: WeatherSystem, scene: Scene, weather: WeatherType, instant: bool, dt: real): (r: (WeatherSystem, Scene))
    ensures r.0.current == ws.current && r.0.transitionSpeed == ws.transitionSpeed
    ensures r.1.fogEnabled <==> weather != Sunny
    ensures instant ==> r.1.fogDensity == TargetFog(weather)
    ensures scene.fogDensity <= TargetFog(weather) ==> scene.fogDensity <= r.1.fogDensity <= TargetFog(weather)
    ensures TargetFog(weather) <= scene.fogDensity ==> TargetFog(weather) <= r.1.fogDensity <= scene.fogDensity
    ensures r.0.rain.Some? <==> ws.rain.Some?
    ensures r.0.rain.Some? ==>
      && (r.0.rain.value.playing <==> RainRate(weather).Some?)
      && r.0.rain.value.rate == (if RainRate(weather).Some? then RainRate(weather).value else ws.rain.value.rate)
    ensures r.0.fog.Some? <==> ws.fog.Some?
    ensures r.0.fog.Some? ==> (r.0.fog.value.playing <==> weather == Foggy)
    ensures r.0.snow.Some? <==> ws.snow.Some?
    ensures r.0.snow.Some? ==> !r.0.snow.value.playing
    ensures r.1.sunIntensity.Some? <==> scene.sunIntensity.Some?
    ensures r.1.sunIntensity.Some? ==>
      r.1.sunIntensity.value == (if weather == Cloudy then scene.sunIntensity.value * 0.7 else scene.sunIntensity.value)
  {
    var rain := Stop(ws.rain);
    var fog := Stop(ws.fog);
    var snow := Stop(ws.snow);
    var rain' := if rain.Some? && RainRate(weather).Some? then Some(Particles(true, RainRate(weather).value)) else rain;
    var fog' := if fog.Some? && weather == Foggy then Some(fog.value.(playing := true)) else fog;
    var sun := if weather == Cloudy && scene.sunIntensity.Some? then Some(scene.sunIntensity.value * 0.7) else scene.sunIntensity;
    var density := Lerp(scene.fogDensity, TargetFog(weather), LerpFactor(instant, dt, ws.transitionSpeed));
    (ws.(rain := rain', fog := fog', snow := snow), Scene(density, weather != Sunny, sun))
  }

  /** `Start()`: the configured weather is applied at once. */
  function Start(ws: WeatherSystem, scene: Scene): (r: (WeatherSystem, Scene))
    ensures r.0.current == ws.current
    ensures r.1.fogDensity == TargetFog(ws.current)
    ensures r.1.fogEnabled <==> ws.current != Sunny
  {
    ApplyWeather(ws, scene, ws.current, true, 0.0)
  }

  /**
   `SetWeather(weather)`: the current weather is a no-op; any other becomes
   current and is applied as a transition.
   */
  function SetWeather(ws: WeatherSystem, scene: Scene, weather: WeatherType, dt: real): (r: (WeatherSystem, Scene))
    ensures r.0.current == weather
    ensures ws.current == weather ==> r == (ws, scene)
    ensures ws.current != weather ==> r == ApplyWeather(ws.(current := weather), scene, weather, false, dt)
  {
    if ws.current == weather then (ws, scene)
    else ApplyWeather(ws.(current := weather), scene, weather, false, dt)
  }

  /** Setting the same weather again changes nothing. */
  lemma SetWeatherIdempotent(ws: WeatherSystem, scene: Scene, weather: WeatherType, dt: real, dt': real)
    ensures var r := SetWeather(ws, scene, weather, dt);
      SetWeather(r.0, r.1, weather, dt') == r
  {
  }
}

=== FILE: world_state.dfy ===
/**
 The per-loop world state (`WorldStateManager` under `Scripts/World`): at each
 loop reset the generator is seeded with the loop seed and the weather, the hour,
 the traffic density and the NPC activity are drawn in that order; at each loop
 start the stored weather and hour are handed to the weather system and the
 clock.
 */
module WorldState {
  import opened Common
  import opened Random
  import TimeLoop
  import Weather
  import StarterTimeOfDay

  /** `WorldState`. */
  datatype WorldState = WorldState(
    loopNumber: int,
    weatherType: Weather.WeatherType,
    timeOfDay: real,
    trafficDensity: real,
    npcActivityLevel: real)

  /**
   `RandomizeWorldState()`: `None` stands for the NullReferenceException raised
   when no loop manager exists. Otherwise the generator is seeded with the loop
   seed and draws 0 to 3 after seeding give, in order, the weather, the hour,
   the traffic density and the NPC activity; the stream left behind has made
   exactly those four draws.
   */
  function RandomizeWorldState(loop: Option<TimeLoop.Manager>, g: Generator): (r: Option<(WorldState, Stream)>)
    ensures r.None? <==> loop.None?
    ensures r.Some? ==>
      var (ws, s) := r.value;
      var seed := TimeLoop.GetLoopSeed(loop.value);
      && ws.loopNumber == loop.value.count
      && s == Stream(seed, 4)
      && Weather.Ordinal(ws.weatherType) == IntIn(g(seed, 0), 0, Weather.WeatherCount)
      && ws.timeOfDay == RealIn(g(seed, 1), 6.0, 18.0)
      && ws.trafficDensity == RealIn(g(seed, 2), 0.3, 1.0)
      && ws.npcActivityLevel == RealIn(g(seed, 3), 0.5, 1.0)
    ensures r.Some? ==> InRange(r.value.0)
  {
    if loop.None? then None
    else
      var m := loop.value;
      var s0 := InitState(TimeLoop.GetLoopSeed(m));
      var (w, s1) := NextInt(g, s0, 0, Weather.WeatherCount);
      var (hour, s2) := NextReal(g, s1, 6.0, 18.0);
      var (traffic, s3) := NextReal(g, s2, 0.3, 1.0);
      var (activity, s4) := NextReal(g, s3, 0.5, 1.0);
      Some((WorldState(m.count, Weather.FromOrdinal(w), hour, traffic, activity), s4))
  }

  /** The ranges the draws promise: hour in [6, 18], traffic in [0.3, 1], activity in [0.5, 1]. */
  predicate InRange(ws: WorldState) {
    && 6.0 <= ws.timeOfDay <= 18.0
    && 0.3 <= ws.trafficDensity <= 1.0
    && 0.5 <= ws.npcActivityLevel <= 1.0
  }

  /** The same loop count always yields the same world state, whatever else differs. */
  lemma SameLoopSameWorld(m1: TimeLoop.Manager, m2: TimeLoop.Manager, g: Generator)
    requires m1.count == m2.count
    ensures RandomizeWorldState(Some(m1), g) == RandomizeWorldState(Some(m2), g)
  {
  }

  /** The reset protocol raises `OnLoopReset` after the increment, so the new loop's seed is used. */
  lemma ResetDrawsForNewLoop(m: TimeLoop.Manager, g: Generator)
    requires TimeLoop.Valid(m) && !m.resetting
    ensures RandomizeWorldState(Some(TimeLoop.ResetLoop(m)), g).Some?
    ensures RandomizeWorldState(Some(TimeLoop.ResetLoop(m)), g).value.0.loopNumber == m.count + 1
  {
  }

  /** The systems the state is applied to, each possibly missing from the scene. */
  datatype Systems = Systems(
    weather: Option<(Weather.WeatherSystem, Weather.Scene)>,
    clock: Option<StarterTimeOfDay.Clock>)

  /**
   `ApplyWorldState()` with frame time `dt`: the stored weather goes to
   `SetWeather` and the stored hour to `SetTimeOfDay`, each only when its system
   exists. The object jitter that follows is not part of this model.
   */
  function ApplyWorldState(ws: WorldState, sys: Systems, dt: real): (r: Systems)
    ensures r.weather.Some? <==> sys.weather.Some?
    ensures r.clock.Some? <==> sys.clock.Some?
    ensures sys.weather.Some? ==>
      r.weather.value == Weather.SetWeather(sys.weather.value.0, sys.weather.value.1, ws.weatherType, dt)
    ensures sys.weather.Some? ==> r.weather.value.0.current == ws.weatherType
    ensures sys.clock.Some? ==> r.clock.value == StarterTimeOfDay.SetTimeOfDay(sys.clock.value, ws.timeOfDay)
    ensures sys.clock.Some? && InRange(ws) ==> StarterTimeOfDay.GetCurrentHour(r.clock.value) == ws.timeOfDay
  {
    var weather :=
      if sys.weather.Some? then Some(Weather.SetWeather(sys.weather.value.0, sys.weather.value.1, ws.weatherType, dt))
      else None;
    var clock := if sys.clock.Some? then Some(StarterTimeOfDay.SetTimeOfDay(sys.clock.value, ws.timeOfDay)) else None;
    Systems(weather, clock)
  }

  /**
   The manager's lifecycle state: the current world state (null before the
   first randomization) and whether it listens to the loop's events.
   */
  datatype Host = Host(current: Option<WorldState>, subscribed: bool)

  /**
   `Start()`: subscribes to reset and start when a manager exists, then
   randomizes and applies once. `None` is the exception raised without a manager.
   */
  function Start(loop: Option<TimeLoop.Manager>, sys: Systems, g: Generator, dt: real): (r: Option<(Host, Systems)>)
    ensures r.None? <==> loop.None?
    ensures r.Some? ==>
      && r.value.0.subscribed
      && r.value.0.current == Some(RandomizeWorldState(loop, g).value.0)
      && r.value.1 == ApplyWorldState(RandomizeWorldState(loop, g).value.0, sys, dt)
  {
    match RandomizeWorldState(loop, g)
    case None => None
    case Some((ws, _)) => Some((Host(Some(ws), loop.Some?), ApplyWorldState(ws, sys, dt)))
  }

  /** `OnLoopReset`: a listening manager draws the new loop's state. */
  function LoopReset(h: Host, m: TimeLoop.Manager, g: Generator): (r: Host)
    ensures !h.subscribed ==> r == h
    ensures h.subscribed ==> r.subscribed && r.current == Some(RandomizeWorldState(Some(m), g).value.0)
  {
    if h.subscribed then h.(current := Some(RandomizeWorldState(Some(m), g).value.0)) else h
  }

  /**
   `OnLoopStart`: a listening manager applies the stored state; before any
   randomization the state is null, which the source dereferences, so that case
   is `None`.
   */
  function LoopStart(h: Host, sys: Systems, dt: real): (r: Option<Systems>)
    ensures !h.subscribed ==> r == Some(sys)
    ensures h.subscribed && h.current.None? ==> r.None?
    ensures h.subscribed && h.current.Some? ==> r == Some(ApplyWorldState(h.current.value, sys, dt))
  {
    if !h.subscribed then Some(sys)
    else if h.current.None? then None
    else Some(ApplyWorldState(h.current.value, sys, dt))
  }

  /**
   Across a full reset (reset event, then the delayed start event), the weather
   and hour handed on are the ones drawn for the new loop count.
   */
  lemma ResetThenStartAppliesNewLoop(h: Host, m: TimeLoop.Manager, sys: Systems, g: Generator, dt: real)
    requires TimeLoop.Valid(m) && !m.resetting && h.subscribed
    requires sys.weather.Some? && sys.clock.Some?
    ensures var m' := TimeLoop.ResetLoop(m);
      var ws := RandomizeWorldState(Some(m'), g).value.0;
      var applied := LoopStart(LoopReset(h, m', g), sys, dt);
      && ws.loopNumber == m.count + 1
      && applied.Some?
      && applied.value.weather.value.0.current == ws.weatherType
      && StarterTimeOfDay.GetCurrentHour(applied.value.clock.value) == ws.timeOfDay
  {
  }
}
